=== FILE: README.md ===
# Retirement-trace testbench and test programs, in Dafny

This project models the bookkeeping core of the behavioural testbench of an out-of-order
RISC-V (RV32) pipeline, and the small checkers and test programs around it.

- **Retirement-trace engine** (`behavioral/top.cc`). It has two id-indexed tables: the ROB
  trace (`rob_trace`, 128 records) and the LSQ-to-ROB map (`lsq_trace`, 32 entries). It
  keeps counters and occupancy histograms. The DPI event handlers fill the tables over
  several cycles. The retirement handler then:
  - merges the record into the counters;
  - renders one Spike-format commit-log line;
  - writes the memory-log line;
  - detects the HTIF `tohost` store that ends the run.

  The engine is the record `Tracer.State`, and each handler is a pure function from old
  state to new state. `TraceLine` renders the commit-log line. It also gives what the line
  reports (`Meaning`) and a reader for it (`Parse`). `MemLog` renders the bus and
  data-cache log lines. `Csr` is the CSR name table.
- **Memory-log checker** (`checkmem.py`). It pairs load requests with responses through
  their LSQ ids, and abandons the waiting requests on a flush. It then replays the log
  against a word-addressed reference RAM, with RISC-V byte-lane extraction and merging.
  `Checkmem` also proves that each line the testbench writes is read back as the access
  it logs.
- **Trace comparison** (`checktrace.py`), as a pure comparison of two line sequences.
- **Assembly splicer** (`tests/replace_func.py`), as a pure function on lines.
- **Test programs:**
  - the ring buffer of `tests/fifo.c`;
  - the open-addressing hash set and linked list of `tests/hashset.c` and
    `perf/hashset.c`;
  - the four graph programs with their queues and breadth-first searches;
  - the console printers of `tests/graph.cpp`;
  - the UART plugin of the reference simulator (`plugins/uart.cpp`);
  - the newlib stubs of `tests/stdlib.c`.

Machine integers are Dafny `nat`s bounded by subset types (`u8`, `u16`, `u32`, `u64`,
`i32`). Every C wrap-around is written out: `Wrap32`, `Inc32` and `Dec32` work modulo 2^32.
Bit tests are arithmetic: bit k of x is `(x / 2^k) % 2`. Output lines are strings.
`Fmt.Words` models Python's `str.split()` on ASCII text.

Three points where the code's behaviour is easy to misread:

- A byte store's payload is printed with `%01x`, which is a minimum width of one digit.
  The whole byte is shown unpadded (`0x5`, `0xab`), not one digit of it.
- The `tohost` store only finishes the simulation. The run derives no exit cause or status
  from the stored value.
- `tb_trace_lsq_base` and `tb_trace_lsq_wdata` do not check their LSQ id. They update the
  ROB record the id last named, which is record 0 for an id that was never dispatched
  (the tables are zero-initialised statics). They are not no-ops.

## Model

| member | source | states |
|---|---|---|
| Tracer.Init | behavioral/top.cc:91-102 | The static tables start zeroed and have their declared sizes: every ROB record is the zero record, every LSQ entry is 0, and every bucket of the three histograms is 0. Nothing is in flight, nothing has retired or branched, and the run has not finished. |
| Tracer.Decode | behavioral/top.cc:422-433 | Decode stores `insn` and `imm` in that ROB record only. It clears `uses_mem` and `writes_csr`, keeps the other memory fields, and raises the in-flight count by exactly one (mod 2^32). The LSQ map is untouched. |
| Tracer.LsqDispatch | behavioral/top.cc:443-456 | Dispatch maps `lsqid` to `robid` and sets `uses_mem`, the 8-bit `memop`, `membase` and `memdata` of that record. It changes no other LSQ entry, no other ROB record and no counter. |
| Tracer.LsqBase | behavioral/top.cc:435-441 | A late base overwrites only `membase` of the record the LSQ entry names. |
| Tracer.LsqWdata | behavioral/top.cc:458-464 | Late store data overwrites only `memdata` of the record the LSQ entry names. |
| Tracer.LateUpdatesMerge | behavioral/top.cc:435-464 | After a dispatch, a later base and data update land in the dispatched record. They replace just its base and data, and every other record and counter is as before the dispatch. |
| Tracer.LsqNamesLastDispatch | behavioral/top.cc:443-447 | After any stream of events, each LSQ entry names the ROB id of the last dispatch through it, or keeps its starting value if there was none. |
| Tracer.UndispatchedUpdateHitsRecordZero | behavioral/top.cc:435-464 | From the zeroed start, a late base or data update through an LSQ slot that was never dispatched changes ROB record 0 and no other record. |
| Tracer.CsrWrite | behavioral/top.cc:412-420 | A CSR write sets `writes_csr` and reuses `membase`/`memdata` for the CSR address and value, in that record only. |
| Tracer.RobFlush | behavioral/top.cc:394-401 | A flush zeroes the in-flight count and changes nothing else. It writes a log line exactly when logging is on, and never a trace line. |
| Tracer.RetireStats | behavioral/top.cc:470-477 | A retirement raises `instret` by one. It raises `branches` iff bit 6 of `retop` is set, and `mispreds` iff that bit and `mispred` are both set. It lowers the in-flight count by one, with uint32 wrap. |
| Tracer.Retire | behavioral/top.cc:466-535 | A retirement leaves the tables alone and updates the counters as above. The trace line is the rendering of the record exactly when tracing is on, and likewise the log line when logging is on. The run finishes iff it had already finished or this retirement is the `tohost` store. |
| Tracer.RetireTraceReportsRecord | behavioral/top.cc:480-518 | The trace line of a retirement parses back to exactly what the retired record and fields say. |
| Tracer.StepInflight | behavioral/top.cc:394-477 | Decode adds one to the in-flight count, retire subtracts one, flush resets it to 0, and every other event leaves it. |
| Tracer.InflightCount | behavioral/top.cc:394-477 | After any event stream, the in-flight count equals the decodes minus the retirements since the last flush (or since the start when there was none), in uint32 arithmetic. |
| Tracer.LsqInflight | behavioral/top.cc:375-392 | The LQ and SQ counts are the popcounts of the low 16 bits of each valid mask, so at most 16. Exactly one bucket of each 17-entry histogram is bumped, and nothing else changes. |
| Tracer.SampleRobOccupancy | behavioral/top.cc:177-178 | Outside reset, the histogram bucket at the current in-flight count is bumped. In reset nothing changes. |
| Tracer.MemRead | behavioral/top.cc:403-410 | A word address inside the 4M-word ROM window at word 0x4000000 reads the ROM word at its offset. Any other address reads 0. |
| Tracer.RomWindowBytes | behavioral/top.cc:27-28 | In byte terms the window is 0x10000000 up to 0x11000000, and every address outside it reads 0. |
| TraceLine.TerminatesOnTohostWord | behavioral/top.cc:529-532 | The finish condition holds iff the retirement has no error, uses memory, is a store, and its effective address `membase + imm` (mod 2^32) is one of the four bytes from 0x30000000. |
| TraceLine.LineRoundTrip | behavioral/top.cc:483-517 | The rendered line reads back, through `split()`-style fields, as its meaning. The meaning consists of: the pc `addr << 2`, the instruction word, and either the trap cause or all of the following: the write-back (`rd & 31` and the result, present iff bit 5 of `rd` is clear); the accesses (a store with its width-cut data, a compare-byte load as four reads 8 bytes apart, any other load as one read); the CSR write with its number, name and value. |
| TraceLine.ParseFields | behavioral/top.cc:484-515 | The fields after the header decode to the trap cause, or to the write-back, accesses and CSR write of the record. |
| TraceLine.ParseHeader | behavioral/top.cc:483 | The `core   0: 3 0x<pc> (0x<insn>)` header decodes to the pc and instruction word in front of any decoded body. |
| TraceLine.FirstIndex | behavioral/top.cc:513 | The reader splits the CSR field `c<num>_<name>` at its first underscore, the one the format writes after the number. |
| Csr.NameIdentifiesRegister | behavioral/top.cc:161-167 | Each of the 32 tabled CSR addresses gets a name that identifies that address alone. Every other address gets `<unknown>`. Every name is a single non-empty field. |
| MemLog.CmdNameIdentifiesCommand | behavioral/top.cc:265-285 | The five bus commands get distinct names that identify them, and every other code gets `???`. |
| MemLog.StoreBusData | behavioral/top.cc:301-307 | With logging on, data word `index` becomes `data[0]` in its low and `data[1]` in its high 32 bits. With logging off, or at any other index, nothing changes. |
| MemLog.DataTokens | behavioral/top.cc:290-291 | Each 64-bit data word is shown as the 8 hex digits of its low 32 bits. |
| MemLog.TagFieldReads | behavioral/top.cc:287-288 | The `%d:%d` tag field is one token whose two parts together give the low five bits of the tag. |
| MemLog.LineAddrAligned | behavioral/top.cc:288 | The logged line address `addr << 6` (mod 2^32) is 64-byte aligned: the low 26 bits of `addr` times 64. |
| MemLog.BusLineRoundTrip | behavioral/top.cc:287-296 | A bus line reads back as: the time, the low five tag bits, the command (when known), the line address, the low halves of the eight data words (only for Fill and Flush), and the NACK and Hit flags. |
| MemLog.ReadFlags | behavioral/top.cc:292-295 | The trailing flags are none, `NACK`, `Hit` or `NACK Hit`, exactly as the two bits are set. |
| MemLog.ReadDataTokens | behavioral/top.cc:290-291 | The data tokens read back as the low 32 bits of each word, in order. |
| MemLog.MnemonicNamesAccess | behavioral/top.cc:313-346 | Each of the ten data-cache op codes (6 and 14 both for `lbcmp`) gets its access mnemonic, and every other code gets `???`. Every mnemonic is one non-empty field. |
| MemLog.ReqLineWords | behavioral/top.cc:348-355 | A request line's fields are: time, mnemonic, address, then the store data for a store op (bit 0 set). Otherwise they end with the compare byte (for `lbcmp`) and the LSQ id. |
| MemLog.RespLineWords | behavioral/top.cc:365-370 | A response line's fields are time, `resp`, the LSQ id, and `error` or the 8-digit data. |
| Checkmem.LoadExtends | checkmem.py:19-29 | A load yields the lane at its byte offset. `lbu`/`lhu` zero-extend it, `lb`/`lh` sign-extend bit 7/15 to 32 bits, and any other category keeps the shifted word. |
| Checkmem.SignExtend8 | checkmem.py:24 | The byte expression is the 8-bit two's-complement value of the lane, taken mod 2^32. |
| Checkmem.SignExtend16 | checkmem.py:22 | The halfword expression is the 16-bit two's-complement value of the lane, taken mod 2^32. |
| Checkmem.Splice | checkmem.py:36-41 | A half or byte store changes only the bits under its mask. The bits below and above keep the old word. |
| Checkmem.StoreThenLoad | checkmem.py:19-42 | A store and then a load of the same width at the same address give back the stored value. It is cut to the width, and for `lb`/`lh` sign-extended. |
| Checkmem.SlotOf | checkmem.py:61-62 | `lsqids[lsqid]` names a slot iff -16 <= lsqid < 16; negative ids count from the end as in Python. Any other id raises. |
| Checkmem.Apply | checkmem.py:58-88 | Each record keeps the correlation invariant: waiting slots name distinct entries that have no value yet. Old entries are never lost: each keeps its line, time, category and address, and only its value may be filled in or flushed. |
| Checkmem.LoadKeepsValid | checkmem.py:58-63 | Recording a load request under an id keeps the invariant. |
| Checkmem.LoadLeavesWaiting | checkmem.py:58-63 | An accepted load request is waiting right after it is read. |
| Checkmem.RespKeepsValid | checkmem.py:80-82 | Answering a waiting request keeps the invariant. |
| Checkmem.RespAnswersWaitingRequest | checkmem.py:73-82 | A response to an id with nothing waiting marks failure and changes nothing else. Otherwise it fills that request's value, clears only that slot, and leaves every other entry. |
| Checkmem.FlushAbandonsWaitingRequests | checkmem.py:83-87 | A flush marks every waiting request `<flushed>`, leaves every other entry, and clears all 16 slots. |
| Checkmem.AccessRecordedEvenMisaligned | checkmem.py:58-72 | A load or store is recorded whether or not it is aligned; a misaligned one only warns. |
| Checkmem.Step | checkmem.py:54-88 | One line of the parse loop either raises or keeps the invariant. |
| Checkmem.ParseLines | checkmem.py:53-88 | The parse loop over any lines either raises or ends in a state that keeps the invariant. |
| Checkmem.DecodeLoad | checkmem.py:55-63 | A line whose fields are a decimal time, a load category, a hex address and a decimal LSQ id is read as that load request. |
| Checkmem.DecodeStore | checkmem.py:55-70 | A line whose fields are a decimal time, a store category, a hex address and a hex value is read as that store. |
| Checkmem.DecodeResp | checkmem.py:73-76 | A `resp` line is read as the response with its id and hex value. A value that is not hex makes the parse raise. |
| Checkmem.DecodeOther | checkmem.py:55-88 | A line whose keyword starts with neither `l` nor `s` and is neither `resp` nor `flush` is skipped. |
| Checkmem.CompareByteAsId | checkmem.py:61 | `int()` of a hex byte gives its decimal value when it has only digits, and raises when it has a letter. |
| Checkmem.UnansweredLastRequestFails | checkmem.py:89-93 | With the end-of-parse test corrected, a log ending in an unanswered load request always fails. |
| Checkmem.OrphanAtIndexZeroPasses | checkmem.py:89-93 | As written, a log made of one unanswered `lw` passes, and the corrected parse fails it. |
| Checkmem.InRamRange | checkmem.py:101-102 | The checked addresses are exactly the 4 MiB from 0x20000000. |
| Checkmem.CheckFrom | checkmem.py:95-116 | A reported mismatch is a compared load (not flushed, in RAM) of the log, together with the value the model expects there. |
| Checkmem.MismatchIsFirstDisagreement | checkmem.py:97-108 | A reported mismatch is the first load that disagrees. Every entry before it passes, and the expected value is what the memory replayed from those entries gives at its address. |
| Checkmem.CheckCleanIffLoadsAgree | checkmem.py:95-116 | `check` finds nothing iff no store's replay raises and every compared load agrees with the memory left by the stores before it. Flushed loads and out-of-RAM accesses are skipped. |
| Checkmem.Check | checkmem.py:95-116 | The loop over the entries with the RAM updated in place returns the same outcome as the reference replay. |
| Checkmem.MnemonicClass | behavioral/top.cc:313-346 | The load mnemonics the testbench writes are the checker's load categories and the store mnemonics its store categories. `lbcmp` is its own case, and the rest are `???`. |
| Checkmem.ReqLineRead | behavioral/top.cc:348-355 | A request line is read as the access it logs: a load with its LSQ id, a store with its data. An `lbcmp` line is read with the compare byte where the id is expected. A `???` line is skipped. |
| Checkmem.CompareReqRead | behavioral/top.cc:352-354 | An `lbcmp` request is read as a load whose LSQ id is the compare byte taken as decimal. The parse raises when that byte has a hex letter. |
| Checkmem.LoadReqRead | behavioral/top.cc:348-355 | A load request line is read as the load with its time, mnemonic, address and LSQ id (all as signed values). |
| Checkmem.StoreReqRead | behavioral/top.cc:348-355 | A store request line is read as the store with its time, mnemonic, address and data word. |
| Checkmem.OtherReqRead | behavioral/top.cc:343-355 | A request line with the `???` mnemonic is skipped. |
| Checkmem.RespFieldRead | behavioral/top.cc:366-369 | The data field of a response reads back as the data word, and `error` does not parse as hex. |
| Checkmem.RespLineRead | behavioral/top.cc:365-370 | A response line is read as the answer it logs. An `error` response makes the checker raise, since `error` is not hex. |
| Checkmem.FlushLineRead | behavioral/top.cc:396 | A flush log line is read as a flush. |
| Checkmem.RetireLineSkipped | behavioral/top.cc:522-525 | Retirement log lines are skipped by the checker. |
| Checkmem.BusLineSkipped | behavioral/top.cc:287-296 | Bus log lines are skipped by the checker. |
| CheckTrace.CommonPrefix | checktrace.py:7-21 | The length of the longest common prefix: the traces agree up to it and differ right at it, unless one of them ends there. |
| CheckTrace.PrefixIsCommon | checktrace.py:7-21 | Any shared prefix that ends at a difference or at the end of either side is the longest one. |
| CheckTrace.Compare | checktrace.py:3-21 | The first five Spike lines are dropped. The result is 0 iff the remaining Spike lines equal the simulator's lines exactly, and 1 otherwise. What is printed is the report at the first point where the traces part. |
| CheckTrace.ReportMarksSides | checktrace.py:10-21 | A pass prints nothing. A failure prints the Spike line marked `-`, then the simulator line marked `+`. When one side has run out, only the other side's next line is printed. |
| ReplaceFunc.CopiesUntilLabel | tests/replace_func.py:9-23 | Lines before the first `findNode:` label are copied unchanged. |
| ReplaceFunc.LabelInsertsFunction | tests/replace_func.py:11-14 | The label line is replaced by the whole function file, and dropping begins. |
| ReplaceFunc.DropsUntilMarker | tests/replace_func.py:16-20 | While replacing, lines without `.-findNode` are dropped. |
| ReplaceFunc.MarkerKept | tests/replace_func.py:16-20 | The `.-findNode` line ends the replacement and is itself kept. |
| ReplaceFunc.SecondLabelInsertsNothing | tests/replace_func.py:12-13 | A second label inserts nothing, because the function file has already been read to its end. |
| ReplaceFunc.CopiesToEnd | tests/replace_func.py:19-23 | After the marker, a rest without labels is copied unchanged. |
| ReplaceFunc.ReplacesOneFunction | tests/replace_func.py:4-23 | For a file with one labelled function, the output is: everything before the label, the function file, the marker line, and everything after it. |
| Ring.Next | tests/graph.c:121-123 | Advancing an index by one and resetting it at the end of the buffer is `(i + 1) % size` and stays in range. |
| Ring.Empty | tests/graph.c:115-118 | Both indices at 0 make an empty queue. |
| Ring.Flush | tests/graph.cpp:150-153 | `flush` empties the queue and keeps the storage. |
| Ring.Push | behavioral/bfs/graph.c:97-101 | The unchecked `enqueue` keeps both indices inside the buffer. |
| Ring.PushAppends | tests/graph_pt.c:143-147 | Below capacity the unchecked `enqueue` appends its value at the back. |
| Ring.PushWhenFullEmpties | tests/graph.c:120-124 | The unchecked `enqueue` into a queue holding `size - 1` values makes the indices meet: everything held is lost. |
| Ring.FullIffCount | tests/graph.cpp:135-137 | The next tail meets the head exactly when `size - 1` values are held. |
| Ring.TryPush | tests/graph.cpp:134-141 | The checked `enqueue` refuses exactly when `size - 1` values are held. |
| Ring.TryPushAppends | tests/graph.cpp:134-141 | An accepted checked `enqueue` appends its value at the back. |
| Ring.Pop | tests/graph.cpp:143-148 | `dequeue` yields nothing exactly when the queue is empty. |
| Ring.PopFront | behavioral/bfs/graph.c:103-109 | `dequeue` yields the oldest value and leaves the rest in order. |
| Fifo.Zeroed | tests/fifo.c:31-32 | The `memset` fifo is empty. |
| Fifo.Push | tests/fifo.c:15-21 | `fifo_push` fails iff `(head + 1) & 7 == tail`. A successful push advances only `head`, and both indices stay in [0, 8). |
| Fifo.PushAppends | tests/fifo.c:15-21 | `fifo_push` fails iff seven values are held; otherwise the value is appended at the back. |
| Fifo.Pop | tests/fifo.c:23-28 | `fifo_pop` fails iff `head == tail`. A successful pop advances only `tail`, and both indices stay in [0, 8). |
| Fifo.PopOldest | tests/fifo.c:23-28 | `fifo_pop` fails iff the fifo is empty; otherwise it yields the oldest value and keeps the rest in order. |
| Fifo.Fill | tests/fifo.c:34 | The push loop on an empty fifo stores 0, 1, ..., 6 and then stops. |
| Fifo.Drain | tests/fifo.c:36-38 | The pop loop yields the contents in order, and `acc` is their sum mod 2^16. |
| Fifo.FillDrain | tests/fifo.c:30-41 | `main` pops 0, 1, ..., 6 back in the order pushed, and `acc` ends at 21. |
| Hashset.Meta | tests/hashset.c:160 | An occupied slot's metadata has bit 7 set and the 7-bit partial hash `(hash >> 20) & 0x7f` below it. |
| Hashset.Home | tests/hashset.c:117 | Probing starts at `hash % capacity`, inside the table. |
| Hashset.CreateEmpty | tests/hashset.c:95-109 | A new set has size 0, every metadata byte zero, and no members. It satisfies the invariant for any hash function. |
| Hashset.OccupancyFill | tests/hashset.c:160-162 | Occupying a free slot raises the number of occupied slots by exactly one, matching `size++`. |
| Hashset.PartialMismatch | tests/hashset.c:132 | A slot whose partial hash differs from the value's does not hold the value. |
| Hashset.NotFound | tests/hashset.c:130-142 | A probe that reaches a free slot, having passed only slots without the value, proves the value is absent. |
| Hashset.Probe | perf/hashset.c:144-154 | Given a free slot, the linear probe from the home slot stays in [0, capacity) and terminates. It stops at a slot holding the value, or at the first free slot of the probe sequence after passing only occupied slots without it. |
| Hashset.Find | tests/hashset.c:115-143 | Given a free slot, `findNode` returns true iff the value is a member. |
| Hashset.Insert | perf/hashset.c:159-178 | A duplicate is refused and the set left as it was. Otherwise the value takes the first free slot of its probe sequence, `size` rises by one, the invariant is kept, and the members become the old ones plus the value. |
| Hashset.InsertKeepsValid | tests/hashset.c:159-163 | Occupying the first free probe slot keeps `size` equal to the number of occupied slots, keeps every probe path occupied and the metadata agreeing, and adds exactly the value. |
| LinkedList.Add | tests/hashset.c:43-55 | `add` appends the value at the tail. |
| LinkedList.Delete | perf/hashset.c:59-73 | `delete` removes the first node holding the value, or nothing when none does. |
| LinkedList.WithoutFirst | tests/hashset.c:57-71 | Deleting removes exactly the first occurrence: one copy fewer, the other values in order. |
| LinkedList.WithoutAbsent | perf/hashset.c:59-73 | Deleting a value the list does not hold changes nothing. |
| LinkedList.AddThenDelete | tests/hashset.c:43-71 | Adding a new value and deleting it gives back the list. |
| Graph.IsNeighbor | tests/graph.c:101-106 | The scan is true iff the value is among the first `neigh_ct` neighbours. |
| Graph.InitBfs | behavioral/bfs/graph.c:112-122 | After `init_bfs`, only the root is marked, every parent is the node itself, and the queue holds just the root. |
| Graph.DequeueInv | tests/graph_pt.c:182-189 | A dequeued node other than the target is a marked node, and its expansion starts with the search invariant intact. |
| Graph.VisitInv | behavioral/bfs/graph.c:143-152 | Marking an unmarked neighbour, setting its parent to the current node and enqueueing it keeps the invariant. The queue holds fewer than `size - 1` nodes before that push, so the unchecked queue never overflows. |
| Graph.Expand | tests/graph.c:168-180 | Expanding a node marks exactly its neighbours on top of the nodes already marked. The newly marked nodes get the expanded node as parent, and every other parent is unchanged. The queue gains exactly the neighbours found unmarked, each once, in neighbour-list order (`Graph.Discovered`). The search invariant is kept. |
| Graph.ScanStep | tests/graph.c:171-178 | Visiting one neighbour marks it, and keeps both the search invariant and the account of which nodes are newly marked, parented and enqueued so far. |
| Graph.Discovered | tests/graph.c:170-178 | The neighbours a marking scan finds unmarked are exactly the listed neighbours that were unmarked before it, with no repeats. |
| Graph.NoEscape | tests/graph.c:161-181 | Once the queue is empty, no path from the root leaves the marked nodes. |
| Graph.ExhaustedUnreachable | behavioral/bfs/graph.c:133 | A search that empties its queue has proved the target unreachable. |
| Graph.TreePath | tests/graph.c:183-190 | Following parents from any marked node reaches the root along edges. |
| Graph.Explore | tests/graph.c:153-181 | The search finds the target iff it is reachable from the root, and then the target is marked. Each marked node other than the root has as parent a marked predecessor exactly one level shallower in the tree. |
| Graph.WalkParents | behavioral/bfs/graph.c:156-168 | The parent walk collects fewer nodes than the graph has. `from` followed by them reversed is a path from `from` to `to`, which is the printed route. |
| Graph.BfsReachable | behavioral/bfs/graph.c:126-175 | `bfs_reachable` finds `to` iff it is reachable from `from`, and then prints a path from `from` to `to`. |
| BfsGraph.CreateGraph | behavioral/bfs/graph.c:33-44 | `size` unmarked nodes without neighbours. |
| BfsGraph.AddEdge | behavioral/bfs/graph.c:47-59 | Returns 1 with the graph unchanged iff `to >= size` or the node already has 13 neighbours. Otherwise it appends `to` to `from`'s neighbours and touches no other node. |
| BfsGraph.AddEdgeAddsEdge | behavioral/bfs/graph.c:47-59 | An accepted edge keeps the graph well formed and adds exactly the edge `from -> to`. |
| BfsGraph.IsNeighbor | behavioral/bfs/graph.c:80-85 | True iff `to` is among the first `neigh_ct` neighbours. |
| BfsGraph.BfsReachable | behavioral/bfs/graph.c:126-175 | Returns 1 iff `to` is reachable from `from`. The route then is a path from `from` to `to` that fits the `G_SIZE` path array. |
| BfsGraph.Memfile | behavioral/bfs/graph.c:184-193 | The image is 16 words per node, in node order. Each node's words are: 0; `neigh_ct + (marked << 31)`; then 14 neighbour words, `base + 64 * id` (mod 2^32) for present neighbours and 0 for the rest. |
| BfsGraph.NodeWordsRoundTrip | behavioral/bfs/graph.c:184-193 | If the node addresses do not pass 2^32, a node's 16 words decode back to its mark, neighbour count and neighbours. The first and last words are 0. |
| BfsGraph.UnwrapEdge | behavioral/bfs/graph.c:189 | Subtracting the base mod 2^32 and dividing by 64 recovers a neighbour's id from its word. |
| BfsGraph.MemLinesRoundTrip | behavioral/bfs/graph.c:186-191 | Every `%08x \n` line of the image is 10 characters and reads back as its word. |
| IndexGraph.InitNode | tests/graph.c:23-28 | A new node is unmarked, has no neighbours and capacity 4, and no array yet. |
| IndexGraph.CreateGraph | tests/graph.c:45-57 | `size` fresh nodes. |
| IndexGraph.GrowMakesRoom | tests/graph.c:69-77 | After the growth step the store at `neighbors[neigh_ct]` is inside the allocation. The count stays within `neigh_max_ct`. |
| IndexGraph.AddEdge | tests/graph.c:61-78 | An edge to `to >= size` is ignored. Otherwise `to` is appended to `from`'s neighbours in insertion order, and the graph stays well formed. |
| IndexGraph.IsNeighbor | tests/graph.c:101-106 | True iff `val` is among the first `neigh_ct` entries. |
| IndexGraph.BfsReachable | tests/graph.c:153-202 | Returns 1 iff `to` is reachable from `from`, with a path from `from` to `to` as the route. |
| PointerGraph.InitNode | tests/graph_pt.c:41-46 | A new node is unmarked, has no neighbours and has room for 4. |
| PointerGraph.CreateGraph | tests/graph_pt.c:66-78 | `size` fresh nodes. |
| PointerGraph.AddEdge | tests/graph_pt.c:82-100 | An edge to `to >= size` is ignored. A full neighbour array is doubled before `to` is appended, so `neigh_ct <= neigh_max_ct` is kept. |
| PointerGraph.GetNodeIdRoundTrip | tests/graph_pt.c:48-50 | In a node array that lies below the top of the 32-bit address space, a node's address does not wrap, and `getNodeId` of it is the node's index. |
| PointerGraph.NodeAddrInjective | tests/graph_pt.c:9-15 | In such an array, distinct 20-byte nodes have distinct 32-bit addresses, so pointer tests are index tests. |
| PointerGraph.AddressesWrapPastTheTop | tests/graph_pt.c:48-50 | Without that bound, 32-bit addresses collide: node 2^30 has node 0's address, and `getNodeId` of it is 0. |
| PointerGraph.IsNeighbor | tests/graph_pt.c:124-129 | True iff `to` is among the first `neigh_ct` neighbours. |
| PointerGraph.BfsReachable | tests/graph_pt.c:175-223 | Returns 1 iff `to` is reachable from `from`. The parent chain then ends at `from`. |
| CppGraph.PutInt | tests/graph.cpp:15-27 | `putint` prints the decimal digits of the value, with no leading zero and `0` for 0, in at most 10 characters. |
| CppGraph.FillDigits | tests/graph.cpp:19-22 | The first loop stores the decimal digits least significant first. |
| CppGraph.Backwards | tests/graph.cpp:24-26 | The second loop prints the buffer back to front. |
| CppGraph.PutHex32 | tests/graph.cpp:29-35 | `puthex32` prints exactly eight lowercase hex digits, most significant first, that read back as the value. |
| CppGraph.NibbleChar | tests/graph.cpp:31-32 | `'0' + d`, moved past the punctuation when above `'9'`, is the lowercase hex digit of `d`. |
| CppGraph.IsNeighbor | tests/graph.cpp:41-46 | True iff `dest` is among `edges[0..numEdges)`. |
| CppGraph.AddEdge | tests/graph.cpp:48-54 | Refuses and leaves the node unchanged iff it has 14 edges or already has `dest`. Otherwise it appends `dest`, so edges stay distinct and at most 14. |
| CppGraph.NewGraph | tests/graph.cpp:67-76 | Node `i` gets value `i` and no edges. |
| CppGraph.Unmark | tests/graph.cpp:91-95 | Every mark is cleared, and values and edges are untouched. |
| CppGraph.QueueFifo | tests/graph.cpp:134-153 | `enqueue` refuses iff `size - 1` nodes are held, and otherwise appends. `dequeue` yields `nullptr` iff the queue is empty, and otherwise the oldest node. `flush` empties the queue. |
| CppGraph.Bfs | tests/graph.cpp:164-196 | `bfs` returns the node whose value is `target` iff that node is reachable from the root, and `nullptr` otherwise. |
| Uart.StatusBitsDecode | plugins/uart.cpp:57-58 | The four flags can be read back from bits 0-3 of the status byte. |
| Uart.StatusIsFive | plugins/uart.cpp:49-59 | The status is always 5: receive FIFO empty, transmit FIFO empty, neither full. |
| Uart.Load | plugins/uart.cpp:10-34 | `load` refuses iff `len > 4` or the offset is neither 0 nor 4. Otherwise byte i is `(value >> 8i) & 0xff` for i < len: the little-endian bytes of the register. |
| Uart.LeBytesDigits | plugins/uart.cpp:26-31 | Byte i of the little-endian bytes is `(value >> 8i) & 0xff`. |
| Uart.LeRoundTrip | plugins/uart.cpp:26-31 | The bytes read back as the register's low `len` bytes. |
| Uart.WordLoadRoundTrip | plugins/uart.cpp:26-31 | A four-byte load reads back as the whole register. |
| Uart.Store | plugins/uart.cpp:36-46 | `store` accepts only offset 8. |
| Uart.StoreSendsFirstByte | plugins/uart.cpp:38-39 | Only the first byte of a store reaches the terminal. |
| Stdlib.Sbrk | tests/stdlib.c:60-74 | The returned break never exceeds `&_sdata + HEAP_MAX`. |
| Stdlib.SbrkGrows | tests/stdlib.c:62-73 | Within the limit, the break moves by the increment and the new break is returned. |
| Stdlib.SbrkClamps | tests/stdlib.c:69-71 | A request past the limit gets the limit. |
| Stdlib.SbrkOverflowClamps | tests/stdlib.c:62-71 | A sum that wraps below the old break sends the break to the limit. |
| Stdlib.SbrkNegativeClamps | tests/stdlib.c:62-71 | A negative increment also sends the break to the limit, so the heap never shrinks. |
| Stdlib.SbrkAccumulates | tests/stdlib.c:60-73 | Two growing calls within the limit move the break as far as one call with their sum. |
| Stdlib.ReadCall | tests/stdlib.c:35-45 | `_read` serves only fd 0; any other descriptor returns -1 and moves nothing. On fd 0 the loop takes the first `count` bytes from the receive FIFO, in order, into the first `count` bytes of the buffer. It leaves the rest of the buffer and the rest of the FIFO, and returns `count`. |
| Stdlib.WriteCall | tests/stdlib.c:47-57 | `_write` serves only fds 1 and 2; any other descriptor returns -1 and sends nothing. On those two, the loop appends the first `count` bytes of the buffer, in order, to what the transmit FIFO has received, and returns `count`. |

## Left out

- `main`, `tick` (except its histogram sample), `get_plusarg`, `open_argfile`, ROM file loading and `tb_uart_tx` in `behavioral/top.cc`: the Verilator driving loop and file I/O. The ROM contents are a parameter of `Tracer.MemRead`, and whether trace and log files are open is the `Sinks` parameter.
- `print_stats`: floating-point CPI and branch accuracy.
- The DRAM DPI shims of `behavioral/top.cc` and the `dramsim/` glue: thin wrappers over a simulator library this model does not contain.
- The bus-log data words are `uint64_t` printed with `%08x`, which is undefined as a variadic argument. `MemLog.DataTokens` shows their low 32 bits, which is what a little-endian RV32 or x86-64 `printf` reads.
- Tracer.Decode, Tracer.LsqDispatch, Tracer.CsrWrite and Tracer.Retire require the ROB id below 128, and the LSQ handlers require the LSQ id below 32. The source indexes its static arrays without a check, so a larger id is undefined behaviour there, not a modelled case.
- Tracer.SampleRobOccupancy requires the in-flight count to be at most 128 outside reset, which is the bound of the histogram it indexes. The source relies on the pipeline keeping it there.
- Only the table and counter effects of an event enter `Tracer.Step`/`Tracer.Run`. The output lines are covered one handler at a time (`Tracer.Retire`, `Tracer.RobFlush`).
- Console output (`printf`, `puts`, `putchar`) in the test programs is modelled as returned strings (`CppGraph.PutInt`, `CppGraph.PutHex32`, the `route` results of the searches), and elsewhere left out.
- `hash_fn` of both hash-set files is a parameter of the `Hashset` module. Its two definitions rely on signed overflow and implementation-defined literal widths. The modelled functions (`create_hashset`, `findNode`, `insertNode` and the linked list) are identical in the two files. The files differ in constants, in `find_in_set` and in `main`, which are left out below.
- `measure_perf`, `find_in_set`, `main`, `print_*`, `display`, `destroy`, `createnode`'s `malloc` failure and `free_hashset` in the hash-set files: timing through `mcycle`, `rand` and floating-point load factors, or printing and freeing only.
- Hashset.Find and Hashset.Insert require at least one free slot (`size < capacity`). With a full table the source probes forever.
- The 32-byte alignment of the metadata array (`mdata_base`) and the allocations of the graph programs are not modelled. Neighbour arrays are sequences with a capacity field.
- `bfs_acc` and `bfs_wait_acc` in `tests/graph.cpp`, and the `mcycle` timing in `bfs`: polling of the hardware BFS accelerator through CSRs.
- CppGraph.NewGraph does not model `numEdges`, which the `Graph` constructor never initialises: new nodes are taken to have no edges. The `marked` bytes are left as the allocation held them (the `junk` parameter).
- MemLog.StoreBusData requires the data-word index below 8: `bus_data` has eight words and the source writes `bus_data[*index]` unchecked, so a larger index is undefined behaviour. The width of the hardware's `index` port is not part of this model.
- IndexGraph.BfsReachable, PointerGraph.BfsReachable and BfsGraph.BfsReachable require a graph of at most `G_SIZE` nodes, as `main` builds it (`create_graph(&graph, G_SIZE)`). The `G_SIZE`-slot queue and `path` array are unchecked, so a larger graph could overflow them.
- CppGraph.Bfs requires a queue with at least as many slots as nodes, as `main` builds it (`Queue queue(G_SIZE)` for `G_SIZE` nodes). With a smaller queue the refusing `enqueue` could drop nodes.
- Graph.Explore does not state that each node's parent is the first expanded node listing it, nor that tree depths are shortest-path distances from the root. It proves the tree shape and exact parent-to-child depth steps, plus the reachability answer.
- The marks and parents the searches write back into the nodes are not returned. The searches return their result and route, and the parent tree is stated inside `Graph.Explore`.
- `main`, `print_graph` and `free_graph` in the graph programs: random graph construction, printing and freeing.
- `getNodeId` in `behavioral/bfs/graph.c` and pointer comparisons in `tests/graph_pt.c`: node pointers are written as node indices. `PointerGraph.GetNodeIdRoundTrip` and `PointerGraph.NodeAddrInjective` justify this for 20-byte nodes at wrapping 32-bit addresses, in a node array that lies below the top of the address space. `PointerGraph.AddressesWrapPastTheTop` shows that the bound is needed.
- `perf/graph_perf.py` (plotting) and `tests/csr.h` (constants and inline assembly).
- The UART polling loops in `_read` and `_write`: the bytes received are a parameter and the bytes sent are returned.
- Stdlib.SbrkNegativeClamps is stated for a heap limit below 0x80000000. With a limit in the upper half of the address space, a negative increment that wraps past 0 can land below the limit. RAM starts at 0x20000000, so the limit is far below that bound.
- Stdlib.ReadCall and Stdlib.WriteCall state the returned count only for counts below 2^31. Above that, `ssize_t` shows a negative number, which the model computes (`Signed32`) but no contract names.
- `_close`, `_lseek` and `_fstat` are the constant functions `Stdlib.Close`, `Stdlib.Lseek` and `Stdlib.Fstat`, which return -1. There is nothing to state about them beyond that value.
- `Fmt.Words`, `Fmt.ParseDec` and `Fmt.ParseHex` are narrower than Python, and accept what the testbench writes:
  - `Fmt.Words` splits only on ASCII separators. Python's `str.split()` also splits on non-ASCII whitespace such as U+0085 and U+00A0.
  - `Fmt.ParseDec` takes an optional sign and ASCII digits. Python's `int()` also accepts `_` digit separators (`1_0`) and Unicode digits.
  - `Fmt.ParseHex` takes ASCII hex digits only. With base 16, Python's `int()` also accepts a sign and a `0x` prefix.
  - On such tokens `Checkmem.Decode` raises where `checkmem.py` goes on. The log lines of `behavioral/top.cc` never contain them.
- ReplaceFunc models the output file's lines. The "Done" message and the usage check are left out.
- `checkmem.py`'s `main` message formatting and `checktrace.py`'s file opening are left out. `Checkmem.Run` gives the pass/fail status, and `CheckTrace.Compare` gives the exit status and printed lines.

## Findings

| source | as written | input that shows it | evidently intended | confidence | as-written member | corrected member |
|---|---|---|---|---|---|---|
| checkmem.py:89-93 | The end-of-parse test is `if index:`, which is false for entry index 0. A load request stored as the first entry that never gets a response is not reported. | A log made of the one line `1 lw 00000000 0`: the request becomes entry 0 under LSQ id 0, parse reports success, and `check` skips the load because address 0 lies outside RAM, so the run prints PASS. | Every request still waiting at the end fails the parse (`if index is not None:`). | not executed | Checkmem.OrphanAtIndexZeroPasses | Checkmem.UnansweredLastRequestFails |

=== FILE: bfs_graph.dfy ===
/** `behavioral/bfs/graph.c`: the graph of the behavioural BFS accelerator's test input.
    Each node holds at most `N_MAX` neighbour pointers; neighbours are written here as node
    indices (`getNodeId`).  Besides the search, the program writes the graph as a memory
    image of sixteen 32-bit words per node for the accelerator to read. */
module BfsGraph {
  import opened Wrappers
  import opened Fmt
  import Graph

  const G_SIZE: nat := 60
  const N_MAX: nat := 13
  /** Words per node in the memory image; a node occupies 64 bytes. */
  const NODE_WORDS: nat := 16
  /** Neighbour words per node in the memory image (one more than `N_MAX`). */
  const EDGE_WORDS: nat := 14
  /** `1 << 31`: where the mark flag sits in a node's header word. */
  const MARK_BIT: nat := 0x8000_0000

  /** `marked` and the first `neigh_ct` entries of `neighbors`. */
  datatype Node = Node(marked: u32, neighbors: seq<nat>)

  /** What the program maintains: flags 0 or 1, at most `N_MAX` neighbours, each a node. */
  predicate Valid(g: seq<Node>) {
    forall i | 0 <= i < |g| ::
      g[i].marked <= 1 && |g[i].neighbors| <= N_MAX
      && forall j | 0 <= j < |g[i].neighbors| :: g[i].neighbors[j] < |g|
  }

  /** The adjacency lists the search walks. */
  function Adj(g: seq<Node>): (adj: Graph.Adj)
    ensures |adj| == |g| && forall i | 0 <= i < |g| :: adj[i] == g[i].neighbors
  {
    seq(|g|, i requires 0 <= i < |g| => g[i].neighbors)
  }

  lemma ValidClosed(g: seq<Node>)
    requires Valid(g)
    ensures Graph.Closed(Adj(g))
  {
  }

  /** `create_graph` with `initNode`: `size` nodes, unmarked, without neighbours. */
  function CreateGraph(size: nat): (g: seq<Node>)
    ensures |g| == size && Valid(g)
    ensures forall i | 0 <= i < size :: g[i].marked == 0 && g[i].neighbors == []
  {
    seq(size, _ => Node(0, []))
  }

  /** `add_edge`: refuses (returns 1, graph unchanged) an edge to a node past the end or
      from a node already holding `N_MAX` neighbours; otherwise appends `to` to `from`'s
      neighbours and returns 0. */
  function AddEdge(g: seq<Node>, from: nat, to: nat): (r: (bool, seq<Node>))
    requires from < |g|
    ensures r.0 <==> to >= |g| || |g[from].neighbors| == N_MAX
    ensures r.0 ==> r.1 == g
    ensures |r.1| == |g| && forall i | 0 <= i < |g| && i != from :: r.1[i] == g[i]
    ensures !r.0 ==> r.1[from] == g[from].(neighbors := g[from].neighbors + [to])
  {
    if to >= |g| || |g[from].neighbors| == N_MAX then (true, g)
    else (false, g[from := g[from].(neighbors := g[from].neighbors + [to])])
  }

  /** An accepted edge keeps the graph well formed and adds exactly the edge `from -> to`. */
  lemma AddEdgeAddsEdge(g: seq<Node>, from: nat, to: nat)
    requires Valid(g) && from < |g|
    ensures Valid(AddEdge(g, from, to).1)
    ensures !AddEdge(g, from, to).0 ==>
              forall u, v | 0 <= u < |g| ::
                v in Adj(AddEdge(g, from, to).1)[u] <==> v in Adj(g)[u] || (u == from && v == to)
  {
  }

  /** `is_neighbor`. */
  method IsNeighbor(g: seq<Node>, from: nat, to: nat) returns (r: bool)
    requires from < |g|
    ensures r <==> to in Adj(g)[from]
  {
    r := Graph.IsNeighbor(g[from].neighbors, to);
  }

  /** `bfs_reachable` with its `G_SIZE`-slot queue, whose storage `buf` starts with whatever
      the stack held.  Returns 1 exactly when `to` is reachable, and then the printed route
      is a path from `from` to `to` whose nodes fit the `G_SIZE` path array. */
  method BfsReachable(g: seq<Node>, from: nat, to: nat, buf: seq<nat>)
    returns (r: u32, route: seq<nat>)
    requires Valid(g) && from < |g| <= G_SIZE && |buf| == G_SIZE
    ensures r == 0 || r == 1
    ensures r == 1 <==> Graph.Reachable(Adj(g), from, to)
    ensures r == 1 ==> Graph.PathFromTo(Adj(g), route, from, to) && |route| <= G_SIZE
  {
    ValidClosed(g);
    var found, path;
    found, path, route := Graph.BfsReachable(Adj(g), from, to, buf);
    r := if found then 1 else 0;
  }

  // ---------------------------------------------------------------------------------------
  // The memory image of `create_memfile`

  /** A neighbour's address in the image: `base + 64 * id`, in 32-bit arithmetic. */
  function EdgeWord(base: u32, id: nat): u32 {
    Wrap32(base + 64 * id)
  }

  /** The sixteen words of node `i`: a zero word, `neigh_ct + (marked << 31)`, then one word
      per neighbour slot, the neighbour's address or 0 past `neigh_ct`. */
  function NodeWords(g: seq<Node>, i: nat, base: u32): (ws: seq<u32>)
    requires i < |g|
    ensures |ws| == NODE_WORDS
  {
    var n := g[i];
    [0, Wrap32(|n.neighbors| + Wrap32(n.marked * MARK_BIT))]
    + seq(EDGE_WORDS, j requires 0 <= j < EDGE_WORDS =>
            if j < |n.neighbors| then EdgeWord(base, n.neighbors[j]) else 0)
  }

  /** The image: every node's words, in node order. */
  function Memfile(g: seq<Node>, base: u32): (ws: seq<u32>)
    ensures |ws| == NODE_WORDS * |g|
    ensures forall i | 0 <= i < |g| :: ws[NODE_WORDS * i..NODE_WORDS * (i + 1)] == NodeWords(g, i, base)
    decreases |g|
  {
    if |g| == 0 then []
    else
      var ws := Memfile(g[..|g| - 1], base) + NodeWords(g, |g| - 1, base);
      assert forall i | 0 <= i < |g| - 1 :: NodeWords(g[..|g| - 1], i, base) == NodeWords(g, i, base);
      ws
  }

  /** Each word printed as `%08x` followed by a space, one per line. */
  function MemLines(ws: seq<u32>): (ls: seq<string>)
    ensures |ls| == |ws|
  {
    seq(|ws|, k requires 0 <= k < |ws| => Hex8(ws[k]) + " \n")
  }

  /** Every line of the image file reads back as its word. */
  lemma MemLinesRoundTrip(ws: seq<u32>, k: nat)
    requires k < |ws|
    ensures |MemLines(ws)[k]| == 10 && MemLines(ws)[k][8..] == " \n"
    ensures ParseHex(MemLines(ws)[k][..8]) == Some(ws[k])
  {
    var h := Hex8(ws[k]);
    Hex8Exact(ws[k]);
    assert MemLines(ws)[k] == h + " \n";
    LineEnd();
    SplitAt(h, " \n");
  }

  lemma LineEnd()
    ensures |" \n"| == 2
  {
  }

  lemma SplitAt<T>(a: seq<T>, b: seq<T>)
    ensures |a + b| == |a| + |b| && (a + b)[..|a|] == a && (a + b)[|a|..] == b
  {
  }

  /** The reader's view of sixteen words: the mark bit, the neighbour count below it, and
      each present neighbour's index recovered from its address. */
  function DecodeNode(ws: seq<u32>, base: u32): (n: Node)
    requires |ws| == NODE_WORDS
  {
    var ct := ws[1] % MARK_BIT;
    Node(ws[1] / MARK_BIT,
         seq(if ct < EDGE_WORDS then ct else EDGE_WORDS,
             j requires 0 <= j < EDGE_WORDS => ((ws[2 + j] - base) % TWO32) / 64))
  }

  /** Reading an address back: subtracting the base modulo 2^32 undoes the wrapped sum. */
  lemma {:induction false} UnwrapEdge(base: u32, id: nat)
    requires 64 * id < TWO32
    ensures ((EdgeWord(base, id) - base) % TWO32) / 64 == id
  {
    var x := 64 * id;
    if base + x >= TWO32 {
      assert (base + x) % TWO32 == base + x - TWO32 by {
        ModOnceWord(base + x);
      }
      assert EdgeWord(base, id) - base == x - TWO32;
      assert (x - TWO32) % TWO32 == x;
    }
  }

  lemma ModOnceWord(x: nat)
    requires TWO32 <= x < 2 * TWO32
    ensures x % TWO32 == x - TWO32
  {
  }

  /** The image of a well-formed node decodes back to the node, provided the node addresses
      do not wrap past 2^32; the last neighbour word is always 0. */
  lemma NodeWordsRoundTrip(g: seq<Node>, i: nat, base: u32)
    requires Valid(g) && i < |g| && 64 * |g| <= TWO32
    ensures DecodeNode(NodeWords(g, i, base), base) == g[i]
    ensures NodeWords(g, i, base)[0] == 0 && NodeWords(g, i, base)[NODE_WORDS - 1] == 0
  {
    var n := g[i];
    var ws := NodeWords(g, i, base);
    assert ws[1] == |n.neighbors| + n.marked * MARK_BIT;
    var d := DecodeNode(ws, base);
    assert d.marked == n.marked;
    assert |d.neighbors| == |n.neighbors|;
    forall j | 0 <= j < |n.neighbors|
      ensures d.neighbors[j] == n.neighbors[j]
    {
      assert ws[2 + j] == EdgeWord(base, n.neighbors[j]);
      UnwrapEdge(base, n.neighbors[j]);
    }
  }
}

=== FILE: checkmem.dfy ===
/** `checkmem.py`: replays the data-cache log against a reference memory.  Parsing pairs
    every load request with the response carrying its LSQ id (16 slots, a flush abandons
    the outstanding ones); checking then applies the stores in log order to a zeroed model
    of the 4 MiB RAM and compares every answered load with the value the model predicts.

    Python values are modelled as follows: `int` as `int`/`nat` (unbounded, as in Python),
    the `None` and `"<flushed>"` states of an entry's value as `Value`, and a Python
    exception (a `ValueError` from `int()`, an `IndexError`, a `TypeError` on `None`) as a
    `None` or `Crashed` result. */
module Checkmem {
  import opened Wrappers
  import opened Fmt
  import MemLog
  import Tracer

  const RAMBASE: nat := 0x2000_0000
  const RAMSIZE: nat := 0x40_0000
  /** Number of 32-bit words of the RAM model. */
  const WORDS: nat := 0x10_0000
  /** Number of LSQ ids the parser tracks. */
  const SLOTS: nat := 16

  // ---------------------------------------------------------------------------------------
  // Arithmetic on unbounded integers

  /** A number split into the parts above, inside and below a field of `w` digits in base
      `s`. */
  lemma FieldSplit(x: nat, s: nat, w: nat)
    requires s > 0 && w > 0
    ensures s * w > 0
    ensures x == (x / (s * w)) * (s * w) + ((x / s) % w) * s + x % s
    ensures x / (s * w) == (x / s) / w
  {
    var q1 := x / s;
    var q2 := q1 / w;
    var r2 := q1 % w;
    assert x == q1 * s + x % s;
    assert q1 == q2 * w + r2;
    assert q1 * s == q2 * (s * w) + r2 * s;
    assert r2 * s + x % s < s * w by {
      assert r2 <= w - 1;
      assert r2 * s <= (w - 1) * s;
    }
    DivModUnique(x, s * w, q2, r2 * s + x % s);
  }

  /** Rebuilding a number from its three parts. */
  lemma FieldJoin(hi: nat, mid: nat, lo: nat, s: nat, w: nat)
    requires s > 0 && w > 0 && mid < w && lo < s
    ensures var x := hi * (s * w) + mid * s + lo;
            x % s == lo && (x / s) % w == mid && x / (s * w) == hi && x / s == hi * w + mid
  {
    var x := hi * (s * w) + mid * s + lo;
    assert x == (hi * w + mid) * s + lo;
    DivModUnique(x, s, hi * w + mid, lo);
    DivModUnique(hi * w + mid, w, hi, mid);
    FieldSplit(x, s, w);
  }

  // ---------------------------------------------------------------------------------------
  // Byte lanes

  /** `2 ** ((addr & 3) * 8)`: the weight of the accessed byte lane within its word. */
  function Scale(addr: nat): (s: nat)
    ensures s > 0
  {
    if addr % 4 == 0 then 1
    else if addr % 4 == 1 then 0x100
    else if addr % 4 == 2 then 0x1_0000
    else 0x100_0000
  }

  /** The `w`-valued lane of a memory word at the address's byte offset. */
  function Lane(mem: nat, addr: nat, w: nat): nat
    requires w > 0
  {
    (mem / Scale(addr)) % w
  }

  /** The value of an 8-bit two's-complement field. */
  function Signed8(v: nat): int {
    if v < 0x80 then v else v - 0x100
  }

  /** The value of a 16-bit two's-complement field. */
  function Signed16(v: nat): int {
    if v < 0x8000 then v else v - 0x1_0000
  }

  /** `getLoadResult`: shift the word down to the access's byte offset, then sign-extend
      (`lb`, `lh`) or zero-extend (`lbu`, `lhu`) the low byte or half into 32 bits, using
      Python's `&` on a possibly negative difference; every other category keeps the whole
      shifted word.  `x & 0x7fff` is `x % 0x8000` and `x & 0x8000` is bit 15 times 0x8000. */
  function LoadResult(category: string, addr: nat, mem: nat): nat {
    var m := mem / Scale(addr);
    if category == "lh" then (m % 0x8000 - ((m / 0x8000) % 2) * 0x8000) % TWO32
    else if category == "lb" then (m % 0x80 - ((m / 0x80) % 2) * 0x80) % TWO32
    else if category == "lhu" then m % 0x1_0000
    else if category == "lbu" then m % 0x100
    else m
  }

  /** A load yields its lane: unsigned loads the lane itself, signed loads a 32-bit value
      whose low bits are the lane and whose signed reading is the lane's signed reading;
      any other category (`lw`, `lbcmp`) the whole word from the lane upwards. */
  lemma LoadExtends(category: string, addr: nat, mem: nat)
    ensures category == "lbu" ==> LoadResult(category, addr, mem) == Lane(mem, addr, 0x100)
    ensures category == "lhu" ==> LoadResult(category, addr, mem) == Lane(mem, addr, 0x1_0000)
    ensures category == "lb" ==>
              var r := LoadResult(category, addr, mem);
              r < TWO32 && r % 0x100 == Lane(mem, addr, 0x100)
              && Signed32(r) == Signed8(Lane(mem, addr, 0x100))
    ensures category == "lh" ==>
              var r := LoadResult(category, addr, mem);
              r < TWO32 && r % 0x1_0000 == Lane(mem, addr, 0x1_0000)
              && Signed32(r) == Signed16(Lane(mem, addr, 0x1_0000))
    ensures category != "lb" && category != "lh" && category != "lbu" && category != "lhu"
            ==> LoadResult(category, addr, mem) == mem / Scale(addr)
  {
    var m := mem / Scale(addr);
    if category == "lb" {
      SignExtend8(m);
    } else if category == "lh" {
      SignExtend16(m);
    }
  }

  /** The field of `2 * h` values is the bit at weight `h` over the field of `h` values. */
  lemma LowField(m: nat, h: nat)
    requires h > 0
    ensures m % (2 * h) == ((m / h) % 2) * h + m % h
  {
    FieldSplit(m, h, 2);
    DivModUnique(m, 2 * h, m / (h * 2), ((m / h) % 2) * h + m % h);
  }

  /** `((m & 0x7f) - (m & 0x80)) & 0xffffffff`. */
  lemma SignExtend8(m: nat)
    ensures var r := (m % 0x80 - ((m / 0x80) % 2) * 0x80) % TWO32;
            r < TWO32 && r % 0x100 == m % 0x100 && Signed32(r) == Signed8(m % 0x100)
  {
    var lo := m % 0x80;
    LowField(m, 0x80);
    if (m / 0x80) % 2 == 1 {
      DivModUnique(lo - 0x80, TWO32, -1, lo - 0x80 + TWO32);
      DivModUnique(lo - 0x80 + TWO32, 0x100, TWO32 / 0x100 - 1, lo + 0x80);
    } else {
      DivModUnique(lo, TWO32, 0, lo);
    }
  }

  /** `((m & 0x7fff) - (m & 0x8000)) & 0xffffffff`. */
  lemma SignExtend16(m: nat)
    ensures var r := (m % 0x8000 - ((m / 0x8000) % 2) * 0x8000) % TWO32;
            r < TWO32 && r % 0x1_0000 == m % 0x1_0000 && Signed32(r) == Signed16(m % 0x1_0000)
  {
    var lo := m % 0x8000;
    LowField(m, 0x8000);
    if (m / 0x8000) % 2 == 1 {
      DivModUnique(lo - 0x8000, TWO32, -1, lo - 0x8000 + TWO32);
      DivModUnique(lo - 0x8000 + TWO32, 0x1_0000, TWO32 / 0x1_0000 - 1, lo + 0x8000);
    } else {
      DivModUnique(lo, TWO32, 0, lo);
    }
  }

  /** `(mem & ~(mask << shift)) | ((value << shift) & (mask << shift))` for a lane of `w`
      values at weight `s` (mask = w - 1): the lane is replaced, the bits around it kept. */
  function Splice(mem: nat, s: nat, w: nat, value: nat): (r: nat)
    requires s > 0 && w > 0
    ensures r % s == mem % s
    ensures (r / s) % w == value % w
    ensures r / (s * w) == mem / (s * w)
  {
    FieldSplit(mem, s, w);
    var r := (mem / (s * w)) * (s * w) + (value % w) * s + mem % s;
    FieldJoin(mem / (s * w), value % w, mem % s, s, w);
    r
  }

  /** `getStoreResult`: a word store replaces the word by the shifted value, a half or byte
      store splices the value's low bits into the lane; any other category yields `None`. */
  function StoreResult(category: string, addr: nat, value: nat, mem: nat): Option<nat> {
    var s := Scale(addr);
    if category == "sw" then Some(value * s)
    else if category == "sh" then Some(Splice(mem, s, 0x1_0000, value))
    else if category == "sb" then Some(Splice(mem, s, 0x100, value))
    else None
  }

  /** Storing and then loading the same width at the same address gives the stored value,
      truncated to the width and then sign- or zero-extended.  The Python word is not
      limited to 32 bits, so this holds at every byte offset. */
  lemma StoreThenLoad(addr: nat, value: nat, mem: nat)
    ensures LoadResult("lw", addr, StoreResult("sw", addr, value, mem).value) == value
    ensures LoadResult("lhu", addr, StoreResult("sh", addr, value, mem).value)
            == value % 0x1_0000
    ensures Signed32(LoadResult("lh", addr, StoreResult("sh", addr, value, mem).value))
            == Signed16(value % 0x1_0000)
    ensures LoadResult("lbu", addr, StoreResult("sb", addr, value, mem).value) == value % 0x100
    ensures Signed32(LoadResult("lb", addr, StoreResult("sb", addr, value, mem).value))
            == Signed8(value % 0x100)
  {
    var s := Scale(addr);
    DivModUnique(value * s, s, value, 0);
    LoadExtends("lhu", addr, StoreResult("sh", addr, value, mem).value);
    LoadExtends("lh", addr, StoreResult("sh", addr, value, mem).value);
    LoadExtends("lbu", addr, StoreResult("sb", addr, value, mem).value);
    LoadExtends("lb", addr, StoreResult("sb", addr, value, mem).value);
  }

  // ---------------------------------------------------------------------------------------
  // Log records

  /** An entry's value: `None` until answered, `"<flushed>"` after a flush, or a number. */
  datatype Value = NoValue | Flushed | Val(n: nat)

  /** `MemoryEntry`: the log line number, its time, the mnemonic, the address, the value. */
  datatype Entry = Entry(line: nat, time: int, category: string, addr: nat, value: Value)

  predicate IsLoadCategory(c: string) {
    |c| > 0 && c[0] == 'l'
  }

  predicate IsStoreCategory(c: string) {
    |c| > 0 && c[0] == 's'
  }

  /** One log line after `split()` and the integer conversions. */
  datatype Record =
    | LoadRec(time: int, category: string, addr: nat, lsqid: int)
    | StoreRec(time: int, category: string, addr: nat, value: nat)
    | RespRec(time: int, lsqid: int, value: nat)
    | FlushRec(time: int)
    | OtherRec(time: int)

  /** The field conversions of the parse loop: the time, then by category a load
      (address in hex, LSQ id in decimal), a store (address and data in hex), a response
      (LSQ id in decimal, data in hex), a flush, or a line that is skipped.  `None` when a
      field is missing or does not convert; a one-letter load or store category also raises,
      at the misalignment test. */
  function Decode(fields: seq<string>): Option<Record> {
    if |fields| < 2 then None
    else
      var time :- ParseDec(fields[0]);
      var c := fields[1];
      if IsLoadCategory(c) then
        if |fields| < 4 || |c| < 2 then None
        else
          var addr :- ParseHex(fields[2]);
          var lsqid :- ParseDec(fields[3]);
          Some(LoadRec(time, c, addr, lsqid))
      else if IsStoreCategory(c) then
        if |fields| < 4 || |c| < 2 then None
        else
          var addr :- ParseHex(fields[2]);
          var value :- ParseHex(fields[3]);
          Some(StoreRec(time, c, addr, value))
      else if c == "resp" then
        if |fields| < 4 then None
        else
          var lsqid :- ParseDec(fields[2]);
          var value :- ParseHex(fields[3]);
          Some(RespRec(time, lsqid, value))
      else if c == "flush" then Some(FlushRec(time))
      else Some(OtherRec(time))
  }

  /** The list element `lsqids[lsqid]` names: Python counts negative indices from the end. */
  function SlotOf(lsqid: int): (k: Option<nat>)
    ensures k.Some? ==> k.value < SLOTS
    ensures k.Some? <==> -(SLOTS as int) <= lsqid < SLOTS
    ensures 0 <= lsqid < SLOTS ==> k == Some(lsqid as nat)
    ensures -(SLOTS as int) <= lsqid < 0 ==> k == Some((SLOTS as int + lsqid) as nat)
  {
    if 0 <= lsqid < SLOTS then Some(lsqid as nat)
    else if -(SLOTS as int) <= lsqid < 0 then Some((SLOTS as int + lsqid) as nat)
    else None
  }

  /** A halfword access at an odd address or a word access off a word boundary. */
  predicate Misaligned(category: string, addr: nat) {
    |category| >= 2
    && ((category[1] == 'h' && addr % 2 == 1) || (category[1] == 'w' && addr % 4 != 0))
  }

  /** The parser's state: the entries so far, the entry index waiting under each LSQ id,
      whether a failure was reported, and the lines that drew a misalignment warning. */
  datatype ParseState = ParseState(entries: seq<Entry>, slots: seq<Option<nat>>,
                                   success: bool, warnings: seq<nat>)

  function NoSlots(): (slots: seq<Option<nat>>)
    ensures |slots| == SLOTS && forall k | 0 <= k < SLOTS :: slots[k] == None
  {
    seq(SLOTS, _ => None)
  }

  function Init(): ParseState {
    ParseState([], NoSlots(), true, [])
  }

  /** Every waiting slot names a distinct load entry that has no value yet. */
  predicate Valid(st: ParseState) {
    |st.slots| == SLOTS
    && (forall k | 0 <= k < SLOTS && st.slots[k].Some? ::
          st.slots[k].value < |st.entries|
          && st.entries[st.slots[k].value].value == NoValue)
    && (forall j, k | 0 <= j < SLOTS && 0 <= k < SLOTS && j != k && st.slots[j].Some? ::
          st.slots[j] != st.slots[k])
  }

  /** The entries after a flush: the waiting ones become `"<flushed>"`. */
  function MarkFlushed(entries: seq<Entry>, slots: seq<Option<nat>>): (r: seq<Entry>)
    ensures |r| == |entries|
    ensures forall i | 0 <= i < |entries| ::
              r[i] == if Some(i) in slots then entries[i].(value := Flushed) else entries[i]
  {
    seq(|entries|, i requires 0 <= i < |entries| =>
          if Some(i) in slots then entries[i].(value := Flushed) else entries[i])
  }

  /** `entries'` extends `entries`, and every old entry keeps its line, time, category and
      address; only its value may have been filled in or flushed. */
  predicate KeepsEntries(entries: seq<Entry>, entries': seq<Entry>) {
    |entries'| >= |entries|
    && forall i | 0 <= i < |entries| :: entries'[i].(value := entries[i].value) == entries[i]
  }

  /** One line of the parse loop, numbered `line`. */
  function Apply(st: ParseState, line: nat, r: Record): (st': Option<ParseState>)
    requires Valid(st)
    ensures st'.Some? ==> Valid(st'.value)
    ensures st'.Some? ==> KeepsEntries(st.entries, st'.value.entries)
  {
    match r
    case LoadRec(time, c, addr, lsqid) =>
      var k :- SlotOf(lsqid);
      var e := Entry(line, time, c, addr, NoValue);
      var warn := if Misaligned(c, addr) then [line] else [];
      var st' := st.(entries := st.entries + [e], slots := st.slots[k := Some(|st.entries|)],
                     warnings := st.warnings + warn);
      assert Valid(st') by {
        LoadKeepsValid(st, k, e);
      }
      Some(st')
    case StoreRec(time, c, addr, value) =>
      var e := Entry(line, time, c, addr, Val(value));
      var warn := if Misaligned(c, addr) then [line] else [];
      Some(st.(entries := st.entries + [e], warnings := st.warnings + warn))
    case RespRec(time, lsqid, value) =>
      var k :- SlotOf(lsqid);
      if st.slots[k].None? then Some(st.(success := false))
      else
        var i := st.slots[k].value;
        var st' := st.(entries := st.entries[i := st.entries[i].(value := Val(value))],
                       slots := st.slots[k := None]);
        assert Valid(st') by {
          RespKeepsValid(st, k, value);
        }
        Some(st')
    case FlushRec(_) =>
      Some(st.(entries := MarkFlushed(st.entries, st.slots), slots := NoSlots()))
    case OtherRec(_) => Some(st)
  }

  lemma LoadKeepsValid(st: ParseState, k: nat, e: Entry)
    requires Valid(st) && k < SLOTS && e.value == NoValue
    ensures Valid(st.(entries := st.entries + [e], slots := st.slots[k := Some(|st.entries|)]))
  {
  }

  lemma RespKeepsValid(st: ParseState, k: nat, value: nat)
    requires Valid(st) && k < SLOTS && st.slots[k].Some?
    ensures var i := st.slots[k].value;
            Valid(st.(entries := st.entries[i := st.entries[i].(value := Val(value))],
                      slots := st.slots[k := None]))
  {
  }

  // ---------------------------------------------------------------------------------------
  // What the parse does with each kind of line

  /** A response under an id with nothing waiting reports a failure and changes nothing
      else; otherwise it answers exactly the request waiting under that id, which stops
      waiting, and no other entry or id changes. */
  lemma RespAnswersWaitingRequest(st: ParseState, line: nat, time: int, lsqid: int, v: nat)
    requires Valid(st)
    ensures var r := Apply(st, line, RespRec(time, lsqid, v));
            match SlotOf(lsqid)
            case None => r.None?
            case Some(k) =>
              if st.slots[k].None? then r == Some(st.(success := false))
              else
                var i := st.slots[k].value;
                r.Some? && r.value.success == st.success
                && |r.value.entries| == |st.entries|
                && r.value.entries[i] == st.entries[i].(value := Val(v))
                && (forall j | 0 <= j < |st.entries| && j != i ::
                      r.value.entries[j] == st.entries[j])
                && r.value.slots[k] == None
                && (forall j | 0 <= j < SLOTS && j != k :: r.value.slots[j] == st.slots[j])
  {
  }

  /** A flush marks every waiting request `"<flushed>"`, leaves every other entry as it
      was, and empties all 16 slots. */
  lemma FlushAbandonsWaitingRequests(st: ParseState, line: nat, time: int)
    requires Valid(st)
    ensures var r := Apply(st, line, FlushRec(time));
            r.Some? && |r.value.entries| == |st.entries|
            && (forall k | 0 <= k < SLOTS :: r.value.slots[k] == None)
            && (forall k | 0 <= k < SLOTS && st.slots[k].Some? ::
                  r.value.entries[st.slots[k].value].value == Flushed)
            && (forall i | 0 <= i < |st.entries| && Some(i) !in st.slots ::
                  r.value.entries[i] == st.entries[i])
  {
    var r := Apply(st, line, FlushRec(time)).value;
    forall k | 0 <= k < SLOTS && st.slots[k].Some?
      ensures r.entries[st.slots[k].value].value == Flushed
    {
      assert Some(st.slots[k].value) in st.slots;
    }
  }

  /** A load or store is recorded whether or not it is aligned; a misaligned one only
      adds its line number to the warnings. */
  lemma AccessRecordedEvenMisaligned(st: ParseState, line: nat, r: Record)
    requires Valid(st) && (r.LoadRec? || r.StoreRec?) && |r.category| >= 2
    requires r.LoadRec? ==> SlotOf(r.lsqid).Some?
    ensures var st' := Apply(st, line, r);
            st'.Some? && |st'.value.entries| == |st.entries| + 1
            && st'.value.entries[..|st.entries|] == st.entries
            && st'.value.entries[|st.entries|].category == r.category
            && st'.value.entries[|st.entries|].addr == r.addr
            && st'.value.warnings
               == st.warnings + (if Misaligned(r.category, r.addr) then [line] else [])
  {
  }

  // ---------------------------------------------------------------------------------------
  // The whole parse

  /** One iteration of the parse loop: convert the fields, then apply the record. */
  function Step(st: ParseState, line: nat, l: string): (r: Option<ParseState>)
    requires Valid(st)
    ensures r.Some? ==> Valid(r.value)
  {
    var rec :- Decode(Words(l));
    Apply(st, line, rec)
  }

  /** The parse loop over `lines`, the first numbered `first`; `None` when it raises. */
  function ParseLines(st: ParseState, lines: seq<string>, first: nat): (r: Option<ParseState>)
    requires Valid(st)
    ensures r.Some? ==> Valid(r.value)
    decreases |lines|
  {
    if |lines| == 0 then Some(st)
    else
      var st' :- ParseLines(st, lines[..|lines| - 1], first);
      Step(st', first + |lines| - 1, lines[|lines| - 1])
  }

  /** The result of `MemoryTrace.parse`: the entries and the success flag. */
  datatype Parsed = Parsed(entries: seq<Entry>, ok: bool)

  /** The end-of-parse test as written, `if index:`, which is false for entry index 0 as
      well as for an empty slot. */
  predicate OrphanReportedAsWritten(slots: seq<Option<nat>>) {
    exists k | 0 <= k < |slots| :: slots[k].Some? && slots[k].value != 0
  }

  /** The end-of-parse test as intended: some request is still waiting. */
  predicate OrphanReported(slots: seq<Option<nat>>) {
    exists k | 0 <= k < |slots| :: slots[k].Some?
  }

  /** `MemoryTrace.parse` as written. */
  function ParseLogAsWritten(lines: seq<string>): Option<Parsed> {
    var st :- ParseLines(Init(), lines, 1);
    Some(Parsed(st.entries, st.success && !OrphanReportedAsWritten(st.slots)))
  }

  /** `MemoryTrace.parse` with every waiting request reported at the end. */
  function ParseLog(lines: seq<string>): Option<Parsed> {
    var st :- ParseLines(Init(), lines, 1);
    Some(Parsed(st.entries, st.success && !OrphanReported(st.slots)))
  }

  /** With the end-of-parse test corrected, a log whose last line is a load request the
      parser accepts always fails: that request is still waiting. */
  lemma UnansweredLastRequestFails(lines: seq<string>, l: string)
    requires Decode(Words(l)).Some? && Decode(Words(l)).value.LoadRec?
    ensures ParseLog(lines + [l]).Some? ==> !ParseLog(lines + [l]).value.ok
  {
    var ls := lines + [l];
    assert ls[|ls| - 1] == l;
    var r := ParseLines(Init(), ls[..|ls| - 1], 1);
    if r.Some? {
      LoadLeavesWaiting(r.value, |ls|, Decode(Words(l)).value);
    }
  }

  /** An accepted load request is waiting right after it is read. */
  lemma LoadLeavesWaiting(st: ParseState, line: nat, rec: Record)
    requires Valid(st) && rec.LoadRec?
    ensures var r := Apply(st, line, rec); r.Some? ==> OrphanReported(r.value.slots)
  {
    var r := Apply(st, line, rec);
    if r.Some? {
      var k := SlotOf(rec.lsqid).value;
      assert r.value.slots[k].Some?;
    }
  }

  // ---------------------------------------------------------------------------------------
  // The reference memory check

  /** `(addr - RAMBASE) // 4`. */
  function WordIndex(addr: nat): int {
    (addr as int - RAMBASE) / 4
  }

  predicate InRam(addr: nat) {
    0 <= WordIndex(addr) < WORDS
  }

  /** The checked addresses are exactly the 4 MiB from RAMBASE. */
  lemma InRamRange(addr: nat)
    ensures InRam(addr) <==> RAMBASE <= addr < RAMBASE + RAMSIZE
  {
  }

  /** A model word: a number, or the `None` an unknown store category leaves behind. */
  type Memory = m: seq<Option<nat>> | |m| == WORDS witness seq(WORDS, _ => Some(0))

  function ZeroMemory(): Memory {
    seq(WORDS, _ => Some(0))
  }

  /** The outcome of `MemoryTrace.check`: no difference, the first differing load with the
      value the model expected, or an exception. */
  datatype Outcome = Clean | Mismatch(entry: Entry, expected: nat) | Crashed

  /** A load that `check` compares: not flushed, inside the RAM. */
  predicate CheckedLoad(e: Entry) {
    IsLoadCategory(e.category) && e.value != Flushed && InRam(e.addr)
  }

  /** A store that `check` applies: inside the RAM. */
  predicate AppliedStore(e: Entry) {
    !IsLoadCategory(e.category) && IsStoreCategory(e.category) && InRam(e.addr)
  }

  /** The word a store leaves, or `None` (an exception) when the store's value is not a
      number or when a half or byte store meets a `None` word. */
  function StoreWord(e: Entry, w: Option<nat>): Option<Option<nat>> {
    if !e.value.Val? then None
    else if e.category == "sw" then Some(StoreResult("sw", e.addr, e.value.n, 0))
    else if e.category == "sh" || e.category == "sb" then
      if w.None? then None else Some(StoreResult(e.category, e.addr, e.value.n, w.value))
    else Some(None)
  }

  /** Applying entry `e` to the model raises. */
  predicate Stuck(e: Entry, mem: Memory) {
    AppliedStore(e) && StoreWord(e, mem[WordIndex(e.addr)]).None?
  }

  /** The model memory after entry `e` (unchanged by loads and skipped entries). */
  function Next(e: Entry, mem: Memory): Memory {
    if AppliedStore(e) && StoreWord(e, mem[WordIndex(e.addr)]).Some?
    then mem[WordIndex(e.addr) := StoreWord(e, mem[WordIndex(e.addr)]).value]
    else mem
  }

  /** The memory after replaying the stores of `es` in order; `None` when one raises. */
  function Replay(es: seq<Entry>, mem: Memory): Option<Memory>
    decreases |es|
  {
    if |es| == 0 then Some(mem)
    else if Stuck(es[0], mem) then None
    else Replay(es[1..], Next(es[0], mem))
  }

  /** A compared load agrees with the model's memory (which must hold a number there). */
  predicate LoadAgrees(e: Entry, mem: Memory) {
    CheckedLoad(e) ==>
      mem[WordIndex(e.addr)].Some?
      && e.value == Val(LoadResult(e.category, e.addr, mem[WordIndex(e.addr)].value))
  }

  /** `MemoryTrace.check` from `mem` on. */
  function CheckFrom(es: seq<Entry>, mem: Memory): (o: Outcome)
    ensures o.Mismatch? ==> (o.entry in es && CheckedLoad(o.entry)
                             && o.entry.value != Val(o.expected))
    decreases |es|
  {
    if |es| == 0 then Clean
    else
      var e := es[0];
      if CheckedLoad(e) then
        match mem[WordIndex(e.addr)]
        case None => Crashed
        case Some(w) =>
          var r := LoadResult(e.category, e.addr, w);
          if e.value != Val(r) then Mismatch(e, r) else CheckFrom(es[1..], mem)
      else if AppliedStore(e) then
        match StoreWord(e, mem[WordIndex(e.addr)])
        case None => Crashed
        case Some(w) => CheckFrom(es[1..], mem[WordIndex(e.addr) := w])
      else CheckFrom(es[1..], mem)
  }

  /** Every compared load of `es` agrees with the memory the stores before it leave, and no
      store raises. */
  predicate AllAgree(es: seq<Entry>, mem: Memory) {
    Replay(es, mem).Some?
    && forall k | 0 <= k < |es| ::
         Replay(es[..k], mem).Some? && LoadAgrees(es[k], Replay(es[..k], mem).value)
  }

  /** `check` passes exactly when replaying the stores raises nowhere and every compared
      load agrees with the memory left by the stores before it. */
  lemma {:induction false} CheckCleanIffLoadsAgree(es: seq<Entry>, mem: Memory)
    ensures CheckFrom(es, mem) == Clean <==> AllAgree(es, mem)
    decreases |es|
  {
    if |es| > 0 {
      CheckFirst(es, mem);
      AgreeFirst(es, mem);
      CheckCleanIffLoadsAgree(es[1..], Next(es[0], mem));
    } else {
      assert Replay(es, mem).Some?;
    }
  }

  /** Load `es[k]` is compared against the memory the entries before it leave, all of which
      pass, and differs from the value `expected` that memory gives. */
  predicate MismatchAt(es: seq<Entry>, mem: Memory, k: nat, expected: nat) {
    k < |es| && AllAgree(es[..k], mem) && CheckedLoad(es[k])
    && var m := Replay(es[..k], mem).value;
       m[WordIndex(es[k].addr)].Some?
       && expected == LoadResult(es[k].category, es[k].addr, m[WordIndex(es[k].addr)].value)
       && es[k].value != Val(expected)
  }

  /** A reported mismatch is the first load that disagrees: every entry before it passes,
      and `expected` is what the memory replayed from those entries gives. */
  lemma {:induction false} MismatchIsFirstDisagreement(es: seq<Entry>, mem: Memory)
    ensures CheckFrom(es, mem).Mismatch? ==>
              exists k: nat :: MismatchAt(es, mem, k, CheckFrom(es, mem).expected)
                               && es[k] == CheckFrom(es, mem).entry
    decreases |es|
  {
    var o := CheckFrom(es, mem);
    if o.Mismatch? {
      var e := es[0];
      if CheckedLoad(e) && mem[WordIndex(e.addr)].Some?
         && e.value != Val(LoadResult(e.category, e.addr, mem[WordIndex(e.addr)].value)) {
        assert es[..0] == [];
        assert Replay(es[..0], mem) == Some(mem);
        assert MismatchAt(es, mem, 0, o.expected);
      } else {
        assert LoadAgrees(e, mem) && !Stuck(e, mem) && o == CheckFrom(es[1..], Next(e, mem));
        MismatchIsFirstDisagreement(es[1..], Next(e, mem));
        var k': nat :| MismatchAt(es[1..], Next(e, mem), k', o.expected) && es[1..][k'] == o.entry;
        var k := k' + 1;
        ReplayPrefixes(es, mem);
        assert es[..k][0] == e && es[..k][1..] == es[1..][..k'];
        AgreeFirst(es[..k], mem);
        assert Replay(es[..k], mem) == Replay(es[1..][..k'], Next(e, mem));
        assert es[k] == es[1..][k'];
        assert MismatchAt(es, mem, k, o.expected);
      }
    }
  }

  /** The first entry of a passing check is compared or applied without a difference. */
  lemma CheckFirst(es: seq<Entry>, mem: Memory)
    requires |es| > 0
    ensures CheckFrom(es, mem) == Clean
            <==> LoadAgrees(es[0], mem) && !Stuck(es[0], mem)
                 && CheckFrom(es[1..], Next(es[0], mem)) == Clean
  {
  }

  lemma AgreeFirst(es: seq<Entry>, mem: Memory)
    requires |es| > 0
    ensures AllAgree(es, mem)
            <==> LoadAgrees(es[0], mem) && !Stuck(es[0], mem)
                 && AllAgree(es[1..], Next(es[0], mem))
  {
    var e := es[0];
    ReplayPrefixes(es, mem);
    if AllAgree(es, mem) {
      assert Replay(es[..0], mem) == Some(mem);
      AgreeTail(es, mem);
    } else if LoadAgrees(e, mem) && !Stuck(e, mem) && AllAgree(es[1..], Next(e, mem)) {
      AgreeCons(es, mem);
    }
  }

  /** Replaying a non-empty prefix starts with the first entry. */
  lemma ReplayPrefixes(es: seq<Entry>, mem: Memory)
    requires |es| > 0
    ensures forall k | 0 < k <= |es| ::
              Replay(es[..k], mem)
              == if Stuck(es[0], mem) then None else Replay(es[1..][..k - 1], Next(es[0], mem))
  {
    forall k | 0 < k <= |es|
      ensures Replay(es[..k], mem)
              == if Stuck(es[0], mem) then None else Replay(es[1..][..k - 1], Next(es[0], mem))
    {
      assert es[..k][0] == es[0];
      assert es[..k][1..] == es[1..][..k - 1];
    }
  }

  lemma AgreeTail(es: seq<Entry>, mem: Memory)
    requires |es| > 0 && AllAgree(es, mem)
    requires forall k | 0 < k <= |es| ::
               Replay(es[..k], mem)
               == if Stuck(es[0], mem) then None else Replay(es[1..][..k - 1], Next(es[0], mem))
    ensures !Stuck(es[0], mem) && AllAgree(es[1..], Next(es[0], mem))
  {
    assert es[..|es|] == es;
    forall k | 0 <= k < |es| - 1
      ensures Replay(es[1..][..k], Next(es[0], mem)).Some?
      ensures LoadAgrees(es[1..][k], Replay(es[1..][..k], Next(es[0], mem)).value)
    {
      assert es[1..][k] == es[k + 1];
    }
  }

  lemma AgreeCons(es: seq<Entry>, mem: Memory)
    requires |es| > 0 && LoadAgrees(es[0], mem) && !Stuck(es[0], mem)
    requires AllAgree(es[1..], Next(es[0], mem))
    requires forall k | 0 < k <= |es| ::
               Replay(es[..k], mem)
               == if Stuck(es[0], mem) then None else Replay(es[1..][..k - 1], Next(es[0], mem))
    ensures AllAgree(es, mem)
  {
    assert es[..|es|] == es;
    assert Replay(es[..0], mem) == Some(mem);
    forall k | 0 < k < |es|
      ensures Replay(es[..k], mem).Some? && LoadAgrees(es[k], Replay(es[..k], mem).value)
    {
      assert es[k] == es[1..][k - 1];
    }
  }

  /** `check` as a loop over the entries with a model memory updated in place. */
  method Check(es: seq<Entry>) returns (o: Outcome)
    ensures o == CheckFrom(es, ZeroMemory())
  {
    var mem := ZeroMemory();
    var i := 0;
    while i < |es|
      invariant 0 <= i <= |es|
      invariant CheckFrom(es, ZeroMemory()) == CheckFrom(es[i..], mem)
    {
      var e := es[i];
      assert es[i..][0] == e && es[i..][1..] == es[i + 1..];
      if CheckedLoad(e) {
        var w := mem[WordIndex(e.addr)];
        if w.None? {
          return Crashed;
        }
        var r := LoadResult(e.category, e.addr, w.value);
        if e.value != Val(r) {
          return Mismatch(e, r);
        }
      } else if AppliedStore(e) {
        var w := StoreWord(e, mem[WordIndex(e.addr)]);
        if w.None? {
          return Crashed;
        }
        mem := mem[WordIndex(e.addr) := w.value];
      }
      i := i + 1;
    }
    return Clean;
  }

  // ---------------------------------------------------------------------------------------
  // The verdict of the script

  datatype Status = Passed | Failed | Raised

  /** `main` after the usage check: parse, then check. */
  function StatusOf(p: Option<Parsed>): Status {
    match p
    case None => Raised
    case Some(parsed) =>
      if !parsed.ok then Failed
      else
        match CheckFrom(parsed.entries, ZeroMemory())
        case Clean => Passed
        case Mismatch(_, _) => Failed
        case Crashed => Raised
  }

  function RunAsWritten(lines: seq<string>): Status {
    StatusOf(ParseLogAsWritten(lines))
  }

  function Run(lines: seq<string>): Status {
    StatusOf(ParseLog(lines))
  }

  // ---------------------------------------------------------------------------------------
  // The testbench's log lines as the script reads them

  predicate IsLoadOp(op: u32) {
    op == 0 || op == 2 || op == 4 || op == 8 || op == 10
  }

  predicate IsStoreOp(op: u32) {
    op == 1 || op == 3 || op == 5
  }

  lemma MnemonicClass(op: u32)
    ensures IsLoadOp(op) ==> IsLoadCategory(MemLog.Mnemonic(op)) && |MemLog.Mnemonic(op)| >= 2
    ensures IsStoreOp(op) ==> IsStoreCategory(MemLog.Mnemonic(op))
                              && !IsLoadCategory(MemLog.Mnemonic(op))
                              && |MemLog.Mnemonic(op)| >= 2
    ensures MemLog.IsLbcmp(op) ==> MemLog.Mnemonic(op) == "lbcmp"
    ensures !IsLoadOp(op) && !IsStoreOp(op) && !MemLog.IsLbcmp(op)
            ==> MemLog.Mnemonic(op) == "???"
  {
  }

  lemma DecodeLoad(ws: seq<string>, t: string, m: string, a: string, l: string, time: int,
                   addr: nat, id: int)
    requires ws == [t, m, a] + [l]
    requires ParseDec(t) == Some(time) && IsLoadCategory(m) && |m| >= 2
    requires ParseHex(a) == Some(addr) && ParseDec(l) == Some(id)
    ensures Decode(ws) == Some(LoadRec(time, m, addr, id))
  {
  }

  lemma DecodeStore(ws: seq<string>, t: string, m: string, a: string, v: string, time: int,
                    addr: nat, value: nat)
    requires ws == [t, m, a] + [v]
    requires ParseDec(t) == Some(time) && IsStoreCategory(m) && !IsLoadCategory(m)
    requires |m| >= 2 && ParseHex(a) == Some(addr) && ParseHex(v) == Some(value)
    ensures Decode(ws) == Some(StoreRec(time, m, addr, value))
  {
  }

  lemma DecodeCompare(ws: seq<string>, t: string, a: string, d: string, l: string, time: int,
                      addr: nat)
    requires ws == [t, "lbcmp", a] + [d, l]
    requires ParseDec(t) == Some(time) && ParseHex(a) == Some(addr)
    ensures Decode(ws)
            == match ParseDec(d)
               case None => None
               case Some(id) => Some(LoadRec(time, "lbcmp", addr, id))
  {
  }

  /** A data-cache request line is read as the access it logs: loads with their LSQ id,
      stores with their data, codes without a mnemonic skipped.  For lbcmp the compare byte
      stands where a load's LSQ id is expected, and is read as that id (a byte whose hex
      digits are not all decimal raises). */
  lemma ReqLineRead(simtime: u64, lsqid: u32, op: u32, addr: u32, wdata: u32)
    ensures Decode(Words(MemLog.ReqLine(simtime, lsqid, op, addr, wdata)))
            == var t := Signed64(simtime);
               var m := MemLog.Mnemonic(op);
               if IsLoadOp(op) then Some(LoadRec(t, m, addr, Signed32(lsqid)))
               else if IsStoreOp(op) then Some(StoreRec(t, m, addr, wdata))
               else if MemLog.IsLbcmp(op)
               then (var d := HexDigits(wdata % 256);
                     if AllDigits(d) then Some(LoadRec(t, m, addr, DecVal(d))) else None)
               else Some(OtherRec(t))
  {
    if IsLoadOp(op) {
      LoadReqRead(simtime, lsqid, op, addr, wdata);
    } else if IsStoreOp(op) {
      StoreReqRead(simtime, lsqid, op, addr, wdata);
    } else if MemLog.IsLbcmp(op) {
      CompareReqRead(simtime, lsqid, op, addr, wdata);
    } else {
      OtherReqRead(simtime, lsqid, op, addr, wdata);
    }
  }

  lemma LoadReqRead(simtime: u64, lsqid: u32, op: u32, addr: u32, wdata: u32)
    requires IsLoadOp(op)
    ensures Decode(Words(MemLog.ReqLine(simtime, lsqid, op, addr, wdata)))
            == Some(LoadRec(Signed64(simtime), MemLog.Mnemonic(op), addr, Signed32(lsqid)))
  {
    assert op % 2 == 0 && !MemLog.IsLbcmp(op);
    MemLog.ReqTailShape(lsqid, op, wdata);
    DecSignedRoundTrip(Signed64(simtime));
    DecSignedRoundTrip(Signed32(lsqid));
    Hex8Exact(addr);
    MnemonicClass(op);
    MemLog.ReqLineWords(simtime, lsqid, op, addr, wdata);
    DecodeLoad(Words(MemLog.ReqLine(simtime, lsqid, op, addr, wdata)),
               DecSigned(Signed64(simtime)), MemLog.Mnemonic(op), Hex8(addr),
               DecSigned(Signed32(lsqid)), Signed64(simtime), addr, Signed32(lsqid));
  }

  lemma StoreReqRead(simtime: u64, lsqid: u32, op: u32, addr: u32, wdata: u32)
    requires IsStoreOp(op)
    ensures Decode(Words(MemLog.ReqLine(simtime, lsqid, op, addr, wdata)))
            == Some(StoreRec(Signed64(simtime), MemLog.Mnemonic(op), addr, wdata))
  {
    assert op % 2 == 1;
    MemLog.ReqTailShape(lsqid, op, wdata);
    DecSignedRoundTrip(Signed64(simtime));
    Hex8Exact(addr);
    Hex8Exact(wdata);
    MnemonicClass(op);
    MemLog.ReqLineWords(simtime, lsqid, op, addr, wdata);
    DecodeStore(Words(MemLog.ReqLine(simtime, lsqid, op, addr, wdata)),
                DecSigned(Signed64(simtime)), MemLog.Mnemonic(op), Hex8(addr), Hex8(wdata),
                Signed64(simtime), addr, wdata);
  }

  lemma CompareReqRead(simtime: u64, lsqid: u32, op: u32, addr: u32, wdata: u32)
    requires MemLog.IsLbcmp(op)
    ensures Decode(Words(MemLog.ReqLine(simtime, lsqid, op, addr, wdata)))
            == var d := HexDigits(wdata % 256);
               if AllDigits(d)
               then Some(LoadRec(Signed64(simtime), "lbcmp", addr, DecVal(d)))
               else None
  {
    assert op % 2 == 0;
    MemLog.ReqTailShape(lsqid, op, wdata);
    DecSignedRoundTrip(Signed64(simtime));
    Hex8Exact(addr);
    MnemonicClass(op);
    var d := HexDigits(wdata % 256);
    CompareByteAsId(d);
    MemLog.ReqLineWords(simtime, lsqid, op, addr, wdata);
    DecodeCompare(Words(MemLog.ReqLine(simtime, lsqid, op, addr, wdata)),
                  DecSigned(Signed64(simtime)), Hex8(addr), d, DecSigned(Signed32(lsqid)),
                  Signed64(simtime), addr);
  }

  lemma OtherReqRead(simtime: u64, lsqid: u32, op: u32, addr: u32, wdata: u32)
    requires !IsLoadOp(op) && !IsStoreOp(op) && !MemLog.IsLbcmp(op)
    ensures Decode(Words(MemLog.ReqLine(simtime, lsqid, op, addr, wdata)))
            == Some(OtherRec(Signed64(simtime)))
  {
    MemLog.ReqLineWords(simtime, lsqid, op, addr, wdata);
    DecSignedRoundTrip(Signed64(simtime));
    MnemonicClass(op);
    DecodeOther(Words(MemLog.ReqLine(simtime, lsqid, op, addr, wdata)), Signed64(simtime));
  }

  /** `int()` of the compare byte's hex digits. */
  lemma CompareByteAsId(d: string)
    requires |d| > 0 && AllHex(d)
    ensures ParseDec(d) == if AllDigits(d) then Some(DecVal(d) as int) else None
  {
    assert d[0] != '-' && d[0] != '+' by {
      assert IsHexChar(d[0]);
    }
  }

  /** A response line is read as the answer it logs; an error response raises, since
      "error" is not a hex number. */
  lemma RespLineRead(simtime: u64, lsqid: u32, error: bool, rdata: u32)
    ensures Decode(Words(MemLog.RespLine(simtime, lsqid, error, rdata)))
            == if error then None else Some(RespRec(Signed64(simtime), Signed32(lsqid), rdata))
  {
    MemLog.RespLineWords(simtime, lsqid, error, rdata);
    DecSignedRoundTrip(Signed64(simtime));
    DecSignedRoundTrip(Signed32(lsqid));
    RespFieldRead(error, rdata);
    DecodeResp(DecSigned(Signed64(simtime)), DecSigned(Signed32(lsqid)),
               MemLog.RespField(error, rdata), Signed64(simtime), Signed32(lsqid));
  }

  lemma RespFieldRead(error: bool, rdata: u32)
    ensures ParseHex(MemLog.RespField(error, rdata)) == if error then None else Some(rdata)
  {
    if error {
      ErrorNotHex();
    } else {
      Hex8Exact(rdata);
    }
  }

  lemma ErrorNotHex()
    ensures ParseHex("error") == None
  {
    assert !IsHexChar("error"[1]);
  }

  lemma DecodeResp(t: string, l: string, v: string, time: int, id: int)
    requires ParseDec(t) == Some(time) && ParseDec(l) == Some(id)
    ensures Decode([t, "resp", l, v])
            == match ParseHex(v)
               case None => None
               case Some(value) => Some(RespRec(time, id, value))
  {
  }

  /** The leading time and keyword of a line. */
  lemma WordsHead(t: string, c: string, rest: string)
    requires |t| > 0 && NoSpace(t) && |c| > 0 && NoSpace(c)
    requires |rest| == 0 || IsSpace(rest[0])
    ensures var ws := Words(t + " " + c + rest); |ws| >= 2 && ws[0] == t && ws[1] == c
  {
    var tail := " " + c + rest;
    LeadWord(t, tail);
    TailWord(c, rest);
    Assoc3(t, " ", c, rest);
    FirstTwo(t, c, Words(rest));
  }

  lemma FirstTwo<T>(a: T, b: T, w: seq<T>)
    ensures var s := [a] + ([b] + w); |s| >= 2 && s[0] == a && s[1] == b
  {
  }

  lemma Assoc3<T>(a: seq<T>, b: seq<T>, c: seq<T>, d: seq<T>)
    ensures a + b + c + d == a + (b + c + d)
  {
  }

  lemma LeadWord(t: string, tail: string)
    requires |t| > 0 && NoSpace(t) && |tail| > 0 && IsSpace(tail[0])
    ensures Words(t + tail) == [t] + Words(tail)
  {
    EmptyLead(t, tail);
    WordsField("", t, tail);
  }

  lemma EmptyLead(t: string, tail: string)
    ensures "" + t + tail == t + tail && AllSpace("")
  {
    assert "" + t == t;
  }

  lemma TailWord(c: string, rest: string)
    requires |c| > 0 && NoSpace(c)
    requires |rest| == 0 || IsSpace(rest[0])
    ensures Words(" " + c + rest) == [c] + Words(rest)
  {
    assert AllSpace(" ");
    WordsField(" ", c, rest);
  }

  /** A line whose keyword is neither a load, a store, a response nor a flush is skipped. */
  lemma DecodeOther(ws: seq<string>, time: int)
    requires |ws| >= 2 && ParseDec(ws[0]) == Some(time)
    requires |ws[1]| > 0 && ws[1][0] != 'l' && ws[1][0] != 's'
    requires ws[1] != "resp" && ws[1] != "flush"
    ensures Decode(ws) == Some(OtherRec(time))
  {
  }

  /** A flush line is read as a flush. */
  lemma FlushLineRead(simtime: u64)
    ensures Decode(Words(Tracer.FlushLogLine(simtime))) == Some(FlushRec(Signed64(simtime)))
  {
    DecSignedRoundTrip(Signed64(simtime));
    assert NoSpace("flush");
    WordsHead(DecSigned(Signed64(simtime)), "flush", "");
    assert DecSigned(Signed64(simtime)) + " " + "flush" + "" == Tracer.FlushLogLine(simtime);
  }

  /** Retirement lines are skipped. */
  lemma RetireLineSkipped(simtime: u64, addr: u32, rd: u32, result: u32)
    ensures Decode(Words(Tracer.RetireLogLine(simtime, addr, rd, result)))
            == Some(OtherRec(Signed64(simtime)))
  {
    var t := DecSigned(Signed64(simtime));
    DecSignedRoundTrip(Signed64(simtime));
    assert NoSpace("ret");
    var rest := Tracer.RetireRest(addr, rd, result);
    assert Tracer.RetireLogLine(simtime, addr, rd, result) == t + " " + "ret" + rest;
    WordsHead(t, "ret", rest);
    DecodeOther(Words(Tracer.RetireLogLine(simtime, addr, rd, result)), Signed64(simtime));
  }

  /** Bus cycle lines are skipped. */
  lemma BusLineSkipped(simtime: u64, nack: bool, hit: bool, cmd: u32, tag: u32, addr: u32,
                       words: MemLog.BusData)
    ensures Decode(Words(MemLog.BusLine(simtime, nack, hit, cmd, tag, addr, words)))
            == Some(OtherRec(Signed64(simtime)))
  {
    MemLog.BusLineWords(simtime, nack, hit, cmd, tag, addr, words);
    MemLog.BusFieldFacts(simtime, tag, cmd, addr);
    DecodeOther(Words(MemLog.BusLine(simtime, nack, hit, cmd, tag, addr, words)),
                Signed64(simtime));
  }

  // ---------------------------------------------------------------------------------------
  // The missed orphan

  /** The log line of an `lw` from address 0 under LSQ id 0 at time 1 that never gets a
      response. */
  function LoneRequest(): string {
    MemLog.ReqLine(1, 0, 4, 0, 0)
  }

  /** The lone request becomes entry 0, waiting under id 0. */
  lemma LoneRequestParsed()
    ensures ParseLines(Init(), [LoneRequest()], 1)
            == Some(Init().(entries := [Entry(1, 1, "lw", 0, NoValue)],
                            slots := NoSlots()[0 := Some(0)]))
  {
    LoneRequestStep();
    assert [LoneRequest()][1..] == [];
  }

  lemma LoneRequestStep()
    ensures Step(Init(), 1, LoneRequest())
            == Some(Init().(entries := [Entry(1, 1, "lw", 0, NoValue)],
                            slots := NoSlots()[0 := Some(0)]))
  {
    LoneRequestDecoded();
    LoneRequestApplied();
  }

  lemma LoneRequestDecoded()
    ensures Decode(Words(LoneRequest())) == Some(LoadRec(1, "lw", 0, 0))
  {
    assert MemLog.Mnemonic(4) == "lw";
    assert Signed64(1) == 1 && Signed32(0) == 0;
    LoadReqRead(1, 0, 4, 0, 0);
  }

  lemma LoneRequestApplied()
    ensures Apply(Init(), 1, LoadRec(1, "lw", 0, 0))
            == Some(Init().(entries := [Entry(1, 1, "lw", 0, NoValue)],
                            slots := NoSlots()[0 := Some(0)]))
  {
    assert SlotOf(0) == Some(0);
    assert !Misaligned("lw", 0);
    assert Init().warnings + [] == [];
    assert Init().entries + [Entry(1, 1, "lw", 0, NoValue)] == [Entry(1, 1, "lw", 0, NoValue)];
  }

  /** With that line alone the request is entry 0, so `if index:` lets it pass, and since
      address 0 is outside the RAM the check passes too; the intended test fails it. */
  lemma OrphanAtIndexZeroPasses()
    ensures RunAsWritten([LoneRequest()]) == Passed
    ensures Run([LoneRequest()]) == Failed
  {
    LoneRequestParsed();
    var e := Entry(1, 1, "lw", 0, NoValue);
    var slots := NoSlots()[0 := Some(0)];
    assert !OrphanReportedAsWritten(slots);
    assert OrphanReported(slots) by {
      assert slots[0].Some?;
    }
    assert !InRam(0);
    assert CheckFrom([e], ZeroMemory()) == Clean by {
      assert [e][1..] == [];
    }
  }
}

=== FILE: checktrace.dfy ===
/** `checktrace.py`: compares the simulator's retirement trace with Spike's, line by line,
    after dropping Spike's five-line preamble.  Files are modelled as the sequences of lines
    `readline()` returns (each one non-empty, its newline included); the end of a file is
    the end of its sequence. */
module CheckTrace {

  /** Lines of Spike's log that precede the first retirement. */
  const PREAMBLE: nat := 5

  /** What `readline()` can return before the end of the file. */
  predicate IsLines(ls: seq<string>) {
    forall i | 0 <= i < |ls| :: |ls[i]| > 0
  }

  /** The exit status and the lines printed. */
  datatype Verdict = Verdict(status: int, printed: seq<string>)

  /** Spike's lines after the preamble (reading past the end yields nothing). */
  function SpikeBody(spike: seq<string>): seq<string> {
    if |spike| >= PREAMBLE then spike[PREAMBLE..] else []
  }

  /** Length of the longest common prefix of `a` and `b`. */
  function CommonPrefix(a: seq<string>, b: seq<string>): (n: nat)
    ensures n <= |a| && n <= |b| && a[..n] == b[..n]
    ensures n < |a| && n < |b| ==> a[n] != b[n]
    decreases |a|
  {
    if |a| == 0 || |b| == 0 || a[0] != b[0] then 0
    else
      var n := 1 + CommonPrefix(a[1..], b[1..]);
      assert a[..n] == [a[0]] + a[1..][..n - 1];
      assert b[..n] == [b[0]] + b[1..][..n - 1];
      n
  }

  /** What the script reports about the first position `k` where the traces part: the
      differing pair, or the next line of the side that did not run out. */
  function Report(sim: seq<string>, body: seq<string>, k: nat): seq<string>
    requires k <= |sim| && k <= |body|
  {
    if k == |sim| && k == |body| then []
    else if k == |sim| then ["-" + body[k]]
    else if k == |body| then ["+" + sim[k]]
    else ["-" + body[k], "+" + sim[k]]
  }

  /** `main`: read both files in step; the first difference or the first file to run out
      ends the comparison. */
  method Compare(sim: seq<string>, spike: seq<string>) returns (v: Verdict)
    requires IsLines(sim) && IsLines(spike)
    ensures v.status == 0 || v.status == 1
    ensures v.status == 0 <==> sim == SpikeBody(spike)
    ensures v.printed == Report(sim, SpikeBody(spike), CommonPrefix(sim, SpikeBody(spike)))
  {
    var body := SpikeBody(spike);
    var i := 0;
    while true
      invariant 0 <= i <= |sim| && i <= |body|
      invariant sim[..i] == body[..i]
      decreases |sim| - i
    {
      if i == |sim| {
        if i == |body| {
          assert sim == sim[..i] && body == body[..i];
          PrefixIsCommon(sim, body, i);
          return Verdict(0, []);
        }
        PrefixIsCommon(sim, body, i);
        return Verdict(1, ["-" + body[i]]);
      }
      if i == |body| {
        PrefixIsCommon(sim, body, i);
        assert sim != body by {
          assert |sim| != |body|;
        }
        return Verdict(1, ["+" + sim[i]]);
      }
      if sim[i] != body[i] {
        PrefixIsCommon(sim, body, i);
        return Verdict(1, ["-" + body[i], "+" + sim[i]]);
      }
      assert sim[..i + 1] == sim[..i] + [sim[i]];
      assert body[..i + 1] == body[..i] + [body[i]];
      i := i + 1;
    }
  }

  /** A shared prefix that ends at a difference or at the end of either side is the longest
      one. */
  lemma {:induction false} PrefixIsCommon(a: seq<string>, b: seq<string>, n: nat)
    requires n <= |a| && n <= |b| && a[..n] == b[..n]
    requires n == |a| || n == |b| || a[n] != b[n]
    ensures CommonPrefix(a, b) == n
    decreases n
  {
    if n > 0 {
      assert a[0] == a[..n][0] && b[0] == b[..n][0];
      assert a[1..][..n - 1] == a[..n][1..] && b[1..][..n - 1] == b[..n][1..];
      PrefixIsCommon(a[1..], b[1..], n - 1);
    } else if |a| > 0 && |b| > 0 {
      assert a[0] != b[0];
    }
  }

  /** A pass prints nothing, and a failure prints a line that exists on one side or the
      other, each line prefixed by the side it comes from. */
  lemma ReportMarksSides(sim: seq<string>, spike: seq<string>)
    ensures var body := SpikeBody(spike);
            var out := Report(sim, body, CommonPrefix(sim, body));
            (sim == body <==> out == [])
            && (forall j | 0 <= j < |out| :: |out[j]| > 0 && (out[j][0] == '-' || out[j][0] == '+'))
  {
    var body := SpikeBody(spike);
    if sim == body {
      PrefixIsCommon(sim, body, |sim|);
    }
  }
}

=== FILE: csr.dfy ===
/** The control/status register names the trace shows next to a CSR write (behavioral/top.cc). */
module Csr {
  import opened Fmt
  import opened Wrappers

  /** The name table of the 32 registers the core implements; `None` where
      `std::unordered_map::at` throws `out_of_range`. */
  function Lookup(addr: u16): Option<string> {
    match addr
    case 0x300 => Some("mstatus")
    case 0x301 => Some("misa")
    case 0x302 => Some("medeleg")
    case 0x303 => Some("mideleg")
    case 0x304 => Some("mie")
    case 0x305 => Some("mtvec")
    case 0x306 => Some("mcounteren")
    case 0x310 => Some("mstatush")
    case 0x340 => Some("mscratch")
    case 0x341 => Some("mepc")
    case 0x342 => Some("mcause")
    case 0x343 => Some("mtval")
    case 0x344 => Some("mip")
    case 0x34a => Some("mtinst")
    case 0x34b => Some("mtval2")
    case 0x7c0 => Some("muarttx")
    case 0x7d0 => Some("mbfsstat")
    case 0x7d1 => Some("mbfsroot")
    case 0x7d2 => Some("mbfstarg")
    case 0x7d3 => Some("mbfsqbase")
    case 0x7d4 => Some("mbfsqsize")
    case 0x7e0 => Some("ml2stat")
    case 0xb00 => Some("mcycle")
    case 0xb02 => Some("minstret")
    case 0xb80 => Some("mcycleh")
    case 0xb82 => Some("minstreth")
    case 0xf11 => Some("mvendorid")
    case 0xf12 => Some("marchid")
    case 0xf13 => Some("mimpid")
    case 0xf14 => Some("mhartid")
    case 0xfc0 => Some("muartstat")
    case 0xfc1 => Some("muartrx")
    case _ => None
  }

  const Unknown: string := "<unknown>"

  /** `get_csr_name`: the table entry, or "<unknown>" when the lookup throws. */
  function Name(addr: u16): string {
    Lookup(addr).GetOr(Unknown)
  }

  /** Reverse lookup, written independently of `Lookup`: which register a printed name
      denotes. */
  function AddressOf(name: string): Option<u16> {
    match name
    case "mstatus" => Some(0x300)
    case "misa" => Some(0x301)
    case "medeleg" => Some(0x302)
    case "mideleg" => Some(0x303)
    case "mie" => Some(0x304)
    case "mtvec" => Some(0x305)
    case "mcounteren" => Some(0x306)
    case "mstatush" => Some(0x310)
    case "mscratch" => Some(0x340)
    case "mepc" => Some(0x341)
    case "mcause" => Some(0x342)
    case "mtval" => Some(0x343)
    case "mip" => Some(0x344)
    case "mtinst" => Some(0x34a)
    case "mtval2" => Some(0x34b)
    case "muarttx" => Some(0x7c0)
    case "mbfsstat" => Some(0x7d0)
    case "mbfsroot" => Some(0x7d1)
    case "mbfstarg" => Some(0x7d2)
    case "mbfsqbase" => Some(0x7d3)
    case "mbfsqsize" => Some(0x7d4)
    case "ml2stat" => Some(0x7e0)
    case "mcycle" => Some(0xb00)
    case "minstret" => Some(0xb02)
    case "mcycleh" => Some(0xb80)
    case "minstreth" => Some(0xb82)
    case "mvendorid" => Some(0xf11)
    case "marchid" => Some(0xf12)
    case "mimpid" => Some(0xf13)
    case "mhartid" => Some(0xf14)
    case "muartstat" => Some(0xfc0)
    case "muartrx" => Some(0xfc1)
    case _ => None
  }

  /** What the trace needs of a printed name: the register can be recovered from it, and it
      is a single field. */
  predicate Identifies(addr: u16) {
    && AddressOf(Name(addr)) == (if Lookup(addr).Some? then Some(addr) else None)
    && (Name(addr) == Unknown <==> Lookup(addr).None?)
    && |Name(addr)| > 0 && NoSpace(Name(addr))
  }

  /** The printed name identifies the register: a known address is recovered from its name,
      and every address outside the 32-entry table prints as "<unknown>". */
  lemma NameIdentifiesRegister(addr: u16)
    ensures AddressOf(Name(addr)) == (if Lookup(addr).Some? then Some(addr) else None)
    ensures Name(addr) == Unknown <==> Lookup(addr).None?
    ensures |Name(addr)| > 0 && NoSpace(Name(addr))
  {
    if addr >= 0xfc0 {
      NamesFromfc0(addr);
    } else if addr >= 0xf11 {
      NamesFromf11(addr);
    } else if addr >= 0xb00 {
      NamesFromb00(addr);
    } else if addr >= 0x7d3 {
      NamesFrom7d3(addr);
    } else if addr >= 0x7c0 {
      NamesFrom7c0(addr);
    } else if addr >= 0x344 {
      NamesFrom344(addr);
    } else if addr >= 0x340 {
      NamesFrom340(addr);
    } else if addr >= 0x305 {
      NamesFrom305(addr);
    } else {
      NamesFrom300(addr);
    }
  }

  lemma NamesFrom300(addr: u16)
    requires addr < 0x305
    ensures Identifies(addr)
  {
  }

  lemma NamesFrom305(addr: u16)
    requires 0x305 <= addr < 0x340
    ensures Identifies(addr)
  {
  }

  lemma NamesFrom340(addr: u16)
    requires 0x340 <= addr < 0x344
    ensures Identifies(addr)
  {
  }

  lemma NamesFrom344(addr: u16)
    requires 0x344 <= addr < 0x7c0
    ensures Identifies(addr)
  {
  }

  lemma NamesFrom7c0(addr: u16)
    requires 0x7c0 <= addr < 0x7d3
    ensures Identifies(addr)
  {
  }

  lemma NamesFrom7d3(addr: u16)
    requires 0x7d3 <= addr < 0xb00
    ensures Identifies(addr)
  {
  }

  lemma NamesFromb00(addr: u16)
    requires 0xb00 <= addr < 0xf11
    ensures Identifies(addr)
  {
  }

  lemma NamesFromf11(addr: u16)
    requires 0xf11 <= addr < 0xfc0
    ensures Identifies(addr)
  {
  }

  lemma NamesFromfc0(addr: u16)
    requires 0xfc0 <= addr
    ensures Identifies(addr)
  {
  }
}

=== FILE: fifo.dfy ===
/** `tests/fifo.c`: an eight-slot ring buffer of 16-bit values.  Its `head` is the write
    index and its `tail` the read index, the opposite of the naming in `Ring`. */
module Fifo {
  import opened Wrappers
  import opened Fmt
  import Ring

  /** Must be a power of two: `x & (FIFO_SIZE - 1)` is then `x % FIFO_SIZE`. */
  const FIFO_SIZE: nat := 8

  datatype Fifo = Fifo(head: nat, tail: nat, data: seq<u16>)

  predicate Valid(f: Fifo) {
    |f.data| == FIFO_SIZE && f.head < FIFO_SIZE && f.tail < FIFO_SIZE
  }

  /** The queue a fifo holds, oldest element at the read index. */
  function View(f: Fifo): (r: Ring.Ring<u16>)
    requires Valid(f)
    ensures Ring.Valid(r)
  {
    Ring.Ring(f.data, f.tail, f.head)
  }

  function Contents(f: Fifo): seq<u16>
    requires Valid(f)
  {
    Ring.Contents(View(f))
  }

  /** The fifo after `malloc` and `memset(.., 0, ..)`. */
  function Zeroed(): (f: Fifo)
    ensures Valid(f) && Contents(f) == []
  {
    Fifo(0, 0, seq(FIFO_SIZE, _ => 0))
  }

  /** `fifo_push`: fails when the advanced write index would meet the read index;
      otherwise stores at `head` and advances only `head`. */
  function Push(f: Fifo, val: u16): (r: Option<Fifo>)
    requires Valid(f)
    ensures r.Some? ==> Valid(r.value) && r.value.tail == f.tail
    ensures r.None? <==> (f.head + 1) % FIFO_SIZE == f.tail
  {
    var headNext := (f.head + 1) % FIFO_SIZE;
    if headNext == f.tail then None
    else Some(f.(data := f.data[f.head := val], head := headNext))
  }

  /** `fifo_pop`: fails when the indices meet; otherwise yields the value at `tail` and
      advances only `tail`. */
  function Pop(f: Fifo): (r: Option<(u16, Fifo)>)
    requires Valid(f)
    ensures r.Some? ==> Valid(r.value.1) && r.value.1.head == f.head
                        && r.value.1.data == f.data
    ensures r.None? <==> f.tail == f.head
  {
    if f.tail == f.head then None
    else Some((f.data[f.tail], f.(tail := (f.tail + 1) % FIFO_SIZE)))
  }

  /** `fifo_push` is the checked ring push: it fails exactly when seven values are held,
      and otherwise appends. */
  lemma PushAppends(f: Fifo, val: u16)
    requires Valid(f)
    ensures Push(f, val).None? <==> |Contents(f)| == FIFO_SIZE - 1
    ensures Push(f, val).Some? ==> Contents(Push(f, val).value) == Contents(f) + [val]
  {
    assert Ring.TryPush(View(f), val).None? <==> Push(f, val).None?;
    if Push(f, val).Some? {
      assert View(Push(f, val).value) == Ring.Push(View(f), val);
      Ring.TryPushAppends(View(f), val);
    }
  }

  /** `fifo_pop` is the ring pop: it fails exactly when empty, and otherwise yields the
      oldest value. */
  lemma PopOldest(f: Fifo)
    requires Valid(f)
    ensures Pop(f).None? <==> Contents(f) == []
    ensures Pop(f).Some? ==> Pop(f).value.0 == Contents(f)[0]
                             && Contents(Pop(f).value.1) == Contents(f)[1..]
  {
    if Pop(f).Some? {
      Ring.PopFront(View(f));
      assert View(Pop(f).value.1) == Ring.Pop(View(f)).value.rest;
    }
  }

  /** `main`: push 0, 1, 2, ... until a push fails, then pop until empty, summing into a
      16-bit accumulator.  Returns the values popped and the sum. */
  method FillDrain() returns (popped: seq<u16>, acc: u16)
    ensures popped == [0, 1, 2, 3, 4, 5, 6]
    ensures acc == 21
  {
    var f := Fill(Zeroed());
    popped, acc := Drain(f);
    UptoSeven();
  }

  /** The push loop of `main` on an empty fifo: seven values fit. */
  method Fill(f0: Fifo) returns (f: Fifo)
    requires Valid(f0) && Contents(f0) == []
    ensures Valid(f) && Contents(f) == Upto(7)
  {
    f := f0;
    var i: u16 := 0;
    while true
      invariant Valid(f) && i < FIFO_SIZE
      invariant Contents(f) == Upto(i)
      decreases FIFO_SIZE - i
    {
      PushAppends(f, i);
      var r := Push(f, i);
      if r.None? {
        break;
      }
      f := r.value;
      i := i + 1;
    }
  }

  /** The pop loop of `main`: yields the contents in order and their sum modulo 2^16. */
  method Drain(f0: Fifo) returns (popped: seq<u16>, acc: u16)
    requires Valid(f0)
    ensures popped == Contents(f0)
    ensures acc == Sum(popped) % 0x1_0000
  {
    var f := f0;
    popped := [];
    acc := 0;
    while true
      invariant Valid(f)
      invariant popped + Contents(f) == Contents(f0)
      invariant acc == Sum(popped) % 0x1_0000
      decreases |Contents(f)|
    {
      var r := Pop(f);
      if r.None? {
        PopOldest(f);
        break;
      }
      PopStep(popped, f);
      popped := popped + [r.value.0];
      acc := (acc + r.value.0) % 0x1_0000;
      f := r.value.1;
    }
    assert popped + [] == popped;
  }

  /** One turn of the pop loop moves the oldest value from the fifo to the output. */
  lemma PopStep(popped: seq<u16>, f: Fifo)
    requires Valid(f) && Pop(f).Some?
    ensures var (x, f') := Pop(f).value;
            (popped + [x]) + Contents(f') == popped + Contents(f)
            && Sum(popped + [x]) == Sum(popped) + x
            && |Contents(f')| < |Contents(f)|
  {
    var (x, f') := Pop(f).value;
    PopOldest(f);
    SumAppend(popped, x);
    assert Contents(f) == [x] + Contents(f');
  }

  /** The values 0, 1, ..., n - 1. */
  function Upto(n: nat): (s: seq<u16>)
    requires n <= 0x1_0000
    ensures |s| == n && forall j | 0 <= j < n :: s[j] == j
  {
    if n == 0 then [] else Upto(n - 1) + [(n - 1) as u16]
  }

  lemma UptoSeven()
    ensures Upto(7) == [0, 1, 2, 3, 4, 5, 6]
    ensures Sum(Upto(7)) == 21
  {
    var s := Upto(7);
    assert s[..6] == Upto(6);
    assert s[..5] == Upto(6)[..5] == Upto(5);
    assert Upto(5)[..4] == Upto(4);
    assert Upto(4)[..3] == Upto(3);
    assert Upto(3)[..2] == Upto(2);
    assert Upto(2)[..1] == Upto(1);
    assert Upto(1)[..0] == Upto(0);
  }

  function Sum(s: seq<u16>): nat {
    if |s| == 0 then 0 else Sum(s[..|s| - 1]) + s[|s| - 1]
  }

  lemma SumAppend(s: seq<u16>, x: u16)
    ensures Sum(s + [x]) == Sum(s) + x
  {
    assert (s + [x])[..|s|] == s;
  }
}

=== FILE: fmt.dfy ===
/** Fixed-width machine integers, C `printf` conversions and the Python text parsing
    (`str.split()`, `int(s)`, `int(s, 16)`) that the testbench and its checker scripts rely on.

    C integers are modelled as unbounded `int`s restricted by subset types; every wrap-around
    is written out with `Wrap32`.  Bit tests use arithmetic: bit k of x is `(x / 2^k) % 2`
    and `x & (2^k - 1)` is `x % 2^k`, which agree with C and Python for non-negative x. */
module Fmt {
  import opened Wrappers

  type u8 = x: int | 0 <= x < 0x100
  type u16 = x: int | 0 <= x < 0x1_0000
  type u32 = x: int | 0 <= x < 0x1_0000_0000
  type u64 = x: int | 0 <= x < 0x1_0000_0000_0000_0000
  /** A C `int` (and `int32_t`, `ssize_t`, `intptr_t`, `off_t`) on RV32. */
  type i32 = x: int | -0x8000_0000 <= x < 0x8000_0000

  const TWO32: nat := 0x1_0000_0000

  /** The uint32 result of an unbounded computation (C unsigned wrap-around). */
  function Wrap32(x: int): u32 {
    x % TWO32
  }

  /** `x++` on a C `unsigned`: one more, or 0 after the largest value. */
  function Inc32(x: u32): (r: u32)
    ensures r == if x == TWO32 - 1 then 0 else x + 1
  {
    Wrap32(x as int + 1)
  }

  /** `x--` on a C `unsigned`: one less, or the largest value after 0. */
  function Dec32(x: u32): (r: u32)
    ensures r == if x == 0 then TWO32 - 1 else x - 1
  {
    Wrap32(x as int - 1)
  }

  /** Wrapping once or at every step gives the same uint32. */
  lemma Wrap32Add(x: int, k: int)
    ensures Wrap32(Wrap32(x) + k) == Wrap32(x + k)
  {
    var q := x / TWO32;
    assert x == q * TWO32 + Wrap32(x);
    assert Wrap32(x) + k == (x + k) - q * TWO32;
    ModShift(x + k, q);
  }

  lemma ModShift(y: int, q: int)
    ensures (y - q * TWO32) % TWO32 == y % TWO32
  {
    var r := y % TWO32;
    var p := y / TWO32;
    assert y - q * TWO32 == (p - q) * TWO32 + r;
  }

  function Pow2(k: nat): (r: nat)
    ensures r >= 1
  {
    if k == 0 then 1 else 2 * Pow2(k - 1)
  }

  function Pow16(k: nat): (r: nat)
    ensures r >= 1
  {
    if k == 0 then 1 else 16 * Pow16(k - 1)
  }

  /** `(x >> k) & 1` in C. */
  predicate Bit(x: nat, k: nat) {
    (x / Pow2(k)) % 2 == 1
  }

  /** The value a C `%d` conversion shows for a uint32 argument. */
  function Signed32(x: u32): int {
    if x < 0x8000_0000 then x else x - TWO32
  }

  /** The value a C `%ld` conversion shows for a uint64 argument. */
  function Signed64(x: u64): int {
    if x < 0x8000_0000_0000_0000 then x else x - 0x1_0000_0000_0000_0000
  }

  // ---------------------------------------------------------------------------------------
  // Division on unbounded integers

  /** Euclidean division has one quotient and one remainder. */
  lemma DivModUnique(x: int, d: int, a: int, b: int)
    requires d > 0 && 0 <= b < d && x == a * d + b
    ensures x / d == a && x % d == b
  {
    var k := x / d - a;
    assert k * d == b - x % d;
  }

  lemma DivDiv(x: nat, a: nat, b: nat)
    requires a > 0 && b > 0
    ensures x / (a * b) == (x / a) / b
  {
    var q1, r1 := x / a, x % a;
    var q2, r2 := q1 / b, q1 % b;
    DivMod(x, a);
    DivMod(q1, b);
    MulAdd(a, b, q2, r2, r1);
    DivModUnique(x, a * b, q2, a * r2 + r1);
  }

  lemma DivMod(x: nat, m: nat)
    requires m > 0
    ensures x == m * (x / m) + x % m && 0 <= x % m < m
  {
  }

  /** `a * (b * q + r) + s == (a * b) * q + (a * r + s)`, and the remainder part stays
      below `a * b`. */
  lemma MulAdd(a: nat, b: nat, q: nat, r: nat, s: nat)
    requires r < b && s < a
    ensures a * (b * q + r) + s == (a * b) * q + (a * r + s)
    ensures a * r + s < a * b
  {
    MulDistrib(a, b * q, r);
    MulAssoc(a, b, q);
    MulBelow(a, b, r);
  }

  lemma MulDistrib(a: int, x: int, y: int)
    ensures a * (x + y) == a * x + a * y
  {
  }

  lemma MulAssoc(a: int, b: int, c: int)
    ensures a * (b * c) == (a * b) * c
  {
  }

  /** `r < b` gives `a * r <= a * b - a`. */
  lemma MulBelow(a: nat, b: nat, r: nat)
    requires r < b
    ensures a * r + a <= a * b
  {
    MulDistrib(a, r, 1);
    assert a * (r + 1) <= a * b;
  }

  // ---------------------------------------------------------------------------------------
  // Characters

  predicate IsDigit(c: char) {
    '0' <= c <= '9'
  }

  predicate IsHexChar(c: char) {
    '0' <= c <= '9' || 'a' <= c <= 'f' || 'A' <= c <= 'F'
  }

  /** Python's `str.split()` separators among the ASCII characters: space, tab, newline,
      carriage return, vertical tab, form feed and the four separators 0x1c-0x1f. */
  predicate IsSpace(c: char) {
    c == ' ' || c == '\t' || c == '\n' || c == '\r' || c as int == 0x0b || c as int == 0x0c
    || 0x1c <= c as int <= 0x1f
  }

  function DigitChar(d: nat): (c: char)
    requires d < 10
    ensures IsDigit(c) && c as int - '0' as int == d
  {
    ('0' as int + d) as char
  }

  /** Lowercase hex digit, as printed by `%x`. */
  function HexChar(d: nat): (c: char)
    requires d < 16
    ensures IsHexChar(c) && !('A' <= c <= 'F')
  {
    if d < 10 then ('0' as int + d) as char else ('a' as int + d - 10) as char
  }

  function HexValue(c: char): (d: nat)
    requires IsHexChar(c)
    ensures d < 16
  {
    if '0' <= c <= '9' then c as int - '0' as int
    else if 'a' <= c <= 'f' then c as int - 'a' as int + 10
    else c as int - 'A' as int + 10
  }

  predicate AllDigits(s: string) {
    forall i | 0 <= i < |s| :: IsDigit(s[i])
  }

  predicate AllHex(s: string) {
    forall i | 0 <= i < |s| :: IsHexChar(s[i])
  }

  predicate NoSpace(s: string) {
    forall i | 0 <= i < |s| :: !IsSpace(s[i])
  }

  predicate AllSpace(s: string) {
    forall i | 0 <= i < |s| :: IsSpace(s[i])
  }

  function Repeat(c: char, n: nat): (s: string)
    ensures |s| == n && forall i | 0 <= i < n :: s[i] == c
  {
    seq(n, _ => c)
  }

  /** Right-justify `s` in a field of `w` characters, padding with `pad` (printf widths). */
  function PadLeft(s: string, w: nat, pad: char): (r: string)
    ensures |r| == if |s| < w then w else |s|
    ensures r[|r| - |s|..] == s
    ensures forall i | 0 <= i < |r| - |s| :: r[i] == pad
  {
    if |s| < w then Repeat(pad, w - |s|) + s else s
  }

  // ---------------------------------------------------------------------------------------
  // Values of digit strings (most significant digit first)

  function HexVal(s: string): nat
    requires AllHex(s)
  {
    if |s| == 0 then 0 else HexVal(s[..|s| - 1]) * 16 + HexValue(s[|s| - 1])
  }

  function DecVal(s: string): nat
    requires AllDigits(s)
  {
    if |s| == 0 then 0 else DecVal(s[..|s| - 1]) * 10 + (s[|s| - 1] as int - '0' as int)
  }

  /** Python `int(s, 16)` restricted to plain digit strings; `None` stands for `ValueError`. */
  function ParseHex(s: string): Option<nat> {
    if |s| > 0 && AllHex(s) then Some(HexVal(s)) else None
  }

  /** Python `int(s)`: optional sign followed by decimal digits; `None` stands for `ValueError`. */
  function ParseDec(s: string): Option<int> {
    if |s| > 0 && AllDigits(s) then Some(DecVal(s))
    else if |s| > 1 && s[0] == '-' && AllDigits(s[1..]) then Some(0 - DecVal(s[1..]) as int)
    else if |s| > 1 && s[0] == '+' && AllDigits(s[1..]) then Some(DecVal(s[1..]))
    else None
  }

  // ---------------------------------------------------------------------------------------
  // printf conversions

  /** The digits `%x` prints for v: lowercase, no leading zeros, "0" for zero. */
  function HexDigits(v: nat): (s: string)
    ensures 1 <= |s|
    ensures AllHex(s) && NoSpace(s) && HexVal(s) == v
    ensures |s| > 1 ==> s[0] != '0'
  {
    if v < 16 then [HexChar(v)]
    else
      var s := HexDigits(v / 16) + [HexChar(v % 16)];
      assert s[..|s| - 1] == HexDigits(v / 16);
      s
  }

  /** The digits `%u` prints for v: no leading zeros, "0" for zero. */
  function DecDigits(v: nat): (s: string)
    ensures 1 <= |s|
    ensures AllDigits(s) && NoSpace(s) && DecVal(s) == v
    ensures |s| > 1 ==> s[0] != '0'
  {
    if v < 10 then [DigitChar(v)]
    else
      var s := DecDigits(v / 10) + [DigitChar(v % 10)];
      assert s[..|s| - 1] == DecDigits(v / 10);
      s
  }

  /** `%0<w>x`: at least w lowercase hex digits, zero padded on the left. */
  function HexPad(v: nat, w: nat): string {
    PadLeft(HexDigits(v), w, '0')
  }

  /** `%08x`. */
  function Hex8(v: u32): string {
    HexPad(v, 8)
  }

  /** `%d` of a value already converted to a signed integer. */
  function DecSigned(v: int): string {
    if v < 0 then "-" + DecDigits(-v) else DecDigits(v)
  }

  // ---------------------------------------------------------------------------------------
  // Lemmas about the conversions

  lemma {:induction false} HexValLeadingZeros(k: nat, d: string)
    requires AllHex(d)
    ensures AllHex(Repeat('0', k) + d) && HexVal(Repeat('0', k) + d) == HexVal(d)
    decreases |d|, k
  {
    var s := Repeat('0', k) + d;
    if |d| == 0 {
      assert s == Repeat('0', k);
      if k > 0 {
        assert s[..|s| - 1] == Repeat('0', k - 1) + [];
        HexValLeadingZeros(k - 1, []);
      }
    } else {
      assert s[..|s| - 1] == Repeat('0', k) + d[..|d| - 1];
      HexValLeadingZeros(k, d[..|d| - 1]);
    }
  }

  /** Reading back any zero-padded `%0<w>x` field yields the printed value. */
  lemma HexPadRoundTrip(v: nat, w: nat)
    ensures AllHex(HexPad(v, w)) && NoSpace(HexPad(v, w)) && |HexPad(v, w)| >= 1
    ensures ParseHex(HexPad(v, w)) == Some(v)
  {
    var d := HexDigits(v);
    if |d| < w {
      HexValLeadingZeros(w - |d|, d);
    }
  }

  lemma {:induction false} HexDigitsLength(v: nat, k: nat)
    requires 1 <= k && v < Pow16(k)
    ensures |HexDigits(v)| <= k
    decreases k
  {
    if v >= 16 {
      assert k > 1;
      assert v / 16 < Pow16(k - 1);
      HexDigitsLength(v / 16, k - 1);
    }
  }

  /** `%08x` of a uint32 is exactly eight hex digits that read back as the value. */
  lemma Hex8Exact(v: u32)
    ensures |Hex8(v)| == 8 && AllHex(Hex8(v)) && NoSpace(Hex8(v))
    ensures ParseHex(Hex8(v)) == Some(v)
  {
    assert Pow16(8) == TWO32;
    HexDigitsLength(v, 8);
    HexPadRoundTrip(v, 8);
  }

  /** `%d` output is read back by Python's `int()` as the printed value. */
  lemma DecSignedRoundTrip(v: int)
    ensures |DecSigned(v)| >= 1 && NoSpace(DecSigned(v))
    ensures ParseDec(DecSigned(v)) == Some(v)
  {
    if v < 0 {
      var s := DecSigned(v);
      assert s[1..] == DecDigits(-v);
      assert !AllDigits(s) by { assert !IsDigit(s[0]); }
    }
  }

  // ---------------------------------------------------------------------------------------
  // Python `str.split()` with no argument

  /** Length of the run of non-separator characters that starts `s`. */
  function TokenLen(s: string): (n: nat)
    ensures n <= |s|
    ensures NoSpace(s[..n])
    ensures n < |s| ==> IsSpace(s[n])
  {
    if |s| == 0 || IsSpace(s[0]) then 0
    else
      var n := 1 + TokenLen(s[1..]);
      assert s[..n] == [s[0]] + s[1..][..n - 1];
      n
  }

  /** `s.split()`: the maximal runs of non-separator characters, in order. */
  function Words(s: string): (ws: seq<string>)
    ensures forall i | 0 <= i < |ws| :: |ws[i]| > 0 && NoSpace(ws[i])
    decreases |s|
  {
    if |s| == 0 then []
    else if IsSpace(s[0]) then Words(s[1..])
    else
      var n := TokenLen(s);
      [s[..n]] + Words(s[n..])
  }

  lemma {:induction false} WordsSkipSpace(sp: string, s: string)
    requires AllSpace(sp)
    ensures Words(sp + s) == Words(s)
    decreases |sp|
  {
    if |sp| > 0 {
      assert (sp + s)[0] == sp[0];
      assert (sp + s)[1..] == sp[1..] + s;
      WordsSkipSpace(sp[1..], s);
    } else {
      assert sp + s == s;
    }
  }

  lemma {:induction false} TokenLenOf(t: string, rest: string)
    requires NoSpace(t)
    requires |rest| == 0 || IsSpace(rest[0])
    ensures TokenLen(t + rest) == |t|
    decreases |t|
  {
    if |t| > 0 {
      assert (t + rest)[1..] == t[1..] + rest;
      TokenLenOf(t[1..], rest);
    }
  }

  /** Splitting `sp + t + rest` yields the token `t` followed by the words of `rest`. */
  lemma WordsField(sp: string, t: string, rest: string)
    requires AllSpace(sp) && |t| > 0 && NoSpace(t)
    requires |rest| == 0 || IsSpace(rest[0])
    ensures Words(sp + t + rest) == [t] + Words(rest)
  {
    assert sp + t + rest == sp + (t + rest);
    WordsSkipSpace(sp, t + rest);
    TokenLenOf(t, rest);
    assert (t + rest)[..|t|] == t;
    assert (t + rest)[|t|..] == rest;
  }

  /** `" " + t` for every token t, in order: a line of single-space separated fields. */
  function Spaced(ts: seq<string>): string {
    if |ts| == 0 then "" else " " + ts[0] + Spaced(ts[1..])
  }

  /** Every element is a non-empty run without separators. */
  predicate IsTokens(ts: seq<string>) {
    forall i | 0 <= i < |ts| :: |ts[i]| > 0 && NoSpace(ts[i])
  }

  lemma {:induction false} SpacedAppend(a: seq<string>, b: seq<string>)
    ensures Spaced(a + b) == Spaced(a) + Spaced(b)
    decreases |a|
  {
    if |a| > 0 {
      assert (a + b)[1..] == a[1..] + b;
      SpacedAppend(a[1..], b);
    } else {
      assert a + b == b;
    }
  }

  lemma Spaced1(a: string)
    ensures Spaced([a]) == " " + a
  {
    assert Spaced([a]) == " " + a + Spaced([a][1..]);
    assert [a][1..] == [];
  }

  lemma SpacedCons(a: string, ts: seq<string>)
    ensures Spaced([a] + ts) == " " + a + Spaced(ts)
  {
    SpacedAppend([a], ts);
    Spaced1(a);
  }

  lemma Spaced2(a: string, b: string)
    ensures Spaced([a, b]) == " " + a + " " + b
  {
    SpacedCons(a, [b]);
    assert [a, b] == [a] + [b];
    Spaced1(b);
  }

  lemma Spaced3(a: string, b: string, c: string)
    ensures Spaced([a, b, c]) == " " + a + " " + b + " " + c
  {
    SpacedCons(a, [b, c]);
    assert [a, b, c] == [a] + [b, c];
    Spaced2(b, c);
  }

  lemma Spaced4(a: string, b: string, c: string, d: string)
    ensures Spaced([a, b, c, d]) == " " + a + " " + b + " " + c + " " + d
  {
    SpacedCons(a, [b, c, d]);
    assert [a, b, c, d] == [a] + [b, c, d];
    Spaced3(b, c, d);
  }

  lemma Tokens4(a: string, b: string, c: string, d: string)
    requires |a| > 0 && NoSpace(a) && |b| > 0 && NoSpace(b)
    requires |c| > 0 && NoSpace(c) && |d| > 0 && NoSpace(d)
    ensures IsTokens([a, b, c, d])
  {
  }

  lemma IsTokensAppend(a: seq<string>, b: seq<string>)
    requires IsTokens(a) && IsTokens(b)
    ensures IsTokens(a + b)
  {
    forall i | 0 <= i < |a + b| ensures |(a + b)[i]| > 0 && NoSpace((a + b)[i]) {
      if i < |a| {
        assert (a + b)[i] == a[i];
      } else {
        assert (a + b)[i] == b[i - |a|];
      }
    }
  }

  lemma IsTokensCons(t: string, ts: seq<string>)
    requires |t| > 0 && NoSpace(t) && IsTokens(ts)
    ensures IsTokens([t] + ts)
  {
    forall i | 0 <= i < 1 + |ts| ensures |([t] + ts)[i]| > 0 && NoSpace(([t] + ts)[i]) {
      if i > 0 {
        assert ([t] + ts)[i] == ts[i - 1];
      }
    }
  }

  /** Splitting a line of single-space separated tokens gives the tokens back. */
  lemma {:induction false} WordsSpaced(ts: seq<string>, rest: string)
    requires IsTokens(ts)
    requires |rest| == 0 || IsSpace(rest[0])
    ensures Words(Spaced(ts) + rest) == ts + Words(rest)
    decreases |ts|
  {
    if |ts| > 0 {
      WordsSpaced(ts[1..], rest);
      WordsSpacedStep(ts, rest);
    } else {
      assert Spaced(ts) + rest == rest;
    }
  }

  lemma WordsSpacedStep(ts: seq<string>, rest: string)
    requires IsTokens(ts) && |ts| > 0
    requires |rest| == 0 || IsSpace(rest[0])
    requires Words(Spaced(ts[1..]) + rest) == ts[1..] + Words(rest)
    ensures Words(Spaced(ts) + rest) == ts + Words(rest)
  {
    var r := Spaced(ts[1..]) + rest;
    SpacedUnfold(ts, rest);
    SpacedStartsWithSpace(ts[1..], rest);
    WordsField(" ", ts[0], r);
    ConsAssoc(ts, Words(rest));
  }

  lemma SpacedUnfold(ts: seq<string>, rest: string)
    requires |ts| > 0
    ensures Spaced(ts) + rest == " " + ts[0] + (Spaced(ts[1..]) + rest)
  {
  }

  lemma AppendAssoc<T>(a: seq<T>, b: seq<T>, c: seq<T>)
    ensures a + b + c == a + (b + c)
  {
  }

  lemma ConsAssoc<T>(a: seq<T>, b: seq<T>)
    requires |a| > 0
    ensures [a[0]] + (a[1..] + b) == a + b
  {
  }

  lemma SpacedStartsWithSpace(ts: seq<string>, rest: string)
    requires |rest| == 0 || IsSpace(rest[0])
    ensures |Spaced(ts) + rest| == 0 || IsSpace((Spaced(ts) + rest)[0])
  {
    if |ts| > 0 {
      assert (Spaced(ts) + rest)[0] == ' ';
    } else {
      assert Spaced(ts) + rest == rest;
    }
  }

  lemma NoSpaceConcat(a: string, b: string)
    requires NoSpace(a) && NoSpace(b)
    ensures NoSpace(a + b)
  {
    assert forall i | 0 <= i < |a + b| :: (a + b)[i] == if i < |a| then a[i] else b[i - |a|];
  }

  /** Splitting a leading token, single-space separated tokens and a space-led remainder. */
  lemma WordsLeadRest(t: string, ts: seq<string>, rest: string)
    requires |t| > 0 && NoSpace(t) && IsTokens(ts)
    requires |rest| == 0 || IsSpace(rest[0])
    ensures Words(t + Spaced(ts) + rest) == [t] + ts + Words(rest)
  {
    var r := Spaced(ts) + rest;
    NoLead(t, Spaced(ts), rest);
    SpacedStartsWithSpace(ts, rest);
    WordsField("", t, r);
    WordsSpaced(ts, rest);
    AppendAssoc([t], ts, Words(rest));
  }

  lemma NoLead(t: string, s: string, rest: string)
    ensures t + s + rest == "" + t + (s + rest) && AllSpace("")
  {
    AppendAssoc(t, s, rest);
    assert "" + t == t;
  }

  /** Splitting a leading token followed by single-space separated tokens. */
  lemma WordsLead(t: string, ts: seq<string>)
    requires |t| > 0 && NoSpace(t) && IsTokens(ts)
    ensures Words(t + Spaced(ts)) == [t] + ts
  {
    WordsLeadRest(t, ts, "");
    assert t + Spaced(ts) + "" == t + Spaced(ts);
    assert Words("") == [];
    assert [t] + ts + [] == [t] + ts;
  }
}

=== FILE: graph.dfy ===
/** The breadth-first search shared by the graph test programs (`behavioral/bfs/graph.c`,
    `tests/graph.c`, `tests/graph_pt.c`; `tests/graph.cpp` keeps no parents).  Nodes are
    numbered by their index in the node array, which is also what `getNodeId` computes from
    a node pointer, so pointer and index variants share this model.  A graph is the list
    of each node's neighbours (the first `neigh_ct` entries of its neighbour array). */
module Graph {
  import opened Wrappers
  import Ring

  type Adj = seq<seq<nat>>

  /** Every neighbour is a node of the graph. */
  predicate Closed(adj: Adj) {
    forall v, j | 0 <= v < |adj| && 0 <= j < |adj[v]| :: adj[v][j] < |adj|
  }

  /** A walk along edges through nodes of the graph. */
  predicate IsPath(adj: Adj, p: seq<nat>) {
    |p| > 0
    && (forall i | 0 <= i < |p| :: p[i] < |adj|)
    && (forall i | 0 <= i < |p| - 1 :: p[i + 1] in adj[p[i]])
  }

  predicate PathFromTo(adj: Adj, p: seq<nat>, a: nat, b: nat) {
    IsPath(adj, p) && p[0] == a && p[|p| - 1] == b
  }

  ghost predicate Reachable(adj: Adj, a: nat, b: nat) {
    exists p :: PathFromTo(adj, p, a, b)
  }

  /** `is_neighbor`/`isNeighbor`: scan the first `neigh_ct` neighbours. */
  method IsNeighbor(neigh: seq<nat>, to: nat) returns (r: bool)
    ensures r <==> to in neigh
  {
    var i := 0;
    while i < |neigh|
      invariant i <= |neigh| && to !in neigh[..i]
    {
      if neigh[i] == to {
        return true;
      }
      assert neigh[..i + 1] == neigh[..i] + [neigh[i]];
      i := i + 1;
    }
    assert neigh[..i] == neigh;
    return false;
  }

  /** The number of marked nodes. */
  function CountTrue(m: seq<bool>): (n: nat)
    ensures n <= |m|
  {
    if |m| == 0 then 0 else (if m[0] then 1 else 0) + CountTrue(m[1..])
  }

  /** Marking an unmarked node adds one to the count, which therefore was below the
      number of nodes. */
  lemma {:induction false} CountTrueMark(m: seq<bool>, c: nat)
    requires c < |m| && !m[c]
    ensures CountTrue(m[c := true]) == CountTrue(m) + 1
    ensures CountTrue(m) < |m|
  {
    if c == 0 {
      assert m[c := true][1..] == m[1..];
    } else {
      assert m[c := true][1..] == m[1..][c - 1 := true];
      CountTrueMark(m[1..], c - 1);
    }
  }

  lemma {:induction false} CountTrueOne(n: nat, from: nat)
    requires from < n
    ensures CountTrue(seq(n, i => false)[from := true]) == 1
  {
    NoneMarked(seq(n, i => false));
    CountTrueMark(seq(n, i => false), from);
  }

  lemma {:induction false} NoneMarked(m: seq<bool>)
    requires forall i | 0 <= i < |m| :: !m[i]
    ensures CountTrue(m) == 0
  {
    if |m| > 0 {
      NoneMarked(m[1..]);
    }
  }

  /** The state of a search: the `marked` flags, the `parent` links and the queue. */
  datatype Search = Search(marked: seq<bool>, parent: seq<nat>, q: Ring.Ring<nat>)

  /** `init_bfs` over a queue whose storage is `buf` (its old contents are irrelevant):
      nothing marked but the root, every parent the node itself, the root the only element
      of the queue.  With
      `checked` the root goes in through the refusing `enqueue` of `tests/graph.cpp`, which
      cannot refuse into an empty queue of two or more slots. */
  function InitBfs(n: nat, from: nat, buf: seq<nat>, checked: bool): (s: Search)
    requires from < n <= |buf| && 2 <= |buf|
    ensures |s.marked| == |s.parent| == n && Ring.Valid(s.q)
    ensures |s.q.buf| == |buf|
    ensures forall v | 0 <= v < n :: s.marked[v] <==> v == from
    ensures forall v | 0 <= v < n :: s.parent[v] == v
    ensures Ring.Contents(s.q) == [from]
  {
    var q := Ring.Empty(buf);
    Ring.PushAppends(q, from);
    var q' := if checked then Ring.TryPush(q, from).value else Ring.Push(q, from);
    Search(seq(n, i => false)[from := true], seq(n, i => i), q')
  }

  /** The depths before the search: all zero. */
  function Shallowest(n: nat): (d: seq<nat>)
    ensures |d| == n && forall v | 0 <= v < n :: d[v] == 0
  {
    seq(n, _ => 0)
  }

  /** Every marked node other than the root hangs off a marked parent that is a
      predecessor in the graph and lies exactly one level shallower. */
  predicate Tree(adj: Adj, from: nat, marked: seq<bool>, parent: seq<nat>, depth: seq<nat>)
    requires |marked| == |parent| == |depth| == |adj|
  {
    forall v | 0 <= v < |adj| && marked[v] && v != from ::
      parent[v] < |adj| && marked[parent[v]] && v in adj[parent[v]]
      && depth[v] == depth[parent[v]] + 1
  }

  /** Depths stay below the number of marked nodes. */
  predicate Shallow(marked: seq<bool>, depth: seq<nat>)
    requires |marked| == |depth|
  {
    forall v | 0 <= v < |marked| && marked[v] :: depth[v] < CountTrue(marked)
  }

  /** The queue holds marked nodes. */
  predicate Queued(adj: Adj, marked: seq<bool>, q: Ring.Ring<nat>)
    requires |marked| == |adj| && Ring.Valid(q)
  {
    forall k | 0 <= k < |Ring.Contents(q)| ::
      Ring.Contents(q)[k] < |adj| && marked[Ring.Contents(q)[k]]
  }

  /** Every marked node that has left the queue, except the one being expanded (`cur`),
      has all its neighbours marked. */
  predicate Explored(adj: Adj, marked: seq<bool>, q: Ring.Ring<nat>, cur: nat)
    requires Closed(adj) && |marked| == |adj| && Ring.Valid(q)
  {
    forall v | 0 <= v < |adj| && marked[v] && v != cur && v !in Ring.Contents(q) ::
      forall j | 0 <= j < |adj[v]| :: marked[adj[v][j]]
  }

  /** The loop invariant of `bfs_reachable`; `done` counts the nodes dequeued and `cur` is
      the node being expanded (`|adj|` between expansions). */
  predicate Inv(adj: Adj, from: nat, to: nat, qcap: nat, marked: seq<bool>, parent: seq<nat>,
                depth: seq<nat>, q: Ring.Ring<nat>, done: nat, cur: nat)
  {
    Closed(adj) && from < |adj| <= qcap && 2 <= qcap
    && |marked| == |parent| == |depth| == |adj| && Ring.Valid(q) && |q.buf| == qcap
    && marked[from]
    && Queued(adj, marked, q)
    && CountTrue(marked) == Ring.Count(q) + done
    && Explored(adj, marked, q, cur)
    && (to < |adj| && marked[to] ==> to in Ring.Contents(q))
    && Tree(adj, from, marked, parent, depth)
    && Shallow(marked, depth)
  }

  lemma InitInv(adj: Adj, from: nat, to: nat, buf: seq<nat>, checked: bool)
    requires Closed(adj) && from < |adj| <= |buf| && 2 <= |buf| && to != from
    ensures var s := InitBfs(|adj|, from, buf, checked);
            Inv(adj, from, to, |buf|, s.marked, s.parent, Shallowest(|adj|), s.q, 0, |adj|)
  {
    CountTrueOne(|adj|, from);
  }

  lemma InitInvAtRoot(adj: Adj, from: nat, buf: seq<nat>, checked: bool)
    requires Closed(adj) && from < |adj| <= |buf| && 2 <= |buf|
    ensures var s := InitBfs(|adj|, from, buf, checked);
            Inv(adj, from, from, |buf|, s.marked, s.parent, Shallowest(|adj|), s.q, 0, |adj|)
  {
    CountTrueOne(|adj|, from);
  }

  /** Dequeuing a node other than the target starts its expansion. */
  lemma DequeueInv(adj: Adj, from: nat, to: nat, qcap: nat, marked: seq<bool>,
                   parent: seq<nat>, depth: seq<nat>, q: Ring.Ring<nat>, done: nat,
                   cur: nat, rest: Ring.Ring<nat>)
    requires Inv(adj, from, to, qcap, marked, parent, depth, q, done, |adj|)
    requires Ring.Pop(q) == Some(Ring.Popped(cur, rest)) && cur != to
    ensures cur < |adj| && marked[cur]
    ensures Inv(adj, from, to, qcap, marked, parent, depth, rest, done + 1, cur)
  {
    Ring.PopFront(q);
    var c := Ring.Contents(q);
    assert c == [c[0]] + Ring.Contents(rest);
    assert Queued(adj, marked, rest) by {
      forall k | 0 <= k < |Ring.Contents(rest)|
        ensures Ring.Contents(rest)[k] == c[k + 1]
      {
      }
    }
  }

  /** Visiting an unmarked neighbour `c` of `cur`: the queue has room, and enqueueing `c`
      with parent `cur` keeps the invariant. */
  lemma VisitInv(adj: Adj, from: nat, to: nat, qcap: nat, marked: seq<bool>,
                 parent: seq<nat>, depth: seq<nat>, q: Ring.Ring<nat>, done: nat, cur: nat,
                 c: nat)
    requires Inv(adj, from, to, qcap, marked, parent, depth, q, done, cur)
    requires cur < |adj| && marked[cur] && done >= 1 && c in adj[cur] && !marked[c]
    ensures Ring.Count(q) < qcap - 1
    ensures Inv(adj, from, to, qcap, marked[c := true], parent[c := cur],
                depth[c := depth[cur] + 1], Ring.Push(q, c), done, cur)
  {
    CountTrueMark(marked, c);
    Ring.PushAppends(q, c);
    VisitQueued(adj, marked, q, c);
    VisitExplored(adj, marked, q, cur, c);
    VisitTree(adj, from, marked, parent, depth, cur, c);
    VisitShallow(marked, depth, cur, c);
  }

  lemma VisitQueued(adj: Adj, marked: seq<bool>, q: Ring.Ring<nat>, c: nat)
    requires |marked| == |adj| && Ring.Valid(q) && Queued(adj, marked, q) && c < |adj|
    requires Ring.Contents(Ring.Push(q, c)) == Ring.Contents(q) + [c]
    ensures Queued(adj, marked[c := true], Ring.Push(q, c))
  {
    var m' := marked[c := true];
    var q' := Ring.Push(q, c);
    forall k | 0 <= k < |Ring.Contents(q')|
      ensures Ring.Contents(q')[k] < |adj| && m'[Ring.Contents(q')[k]]
    {
      if k < |Ring.Contents(q)| {
        assert Ring.Contents(q')[k] == Ring.Contents(q)[k];
      }
    }
  }

  lemma VisitExplored(adj: Adj, marked: seq<bool>, q: Ring.Ring<nat>, cur: nat, c: nat)
    requires Closed(adj) && |marked| == |adj| && Ring.Valid(q) && c < |adj| && !marked[c]
    requires Explored(adj, marked, q, cur)
    requires Ring.Contents(Ring.Push(q, c)) == Ring.Contents(q) + [c]
    ensures Explored(adj, marked[c := true], Ring.Push(q, c), cur)
  {
    var m' := marked[c := true];
    var q' := Ring.Push(q, c);
    forall v | 0 <= v < |adj| && m'[v] && v != cur && v !in Ring.Contents(q')
      ensures forall j | 0 <= j < |adj[v]| :: m'[adj[v][j]]
    {
      assert v != c && v !in Ring.Contents(q);
    }
  }

  lemma VisitTree(adj: Adj, from: nat, marked: seq<bool>, parent: seq<nat>, depth: seq<nat>,
                  cur: nat, c: nat)
    requires |marked| == |parent| == |depth| == |adj| && from < |adj| && marked[from]
    requires Tree(adj, from, marked, parent, depth)
    requires cur < |adj| && marked[cur] && c in adj[cur] && c < |adj| && !marked[c]
    ensures Tree(adj, from, marked[c := true], parent[c := cur], depth[c := depth[cur] + 1])
  {
  }

  lemma VisitShallow(marked: seq<bool>, depth: seq<nat>, cur: nat, c: nat)
    requires |marked| == |depth| && Shallow(marked, depth)
    requires cur < |marked| && marked[cur] && c < |marked| && !marked[c]
    requires CountTrue(marked[c := true]) == CountTrue(marked) + 1
    ensures Shallow(marked[c := true], depth[c := depth[cur] + 1])
  {
  }

  /** Visiting a neighbour that is already marked changes nothing. */
  lemma RevisitInv(marked: seq<bool>, c: nat)
    requires c < |marked| && marked[c]
    ensures marked[c := true] == marked
  {
  }

  /** Once all neighbours of `cur` are marked, its expansion is over. */
  lemma FinishInv(adj: Adj, from: nat, to: nat, qcap: nat, marked: seq<bool>,
                  parent: seq<nat>, depth: seq<nat>, q: Ring.Ring<nat>, done: nat, cur: nat)
    requires Inv(adj, from, to, qcap, marked, parent, depth, q, done, cur) && cur < |adj|
    requires MarkedUpTo(marked, adj[cur], |adj[cur]|)
    ensures Inv(adj, from, to, qcap, marked, parent, depth, q, done, |adj|)
  {
  }

  /** With the queue empty, the marked nodes are closed under edges: no path leaves them. */
  lemma {:induction false} NoEscape(adj: Adj, from: nat, to: nat, qcap: nat,
                                    marked: seq<bool>, parent: seq<nat>, depth: seq<nat>,
                                    q: Ring.Ring<nat>, done: nat, p: seq<nat>)
    requires Inv(adj, from, to, qcap, marked, parent, depth, q, done, |adj|)
    requires Ring.Contents(q) == [] && IsPath(adj, p) && p[0] == from
    ensures marked[p[|p| - 1]]
    decreases |p|
  {
    if |p| > 1 {
      var p' := p[..|p| - 1];
      assert IsPath(adj, p') by {
        forall i | 0 <= i < |p'| - 1
          ensures p'[i + 1] in adj[p'[i]]
        {
          assert p'[i] == p[i] && p'[i + 1] == p[i + 1];
        }
      }
      NoEscape(adj, from, to, qcap, marked, parent, depth, q, done, p');
      var v := p[|p| - 2];
      assert p[(|p| - 2) + 1] in adj[p[|p| - 2]];
      assert marked[v] && v !in Ring.Contents(q);
      var j :| 0 <= j < |adj[v]| && adj[v][j] == p[|p| - 1];
    }
  }

  /** An exhausted search has not reached the target: it is unreachable. */
  lemma ExhaustedUnreachable(adj: Adj, from: nat, to: nat, qcap: nat, marked: seq<bool>,
                             parent: seq<nat>, depth: seq<nat>, q: Ring.Ring<nat>, done: nat)
    requires Inv(adj, from, to, qcap, marked, parent, depth, q, done, |adj|)
    requires Ring.Contents(q) == []
    ensures !Reachable(adj, from, to)
  {
    if p :| PathFromTo(adj, p, from, to) {
      NoEscape(adj, from, to, qcap, marked, parent, depth, q, done, p);
    }
  }

  /** Following parents from a marked node reaches the root, along reversed edges. */
  lemma {:induction false} TreePath(adj: Adj, from: nat, marked: seq<bool>, parent: seq<nat>,
                                    depth: seq<nat>, v: nat) returns (p: seq<nat>)
    requires |marked| == |parent| == |depth| == |adj| && from < |adj|
    requires Tree(adj, from, marked, parent, depth)
    requires v < |adj| && marked[v]
    ensures PathFromTo(adj, p, from, v)
    decreases depth[v]
  {
    if v == from {
      p := [from];
    } else {
      var u := parent[v];
      var p' := TreePath(adj, from, marked, parent, depth, u);
      p := p' + [v];
      assert forall i | 0 <= i < |p'| :: p[i] == p'[i];
    }
  }

  /** The search loop of `bfs_reachable` from the state `init_bfs` leaves: dequeue until
      the target comes out or the queue is empty, expanding every other node dequeued.  The
      C programs enqueue unchecked, `tests/graph.cpp` (`checked`) through the refusing
      `enqueue`; neither ever meets a full queue, because a node is
      enqueued only once and the queue has at least as many slots as the graph has nodes.
      `depth` is the length of the tree path to each marked node. */
  method Explore(adj: Adj, from: nat, to: nat, buf: seq<nat>, checked: bool)
    returns (found: bool, s: Search, ghost depth: seq<nat>)
    requires Closed(adj) && from < |adj| <= |buf| && 2 <= |buf|
    ensures |s.marked| == |s.parent| == |depth| == |adj|
    ensures Tree(adj, from, s.marked, s.parent, depth) && Shallow(s.marked, depth)
    ensures found <==> Reachable(adj, from, to)
    ensures found ==> to < |adj| && s.marked[to]
  {
    s := InitBfs(|adj|, from, buf, checked);
    var qcap := |buf|;
    var marked: seq<bool>, parent: seq<nat>, q: Ring.Ring<nat> := s.marked, s.parent, s.q;
    depth := Shallowest(|adj|);
    ghost var done: nat := 0;
    if to == from {
      InitInvAtRoot(adj, from, buf, checked);
    } else {
      InitInv(adj, from, to, buf, checked);
    }
    found := false;
    while true
      invariant Inv(adj, from, to, qcap, marked, parent, depth, q, done, |adj|)
      decreases |adj| - done
    {
      var popped := Ring.Pop(q);
      if popped.None? {
        break;
      }
      var cur: nat := popped.value.item;
      if cur == to {
        Ring.PopFront(q);
        found := true;
        break;
      }
      DequeueInv(adj, from, to, qcap, marked, parent, depth, q, done, cur, popped.value.rest);
      q := popped.value.rest;
      done := done + 1;
      marked, parent, depth, q := Expand(adj, from, to, qcap, marked, parent, depth, q, done, cur,
                                     checked);
    }
    s := Search(marked, parent, q);
    if found {
      var p := TreePath(adj, from, marked, parent, depth, to);
    } else {
      ExhaustedUnreachable(adj, from, to, qcap, marked, parent, depth, q, done);
    }
  }

  /** The inner loop of `bfs_reachable`: for each neighbour of `cur` in order, enqueue it
      and make `cur` its parent if it is unmarked, then mark it. */
  method Expand(adj: Adj, from: nat, to: nat, qcap: nat, marked0: seq<bool>,
                parent0: seq<nat>, ghost depth0: seq<nat>, q0: Ring.Ring<nat>,
                ghost done: nat, cur: nat, checked: bool)
    returns (marked: seq<bool>, parent: seq<nat>, ghost depth: seq<nat>, q: Ring.Ring<nat>)
    requires Inv(adj, from, to, qcap, marked0, parent0, depth0, q0, done, cur)
    requires cur < |adj| && marked0[cur] && done >= 1
    ensures Inv(adj, from, to, qcap, marked, parent, depth, q, done, |adj|)
    ensures |marked| == |marked0| && MarkedUpTo(marked, adj[cur], |adj[cur]|)
    ensures forall v | 0 <= v < |adj| :: marked[v] <==> marked0[v] || v in adj[cur]
    ensures forall v | 0 <= v < |adj| && marked0[v] :: parent[v] == parent0[v]
    ensures forall v | 0 <= v < |adj| && !marked0[v] && marked[v] :: parent[v] == cur
    ensures Ring.Contents(q) == Ring.Contents(q0) + Discovered(marked0, adj[cur])
  {
    marked, parent, depth, q := marked0, parent0, depth0, q0;
    var i: nat := 0;
    while i < |adj[cur]|
      invariant i <= |adj[cur]|
      invariant Scanning(adj, from, to, qcap, marked0, parent0, q0, marked, parent, depth, q,
                         done, cur, i)
    {
      marked, parent, depth, q := ScanStep(adj, from, to, qcap, marked0, parent0, q0, marked,
                                           parent, depth, q, done, cur, i, checked);
      i := i + 1;
    }
    FrameDone(adj, cur, marked0, parent0, q0, marked, parent, q);
    FinishInv(adj, from, to, qcap, marked, parent, depth, q, done, cur);
  }

  /** The loop invariant of `Expand` after `i` neighbours. */
  predicate Scanning(adj: Adj, from: nat, to: nat, qcap: nat, marked0: seq<bool>,
                     parent0: seq<nat>, q0: Ring.Ring<nat>, marked: seq<bool>,
                     parent: seq<nat>, depth: seq<nat>, q: Ring.Ring<nat>, done: nat, cur: nat,
                     i: nat)
  {
    Inv(adj, from, to, qcap, marked, parent, depth, q, done, cur)
    && cur < |adj| && marked[cur] && done >= 1 && i <= |adj[cur]|
    && MarkedUpTo(marked, adj[cur], i)
    && |marked0| == |parent0| == |adj| && Ring.Valid(q0)
    && Frame(adj, cur, i, marked0, parent0, q0, marked, parent, q)
  }

  /** One iteration of `Expand`'s loop: visit neighbour `i` of `cur`. */
  method ScanStep(adj: Adj, from: nat, to: nat, qcap: nat, marked0: seq<bool>,
                  parent0: seq<nat>, q0: Ring.Ring<nat>, marked: seq<bool>, parent: seq<nat>,
                  ghost depth: seq<nat>, q: Ring.Ring<nat>, ghost done: nat, cur: nat, i: nat,
                  checked: bool)
    returns (marked': seq<bool>, parent': seq<nat>, ghost depth': seq<nat>, q': Ring.Ring<nat>)
    requires Scanning(adj, from, to, qcap, marked0, parent0, q0, marked, parent, depth, q,
                      done, cur, i)
    requires i < |adj[cur]|
    ensures Scanning(adj, from, to, qcap, marked0, parent0, q0, marked', parent', depth', q',
                     done, cur, i + 1)
    ensures marked' == marked[adj[cur][i] := true]
  {
    MarkStep(marked, adj[cur], i);
    var c: nat := adj[cur][i];
    if !marked[c] {
      VisitInv(adj, from, to, qcap, marked, parent, depth, q, done, cur, c);
      Ring.PushAppends(q, c);
      if checked {
        Ring.FullIffCount(q);
        q' := Ring.TryPush(q, c).value;
      } else {
        q' := Ring.Push(q, c);
      }
      FrameStep(adj, cur, i, marked0, parent0, q0, marked, parent, q, q');
      parent' := parent[c := cur];
      depth' := depth[c := depth[cur] + 1];
    } else {
      RevisitInv(marked, c);
      FrameStep(adj, cur, i, marked0, parent0, q0, marked, parent, q, q);
      parent', depth', q' := parent, depth, q;
    }
    marked' := marked[c := true];
  }

  /** What the first `i` steps of `cur`'s expansion have done: marked the first `i`
      neighbours, made `cur` the parent of the nodes newly marked and of no other, and
      enqueued those the rest of the scan will not find. */
  predicate Frame(adj: Adj, cur: nat, i: nat, marked0: seq<bool>, parent0: seq<nat>,
                  q0: Ring.Ring<nat>, marked: seq<bool>, parent: seq<nat>, q: Ring.Ring<nat>)
    requires Closed(adj) && cur < |adj| && i <= |adj[cur]|
    requires |marked0| == |parent0| == |marked| == |parent| == |adj|
    requires Ring.Valid(q0) && Ring.Valid(q)
  {
    (forall v | 0 <= v < |adj| :: marked[v] <==> marked0[v] || v in adj[cur][..i])
    && (forall v | 0 <= v < |adj| && marked0[v] :: parent[v] == parent0[v])
    && (forall v | 0 <= v < |adj| && !marked0[v] && marked[v] :: parent[v] == cur)
    && Ring.Contents(q) + Discovered(marked, adj[cur][i..])
       == Ring.Contents(q0) + Discovered(marked0, adj[cur])
  }

  /** One step of the scan keeps `Frame`: an unmarked neighbour is appended to the queue
      and gets `cur` as parent, a marked one changes nothing. */
  lemma FrameStep(adj: Adj, cur: nat, i: nat, marked0: seq<bool>, parent0: seq<nat>,
                  q0: Ring.Ring<nat>, marked: seq<bool>, parent: seq<nat>, q: Ring.Ring<nat>,
                  q': Ring.Ring<nat>)
    requires Closed(adj) && cur < |adj| && i < |adj[cur]|
    requires |marked0| == |parent0| == |marked| == |parent| == |adj|
    requires Ring.Valid(q0) && Ring.Valid(q) && Ring.Valid(q')
    requires Frame(adj, cur, i, marked0, parent0, q0, marked, parent, q)
    requires var c := adj[cur][i];
             if marked[c] then Ring.Contents(q') == Ring.Contents(q)
             else Ring.Contents(q') == Ring.Contents(q) + [c]
    ensures var c := adj[cur][i];
            Frame(adj, cur, i + 1, marked0, parent0, q0, marked[c := true],
                  if marked[c] then parent else parent[c := cur], q')
  {
    var c := adj[cur][i];
    assert adj[cur][..i + 1] == adj[cur][..i] + [c];
    assert adj[cur][i..] == [c] + adj[cur][i + 1..];
    if marked[c] {
      assert marked[c := true] == marked;
    }
  }

  lemma FrameDone(adj: Adj, cur: nat, marked0: seq<bool>, parent0: seq<nat>,
                  q0: Ring.Ring<nat>, marked: seq<bool>, parent: seq<nat>, q: Ring.Ring<nat>)
    requires Closed(adj) && cur < |adj|
    requires |marked0| == |parent0| == |marked| == |parent| == |adj|
    requires Ring.Valid(q0) && Ring.Valid(q)
    requires Frame(adj, cur, |adj[cur]|, marked0, parent0, q0, marked, parent, q)
    ensures forall v | 0 <= v < |adj| :: marked[v] <==> marked0[v] || v in adj[cur]
    ensures Ring.Contents(q) == Ring.Contents(q0) + Discovered(marked0, adj[cur])
  {
    assert adj[cur][..|adj[cur]|] == adj[cur];
    assert adj[cur][|adj[cur]|..] == [];
  }

  /** The neighbours in `ns` that a scan marking each in turn finds unmarked, in the order
      found: the nodes that `cur`'s expansion enqueues. */
  function Discovered(marked: seq<bool>, ns: seq<nat>): (r: seq<nat>)
    requires forall j | 0 <= j < |ns| :: ns[j] < |marked|
    ensures forall x :: x in r <==> x in ns && x < |marked| && !marked[x]
    ensures forall i, j | 0 <= i < j < |r| :: r[i] != r[j]
    decreases |ns|
  {
    if |ns| == 0 then []
    else if marked[ns[0]] then Discovered(marked, ns[1..])
    else
      var rest := Discovered(marked[ns[0] := true], ns[1..]);
      assert ns[0] !in rest;
      [ns[0]] + rest
  }

  /** The first `i` neighbours in `ns` are marked. */
  predicate MarkedUpTo(marked: seq<bool>, ns: seq<nat>, i: nat)
    requires i <= |ns|
  {
    forall j | 0 <= j < i :: ns[j] < |marked| && marked[ns[j]]
  }

  lemma MarkStep(marked: seq<bool>, ns: seq<nat>, i: nat)
    requires i < |ns| && ns[i] < |marked| && MarkedUpTo(marked, ns, i)
    ensures MarkedUpTo(marked[ns[i] := true], ns, i + 1)
  {
  }

  /** `path` read backwards. */
  function Reverse(s: seq<nat>): (r: seq<nat>)
    ensures |r| == |s|
  {
    if |s| == 0 then [] else [s[|s| - 1]] + Reverse(s[..|s| - 1])
  }

  lemma ReverseSnoc(s: seq<nat>, x: nat)
    ensures Reverse(s + [x]) == [x] + Reverse(s)
  {
    assert (s + [x])[..|s|] == s;
  }

  /** An edge into the start of a path extends it backwards. */
  lemma PrependEdge(adj: Adj, u: nat, r: seq<nat>)
    requires IsPath(adj, r) && u < |adj| && r[0] in adj[u]
    ensures IsPath(adj, [u] + r)
  {
    assert forall i | 0 <= i < |r| :: ([u] + r)[i + 1] == r[i];
  }

  /** The path printing of `bfs_reachable`: from the target, record each node and step to
      its parent until the root.  Returns the nodes recorded (the `path` array) and the
      route printed, root first; the route is a path of the graph from the root to the
      target and fits the `G_SIZE` array. */
  method WalkParents(adj: Adj, from: nat, to: nat, marked: seq<bool>, parent: seq<nat>,
                     ghost depth: seq<nat>)
    returns (path: seq<nat>, route: seq<nat>)
    requires |marked| == |parent| == |depth| == |adj| && from < |adj|
    requires Tree(adj, from, marked, parent, depth) && Shallow(marked, depth)
    requires to < |adj| && marked[to]
    ensures PathFromTo(adj, route, from, to)
    ensures route == [from] + Reverse(path)
    ensures |path| < |adj|
  {
    var n: nat := to;
    path := [];
    while n != from
      invariant n < |adj| && marked[n]
      invariant PathFromTo(adj, [n] + Reverse(path), n, to)
      invariant |path| + depth[n] <= depth[to]
      decreases depth[n]
    {
      var u := parent[n];
      ReverseSnoc(path, n);
      PrependEdge(adj, u, [n] + Reverse(path));
      path := path + [n];
      n := u;
    }
    route := [from] + Reverse(path);
  }

  /** `bfs_reachable` of the C programs: search from `from`, and when `to` comes out of the
      queue walk its parent links back to `from`.  `found` is the returned 1 or 0; `path`
      is the `path` array (target first) and `route` the printed solution path. */
  method BfsReachable(adj: Adj, from: nat, to: nat, buf: seq<nat>)
    returns (found: bool, path: seq<nat>, route: seq<nat>)
    requires Closed(adj) && from < |adj| <= |buf| && 2 <= |buf|
    ensures found <==> Reachable(adj, from, to)
    ensures found ==> PathFromTo(adj, route, from, to) && route == [from] + Reverse(path)
    ensures |path| < |adj|
    ensures !found ==> path == [] && route == []
  {
    var s: Search;
    ghost var depth: seq<nat>;
    found, s, depth := Explore(adj, from, to, buf, false);
    path, route := [], [];
    if found {
      path, route := WalkParents(adj, from, to, s.marked, s.parent, depth);
    }
  }
}

=== FILE: graph_c.dfy ===
/** `tests/graph.c`: the index-based graph.  Each node keeps its neighbours' indices in a heap
    array that `add_edge` grows with `realloc`.  The array is `NULL` until the first edge,
    and each growth allocates `neigh_max_ct * sizeof(Node)` bytes (room for five indices per
    unit of the old capacity) before doubling `neigh_max_ct`. */
module IndexGraph {
  import Graph

  const G_SIZE: nat := 10
  /** `sizeof(Node)` on the 32-bit target: a `uint8_t` padded to 4 bytes, three `uint32_t`
      and a pointer. */
  const NODE_BYTES: nat := 20
  /** `sizeof(uint32_t)`. */
  const INDEX_BYTES: nat := 4

  /** `marked`, `neigh_max_ct`, the number of indices the neighbour array has room for
      (0 while it is `NULL`), and its first `neigh_ct` entries. */
  datatype Node = Node(marked: bool, maxCt: nat, room: nat, neighbors: seq<nat>)

  /** What `initNode` and `add_edge` maintain: the count never passes `neigh_max_ct`, an
      array is allocated once there are neighbours, and it has room for `neigh_max_ct`. */
  predicate NodeOk(n: Node) {
    0 < n.maxCt && |n.neighbors| <= n.maxCt
    && (n.room == 0 ==> n.neighbors == [])
    && (n.room > 0 ==> n.maxCt <= n.room)
  }

  predicate Valid(g: seq<Node>) {
    forall i | 0 <= i < |g| ::
      NodeOk(g[i]) && forall j | 0 <= j < |g[i].neighbors| :: g[i].neighbors[j] < |g|
  }

  /** The adjacency lists the search walks; the same projection as in `BfsGraph`, over this
      file's node type. */
  function Adj(g: seq<Node>): (adj: Graph.Adj)
    ensures |adj| == |g| && forall i | 0 <= i < |g| :: adj[i] == g[i].neighbors
  {
    seq(|g|, i requires 0 <= i < |g| => g[i].neighbors)
  }

  /** `initNode`: unmarked, no neighbours, capacity 4, no array yet. */
  function InitNode(): (n: Node)
    ensures NodeOk(n) && !n.marked && n.neighbors == [] && n.maxCt == 4 && n.room == 0
  {
    Node(false, 4, 0, [])
  }

  /** `create_graph`: `size` fresh nodes. */
  function CreateGraph(size: nat): (g: seq<Node>)
    ensures |g| == size && Valid(g) && forall i | 0 <= i < size :: g[i] == InitNode()
  {
    seq(size, _ => InitNode())
  }

  /** The growth step of `add_edge`: taken on the first edge or when the array is full;
      `realloc` to `neigh_max_ct * sizeof(Node)` bytes, then double `neigh_max_ct`. */
  function Grow(n: Node): (n': Node)
  {
    if n.room == 0 || |n.neighbors| == n.maxCt then
      n.(room := n.maxCt * NODE_BYTES / INDEX_BYTES, maxCt := 2 * n.maxCt)
    else n
  }

  /** After the growth step the next index slot, `neighbors[neigh_ct]`, lies inside the
      allocation, so the store of `add_edge` is in bounds. */
  lemma GrowMakesRoom(n: Node)
    requires NodeOk(n)
    ensures |Grow(n).neighbors| < Grow(n).room && |Grow(n).neighbors| < Grow(n).maxCt
    ensures Grow(n).neighbors == n.neighbors
    ensures NodeOk(Grow(n).(neighbors := n.neighbors + [0]))
  {
  }

  /** `add_edge`: an edge to a node past the end is ignored; otherwise grow if needed and
      append `to`.  The write index is inside the allocation. */
  function AddEdge(g: seq<Node>, from: nat, to: nat): (g': seq<Node>)
    requires Valid(g) && from < |g|
    ensures Valid(g') && |g'| == |g|
    ensures to >= |g| ==> g' == g
    ensures to < |g| ==> Adj(g') == Adj(g)[from := Adj(g)[from] + [to]]
  {
    if to >= |g| then g
    else
      var n := Grow(g[from]);
      GrowMakesRoom(g[from]);
      assert |n.neighbors| < n.room;
      var g' := g[from := n.(neighbors := n.neighbors + [to])];
      assert Adj(g') == Adj(g)[from := Adj(g)[from] + [to]];
      g'
  }

  /** `is_neighbor`: the same scan as in `behavioral/bfs/graph.c`. */
  method IsNeighbor(g: seq<Node>, from: nat, val: nat) returns (r: bool)
    requires from < |g|
    ensures r <==> val in Adj(g)[from]
  {
    r := Graph.IsNeighbor(g[from].neighbors, val);
  }

  /** `bfs_reachable` with its `G_SIZE`-slot queue of indices. */
  method BfsReachable(g: seq<Node>, from: nat, to: nat, buf: seq<nat>)
    returns (r: nat, route: seq<nat>)
    requires Valid(g) && from < |g| <= G_SIZE && |buf| == G_SIZE
    ensures r == 0 || r == 1
    ensures r == 1 <==> Graph.Reachable(Adj(g), from, to)
    ensures r == 1 ==> Graph.PathFromTo(Adj(g), route, from, to) && |route| <= G_SIZE
  {
    var found, path;
    found, path, route := Graph.BfsReachable(Adj(g), from, to, buf);
    r := if found then 1 else 0;
  }
}

=== FILE: graph_cpp.dfy ===
/** `tests/graph.cpp`: the graph program that checks the BFS accelerator against a software
    search.  Nodes carry a `value` (their index, as the `Graph` constructor assigns it), a
    `marked` byte and at most `N_MAX` distinct edges; node pointers are written here as
    node indices.  The search keeps no parents and matches the target by value. */
module CppGraph {
  import opened Wrappers
  import opened Fmt
  import Ring
  import Graph

  const G_SIZE: nat := 1024
  const N_MAX: nat := 14

  // ---------------------------------------------------------------------------------------
  // Console output

  /** `putint`: the decimal digits of `val`, produced least significant first into a
      ten-character buffer and printed back to front. */
  method PutInt(val: u32) returns (out: string)
    ensures out == DecDigits(val)
    ensures 1 <= |out| <= 10 && (|out| > 1 ==> out[0] != '0')
  {
    DecDigitsLength(val, 10);
    var buf := FillDigits(val);
    out := Backwards(buf);
    ReversedUnique(buf, out, DecDigits(val));
  }

  /** The first loop of `putint`: the digits, least significant first; never more than the
      ten the buffer holds. */
  method FillDigits(val: u32) returns (buf: seq<char>)
    requires |DecDigits(val)| <= 10
    ensures Reversed(buf, DecDigits(val))
  {
    buf := [DigitChar(val % 10)];
    ghost var acc: string := buf;
    var v: nat := val / 10;
    DigitsStep(val);
    while v != 0
      invariant Reversed(buf, acc)
      invariant (if v == 0 then [] else DecDigits(v)) + acc == DecDigits(val)
      decreases v
    {
      ghost var hi: string := if v / 10 == 0 then [] else DecDigits(v / 10);
      var d := DigitChar(v % 10);
      DigitsStep(v);
      assert DecDigits(v) == hi + [d];
      AppendAssoc(hi, [d], acc);
      assert |buf| < 10 by {
        assert |DecDigits(v)| + |acc| == |DecDigits(val)|;
      }
      ReversedSnoc(buf, acc, d);
      buf := buf + [d];
      acc := [d] + acc;
      v := v / 10;
    }
  }

  /** `b` is `a` read back to front. */
  predicate Reversed(b: string, a: string) {
    |b| == |a| && forall k | 0 <= k < |b| :: b[k] == a[|a| - 1 - k]
  }

  lemma ReversedSnoc(b: string, a: string, d: char)
    requires Reversed(b, a)
    ensures Reversed(b + [d], [d] + a)
  {
  }

  /** Two strings that read the same buffer backwards are equal. */
  lemma ReversedUnique(b: string, a: string, a': string)
    requires Reversed(b, a) && Reversed(b, a')
    ensures a == a'
  {
    forall k | 0 <= k < |a|
      ensures a[k] == a'[k]
    {
      assert a[k] == b[|b| - 1 - k];
    }
  }

  /** The second loop of `putint`: print the buffer from its last character down. */
  method Backwards(buf: seq<char>) returns (out: string)
    ensures Reversed(buf, out)
  {
    ghost var a: string := seq(|buf|, k requires 0 <= k < |buf| => buf[|buf| - 1 - k]);
    out := [];
    var len: nat := |buf|;
    while len > 0
      invariant len <= |buf| && out == a[..|buf| - len]
    {
      len := len - 1;
      out := out + [buf[len]];
    }
    assert out == a;
  }

  /** One division step peels the last decimal digit off. */
  lemma DigitsStep(v: nat)
    ensures DecDigits(v) == (if v / 10 == 0 then [] else DecDigits(v / 10)) + [DigitChar(v % 10)]
  {
  }

  function Pow10(k: nat): (r: nat)
    ensures r >= 1
  {
    if k == 0 then 1 else 10 * Pow10(k - 1)
  }

  lemma {:induction false} DecDigitsLength(v: nat, k: nat)
    requires 1 <= k && v < Pow10(k)
    ensures |DecDigits(v)| <= k
    decreases k
  {
    if v >= 10 {
      assert v / 10 < Pow10(k - 1);
      DecDigitsLength(v / 10, k - 1);
    }
  }

  /** Every character is a lowercase hex digit. */
  predicate LowerHex(s: string) {
    forall i | 0 <= i < |s| :: '0' <= s[i] <= '9' || 'a' <= s[i] <= 'f'
  }

  /** `puthex32`: eight nibbles, most significant first, each as `'0' + d` moved up to the
      letters when past `'9'`; `(val >> i) & 0xf` with `i = 4k` is digit `k` base 16.  The
      output is eight lowercase hex digits that read back as `val`, which is `%08x`. */
  method PutHex32(val: u32) returns (out: string)
    ensures |out| == 8 && LowerHex(out) && AllHex(out)
    ensures ParseHex(out) == Some(val)
  {
    out := [];
    NoNinthNibble(val);
    var i: int := 28;
    ghost var k: int := 7;
    while i >= 0
      invariant -1 <= k <= 7 && i == 4 * k && |out| == 7 - k
      invariant LowerHex(out) && AllHex(out)
      invariant HexVal(out) == val / Pow16(k + 1)
      decreases i
    {
      assert i / 4 == k;
      var d := (val / Pow16(i / 4)) % 16;
      var c := '0' as int + d;
      if c > '9' as int {
        c := c + ('a' as int - '9' as int) - 1;
      }
      NibbleChar(d, c);
      NibbleStep(val, k);
      HexValSnoc(out, c as char);
      LowerHexSnoc(out, c as char);
      out := out + [c as char];
      i := i - 4;
      k := k - 1;
    }
  }

  /** A 32-bit value has nothing above its eighth hex digit. */
  lemma NoNinthNibble(val: u32)
    ensures val / Pow16(8) == 0
  {
    assert Pow16(8) == TWO32;
  }

  /** The character `puthex32` computes for a nibble: `'0' + d`, moved past the punctuation
      between `'9'` and `'a'` when above 9; that is the lowercase hex digit of `d`. */
  lemma NibbleChar(d: int, c: int)
    requires 0 <= d < 16
    requires c == if '0' as int + d > '9' as int then '0' as int + d + ('a' as int - '9' as int) - 1
                  else '0' as int + d
    ensures '0' as int <= c <= 'f' as int
    ensures c as char == HexChar(d) && ('0' <= c as char <= '9' || 'a' <= c as char <= 'f')
  {
  }

  lemma LowerHexSnoc(s: string, c: char)
    requires LowerHex(s) && ('0' <= c <= '9' || 'a' <= c <= 'f')
    ensures LowerHex(s + [c])
  {
    assert forall i | 0 <= i < |s| :: (s + [c])[i] == s[i];
  }

  lemma HexValSnoc(s: string, c: char)
    requires AllHex(s) && IsHexChar(c)
    ensures AllHex(s + [c]) && HexVal(s + [c]) == HexVal(s) * 16 + HexValue(c)
  {
    assert (s + [c])[..|s|] == s;
  }

  /** One more hex digit: the value above digit `k` is sixteen times the value above digit
      `k + 1`, plus digit `k`. */
  lemma NibbleStep(val: nat, k: nat)
    ensures val / Pow16(k + 1) * 16 + (val / Pow16(k)) % 16 == val / Pow16(k)
  {
    DivDiv(val, Pow16(k), 16);
  }

  // ---------------------------------------------------------------------------------------
  // Nodes

  /** `value`, `marked` and the first `numEdges` entries of `edges`. */
  datatype Node = Node(value: u32, marked: u8, edges: seq<nat>)

  /** What `addEdge` maintains: at most `N_MAX` edges, no edge twice. */
  predicate NodeOk(n: Node) {
    |n.edges| <= N_MAX
    && forall i, j | 0 <= i < j < |n.edges| :: n.edges[i] != n.edges[j]
  }

  /** `Node::isNeighbor`. */
  method IsNeighbor(n: Node, dest: nat) returns (r: bool)
    ensures r <==> dest in n.edges
  {
    r := Graph.IsNeighbor(n.edges, dest);
  }

  /** `Node::addEdge`: refuses when the node already has `N_MAX` edges or already has this
      one, and otherwise appends it. */
  method AddEdge(n: Node, dest: nat) returns (ok: bool, n': Node)
    requires |n.edges| <= N_MAX
    ensures ok <==> |n.edges| < N_MAX && dest !in n.edges
    ensures ok ==> n' == n.(edges := n.edges + [dest])
    ensures !ok ==> n' == n
    ensures NodeOk(n) ==> NodeOk(n')
  {
    if |n.edges| == N_MAX {
      return false, n;
    }
    var present := IsNeighbor(n, dest);
    if present {
      return false, n;
    }
    ok, n' := true, n.(edges := n.edges + [dest]);
  }

  // ---------------------------------------------------------------------------------------
  // The graph

  /** Node values are node indices. */
  predicate ValuesAreIds(g: seq<Node>) {
    forall i | 0 <= i < |g| :: g[i].value == i
  }

  function Adj(g: seq<Node>): (adj: Graph.Adj)
    ensures |adj| == |g| && forall i | 0 <= i < |g| :: adj[i] == g[i].edges
  {
    seq(|g|, i requires 0 <= i < |g| => g[i].edges)
  }

  /** The `Graph` constructor: node `i` gets value `i` and no edges; the `marked` bytes are
      left as the allocation held them (`junk`). */
  function NewGraph(size: u32, junk: seq<u8>): (g: seq<Node>)
    requires |junk| == size
    ensures |g| == size && ValuesAreIds(g) && Graph.Closed(Adj(g))
    ensures forall i | 0 <= i < size :: g[i].edges == [] && NodeOk(g[i])
  {
    seq(size, i requires 0 <= i < size => Node(i, junk[i], []))
  }

  /** `Graph::unmark`: every `marked` byte cleared, values and edges untouched. */
  function Unmark(g: seq<Node>): (g': seq<Node>)
    ensures |g'| == |g| && Adj(g') == Adj(g)
    ensures forall i | 0 <= i < |g| :: g'[i].marked == 0 && g'[i].value == g[i].value
  {
    seq(|g|, i requires 0 <= i < |g| => g[i].(marked := 0))
  }

  /** `bfs`: flush the queue, enqueue the root with the refusing `enqueue`, unmark every
      node and mark the root; then dequeue until a node with value `target` comes out,
      marking and enqueueing each unmarked neighbour.  Returns that node, or `None` for the
      `nullptr` of an exhausted queue.  `buf` is the queue's storage of `G_SIZE` slots. */
  method Bfs(g: seq<Node>, buf: seq<nat>, root: nat, target: u32) returns (r: Option<nat>)
    requires Graph.Closed(Adj(g)) && ValuesAreIds(g)
    requires root < |g| <= |buf| && 2 <= |buf|
    ensures r.Some? <==> target < |g| && Graph.Reachable(Adj(g), root, target)
    ensures r.Some? ==> r.value < |g| && g[r.value].value == target
  {
    var found, s, depth := Graph.Explore(Adj(g), root, target, buf, true);
    r := if found then Some(target) else None;
  }

  // ---------------------------------------------------------------------------------------
  // The queue

  /** `Queue::enqueue` refuses exactly when the queue holds `size - 1` nodes, and otherwise
      appends; `dequeue` yields `nullptr` exactly when empty and otherwise the oldest node;
      `flush` empties. */
  lemma QueueFifo(q: Ring.Ring<nat>, x: nat)
    requires Ring.Valid(q)
    ensures Ring.TryPush(q, x).None? <==> |Ring.Contents(q)| == |q.buf| - 1
    ensures Ring.TryPush(q, x).Some? ==>
              Ring.Contents(Ring.TryPush(q, x).value) == Ring.Contents(q) + [x]
    ensures Ring.Pop(q).None? <==> Ring.Contents(q) == []
    ensures Ring.Pop(q).Some? ==> Ring.Pop(q).value.item == Ring.Contents(q)[0]
                                  && Ring.Contents(Ring.Pop(q).value.rest) == Ring.Contents(q)[1..]
    ensures Ring.Contents(Ring.Flush(q)) == []
  {
    Ring.TryPushAppends(q, x);
    if Ring.Contents(q) != [] {
      Ring.PopFront(q);
    }
  }
}

=== FILE: graph_pt.dfy ===
/** `tests/graph_pt.c`: the pointer-based graph.  Nodes sit in one array and point at their
    neighbours; a neighbour pointer is written here as the index `getNodeId` recovers from
    it.  Each node's array of neighbour pointers starts with room for 4 and `add_edge`
    doubles it when full. */
module PointerGraph {
  import opened Fmt
  import Graph

  const G_SIZE: nat := 10
  /** `sizeof(Node)` on the 32-bit target: a pointer, a `uint32_t`, a `uint8_t` padded to
      4 bytes, a pointer and a `uint32_t`. */
  const NODE_BYTES: nat := 20

  /** `marked`, `neigh_max_ct` (also the room of the neighbour array), and the first
      `neigh_ct` neighbours. */
  datatype Node = Node(marked: bool, maxCt: nat, neighbors: seq<nat>)

  predicate Valid(g: seq<Node>) {
    forall i | 0 <= i < |g| ::
      0 < g[i].maxCt && |g[i].neighbors| <= g[i].maxCt
      && forall j | 0 <= j < |g[i].neighbors| :: g[i].neighbors[j] < |g|
  }

  /** The adjacency lists the search walks; the same projection as in `BfsGraph`, over this
      file's node type. */
  function Adj(g: seq<Node>): (adj: Graph.Adj)
    ensures |adj| == |g| && forall i | 0 <= i < |g| :: adj[i] == g[i].neighbors
  {
    seq(|g|, i requires 0 <= i < |g| => g[i].neighbors)
  }

  /** `initNode`: unmarked, no neighbours, room for 4. */
  function InitNode(): (n: Node)
    ensures !n.marked && n.neighbors == [] && n.maxCt == 4
  {
    Node(false, 4, [])
  }

  /** `create_graph`: `size` fresh nodes, as in `tests/graph.c`. */
  function CreateGraph(size: nat): (g: seq<Node>)
    ensures |g| == size && Valid(g) && forall i | 0 <= i < size :: g[i] == InitNode()
  {
    seq(size, _ => InitNode())
  }

  /** `add_edge`: an edge to a node past the end is ignored; a full neighbour array is
      doubled; then `to` is appended.  The store lands inside the array, and the count
      stays within the capacity. */
  function AddEdge(g: seq<Node>, from: nat, to: nat): (g': seq<Node>)
    requires Valid(g) && from < |g|
    ensures Valid(g') && |g'| == |g|
    ensures to >= |g| ==> g' == g
    ensures to < |g| ==> Adj(g') == Adj(g)[from := Adj(g)[from] + [to]]
    ensures to < |g| ==> g'[from].maxCt == if |g[from].neighbors| == g[from].maxCt
                                             then 2 * g[from].maxCt else g[from].maxCt
  {
    if to >= |g| then g
    else
      var n := g[from];
      var n := if |n.neighbors| == n.maxCt then n.(maxCt := 2 * n.maxCt) else n;
      assert |n.neighbors| < n.maxCt;
      var g' := g[from := n.(neighbors := n.neighbors + [to])];
      assert Adj(g') == Adj(g)[from := Adj(g)[from] + [to]];
      g'
  }

  /** The address of node `i` in a node array at `nodes`: pointer arithmetic on the 32-bit
      target, so the byte offset wraps at 2^32. */
  function NodeAddr(nodes: u32, i: nat): u32 {
    Wrap32(nodes + NODE_BYTES * i)
  }

  /** `getNodeId`: pointer subtraction, the distance in bytes (modulo 2^32) over
      `sizeof(Node)`, returned as a `uint32_t`. */
  function GetNodeId(nodes: u32, p: u32): u32 {
    Wrap32(p - nodes) / NODE_BYTES
  }

  /** An array of `n` nodes at `nodes` lies below the top of the address space, as every
      C object does (`malloc` of `max_size` nodes in `create_graph`). */
  predicate Fits(nodes: u32, n: nat) {
    nodes + NODE_BYTES * n <= TWO32
  }

  /** Inside an array that fits, a node's address does not wrap and `getNodeId` recovers
      its index, so pointers and indices are interchangeable. */
  lemma GetNodeIdRoundTrip(nodes: u32, n: nat, i: nat)
    requires Fits(nodes, n) && i < n
    ensures NodeAddr(nodes, i) == nodes + NODE_BYTES * i
    ensures GetNodeId(nodes, NodeAddr(nodes, i)) == i
  {
    assert nodes + NODE_BYTES * i < TWO32;
    assert Wrap32(nodes + NODE_BYTES * i) == nodes + NODE_BYTES * i;
    assert Wrap32(NODE_BYTES * i) == NODE_BYTES * i;
  }

  /** Distinct nodes of an array that fits have distinct addresses, so the pointer
      comparisons of `bfs_reachable` are index comparisons. */
  lemma NodeAddrInjective(nodes: u32, n: nat, i: nat, j: nat)
    requires Fits(nodes, n) && i < n && j < n
    ensures NodeAddr(nodes, i) == NodeAddr(nodes, j) <==> i == j
  {
    GetNodeIdRoundTrip(nodes, n, i);
    GetNodeIdRoundTrip(nodes, n, j);
  }

  /** Without the bound the 32-bit addresses collide: 2^30 nodes of 20 bytes span
      5 * 2^32 bytes, so node 2^30 has node 0's address and `getNodeId` of it is 0. */
  lemma AddressesWrapPastTheTop(nodes: u32)
    ensures !Fits(nodes, 0x4000_0000 + 1)
    ensures NodeAddr(nodes, 0x4000_0000) == NodeAddr(nodes, 0)
    ensures GetNodeId(nodes, NodeAddr(nodes, 0x4000_0000)) == 0
  {
    assert nodes + NODE_BYTES * 0x4000_0000 == nodes + 5 * TWO32;
    Wrap32Add(nodes, 5 * TWO32);
    assert Wrap32(nodes) == nodes;
  }

  /** `is_neighbor`: the same scan as in `behavioral/bfs/graph.c`. */
  method IsNeighbor(g: seq<Node>, from: nat, to: nat) returns (r: bool)
    requires from < |g|
    ensures r <==> to in Adj(g)[from]
  {
    r := Graph.IsNeighbor(g[from].neighbors, to);
  }

  /** `bfs_reachable` with its `G_SIZE`-slot queue of node pointers: the same search as in
      `tests/graph.c`, with pointers in place of indices. */
  method BfsReachable(g: seq<Node>, from: nat, to: nat, buf: seq<nat>)
    returns (r: nat, route: seq<nat>)
    requires Valid(g) && from < |g| <= G_SIZE && |buf| == G_SIZE
    ensures r == 0 || r == 1
    ensures r == 1 <==> Graph.Reachable(Adj(g), from, to)
    ensures r == 1 ==> Graph.PathFromTo(Adj(g), route, from, to) && |route| <= G_SIZE
  {
    var found, path;
    found, path, route := Graph.BfsReachable(Adj(g), from, to, buf);
    r := if found then 1 else 0;
  }
}

=== FILE: hashset.dfy ===
/** The open-addressing hash set of `tests/hashset.c` and `perf/hashset.c`.  The two files
    differ only in `hash_fn`, which is therefore a parameter here: any function from a 32-bit
    value to a 64-bit hash.

    A set of `capacity` slots keeps a value array and a metadata byte per slot.  Bit 7 of the
    metadata marks an occupied slot and its low seven bits hold bits 20..26 of the value's
    hash.  A value's home slot is its hash modulo the capacity; collisions probe linearly,
    wrapping at the end of the table.  Nothing is ever removed. */
module Hashset {
  import opened Fmt
  import Ring

  /** `PHASH_SHF`: the partial hash starts at bit 20. */
  const PHASH_SHF: nat := 20

  /** `hash_fn`. */
  type Hash = i32 -> u64

  /** The value array is left as `malloc` returned it; only the metadata is cleared. */
  datatype HashSet = HashSet(arr: seq<i32>, mdata: seq<u8>, capacity: u32, size: u32)

  /** `mdata[i] >> 7`: bit 7 set. */
  predicate Occupied(b: u8) {
    b >= 0x80
  }

  /** `(hash >> PHASH_SHF) & 0x7f`. */
  function Partial(hv: u64): (p: nat)
    ensures p < 0x80
  {
    (hv / Pow2(PHASH_SHF)) % 0x80
  }

  /** `(1 << 7) | partial`: the metadata of a slot holding a value with hash `hv`. */
  function Meta(hv: u64): (b: u8)
    ensures Occupied(b) && b % 0x80 == Partial(hv)
  {
    0x80 + Partial(hv)
  }

  predicate Shaped(s: HashSet) {
    |s.arr| == |s.mdata| == s.capacity
  }

  /** `hash % set->capacity`: where probing for a value with hash `hv` starts. */
  function Home(s: HashSet, hv: u64): (h: nat)
    requires s.capacity > 0
    ensures h < s.capacity
  {
    hv % s.capacity
  }

  /** How many probe steps lead from slot `h` to slot `j`. */
  function Dist(h: nat, j: nat, cap: nat): (d: nat)
    requires h < cap && j < cap
    ensures d < cap && Ring.Slot(h, d, cap) == j
  {
    if h <= j then j - h else j + cap - h
  }

  /** The number of occupied slots. */
  function Occupancy(m: seq<u8>): (n: nat)
    ensures n <= |m|
  {
    if |m| == 0 then 0 else (if Occupied(m[0]) then 1 else 0) + Occupancy(m[1..])
  }

  /** `val` sits in an occupied slot. */
  predicate Member(s: HashSet, val: i32)
    requires Shaped(s)
  {
    exists i | 0 <= i < |s.mdata| :: Occupied(s.mdata[i]) && s.arr[i] == val
  }

  /** Every slot between the home slot of the value in slot `i` and slot `i` is occupied,
      so a probe for that value reaches it before any empty slot. */
  predicate PathOccupied(s: HashSet, hash: Hash, i: nat)
    requires Shaped(s) && i < s.capacity
  {
    var h := Home(s, hash(s.arr[i]));
    forall o | 0 <= o < Dist(h, i, s.capacity) :: Occupied(s.mdata[Ring.Slot(h, o, s.capacity)])
  }

  /** Every occupied slot carries the metadata of the value it holds. */
  predicate MetaAgrees(s: HashSet, hash: Hash)
    requires Shaped(s)
  {
    forall i | 0 <= i < s.capacity && Occupied(s.mdata[i]) :: s.mdata[i] == Meta(hash(s.arr[i]))
  }

  /** The invariant every operation keeps: `size` counts the occupied slots, the metadata
      agrees, every value is reachable by its probe, and no value is held twice. */
  predicate Valid(s: HashSet, hash: Hash) {
    Shaped(s)
    && s.size as nat == Occupancy(s.mdata)
    && MetaAgrees(s, hash)
    && (forall i | 0 <= i < s.capacity && Occupied(s.mdata[i]) :: PathOccupied(s, hash, i))
    && (forall i, j | 0 <= i < j < s.capacity && Occupied(s.mdata[i]) && Occupied(s.mdata[j]) ::
          s.arr[i] != s.arr[j])
  }

  /** `create_hashset(cap)`, with `garbage` the uninitialised value array. */
  function Create(cap: u32, garbage: seq<i32>): (s: HashSet)
    requires |garbage| == cap
  {
    HashSet(garbage, seq(cap, _ => 0), cap, 0)
  }

  /** A new set is empty, every metadata byte is zero, and it is valid for any hash. */
  lemma CreateEmpty(cap: u32, garbage: seq<i32>, hash: Hash)
    requires |garbage| == cap
    ensures Valid(Create(cap, garbage), hash)
    ensures Create(cap, garbage).size == 0
    ensures forall i | 0 <= i < cap :: Create(cap, garbage).mdata[i] == 0
    ensures forall v :: !Member(Create(cap, garbage), v)
  {
    ZeroOccupancy(Create(cap, garbage).mdata);
  }

  lemma {:induction false} ZeroOccupancy(m: seq<u8>)
    requires forall i | 0 <= i < |m| :: m[i] == 0
    ensures Occupancy(m) == 0
  {
    if |m| > 0 {
      ZeroOccupancy(m[1..]);
    }
  }

  /** Occupying a free slot adds one to the count. */
  lemma {:induction false} OccupancyFill(m: seq<u8>, j: nat, b: u8)
    requires j < |m| && !Occupied(m[j]) && Occupied(b)
    ensures Occupancy(m[j := b]) == Occupancy(m) + 1
  {
    if j == 0 {
      assert m[j := b][1..] == m[1..];
    } else {
      assert m[j := b][1..] == m[1..][j - 1 := b];
      OccupancyFill(m[1..], j - 1, b);
    }
  }

  /** Fewer occupied slots than slots: some slot is free. */
  lemma {:induction false} FreeSlot(m: seq<u8>) returns (j: nat)
    requires Occupancy(m) < |m|
    ensures j < |m| && !Occupied(m[j])
  {
    if Occupied(m[0]) {
      j := FreeSlot(m[1..]);
      j := j + 1;
    } else {
      j := 0;
    }
  }

  /** With the slots at offsets below `k` occupied and some slot free, offset `k` exists. */
  lemma ProbeContinues(s: HashSet, h: nat, k: nat, free: nat)
    requires Shaped(s) && h < s.capacity && free < s.capacity && !Occupied(s.mdata[free])
    requires k <= s.capacity
    requires forall o | 0 <= o < k :: Occupied(s.mdata[Ring.Slot(h, o, s.capacity)])
    ensures k < s.capacity
  {
    var d := Dist(h, free, s.capacity);
    assert !Occupied(s.mdata[Ring.Slot(h, d, s.capacity)]);
  }

  /** A probe that meets an empty slot at offset `k`, having passed only slots not holding
      `val`, proves `val` absent. */
  lemma NotFound(s: HashSet, hash: Hash, val: i32, k: nat)
    requires Valid(s, hash) && s.capacity > 0 && k < s.capacity
    requires !Occupied(s.mdata[Ring.Slot(Home(s, hash(val)), k, s.capacity)])
    requires forall o | 0 <= o < k ::
               s.arr[Ring.Slot(Home(s, hash(val)), o, s.capacity)] != val
    ensures !Member(s, val)
  {
    var h := Home(s, hash(val));
    forall i | 0 <= i < s.capacity && Occupied(s.mdata[i])
      ensures s.arr[i] != val
    {
      var d := Dist(h, i, s.capacity);
      if d < k {
        assert s.arr[Ring.Slot(h, d, s.capacity)] != val;
      } else if d == k {
        assert false;
      } else if Home(s, hash(s.arr[i])) == h {
        assert false;
      }
    }
  }

  /** A slot whose partial hash differs from that of `val` does not hold `val`. */
  lemma PartialMismatch(s: HashSet, hash: Hash, val: i32, i: nat)
    requires Shaped(s) && MetaAgrees(s, hash) && i < s.capacity && Occupied(s.mdata[i])
    requires s.mdata[i] % 0x80 != Partial(hash(val))
    ensures s.arr[i] != val
  {
  }

  /** The first `k` slots of the probe from `h` are occupied and do not hold `val`. */
  predicate Passed(s: HashSet, h: nat, val: i32, k: nat)
    requires Shaped(s) && h < s.capacity && k <= s.capacity
  {
    forall o | 0 <= o < k ::
      Occupied(s.mdata[Ring.Slot(h, o, s.capacity)]) && s.arr[Ring.Slot(h, o, s.capacity)] != val
  }

  /** One more occupied slot without `val` extends the probe, and a free slot elsewhere
      keeps it inside the table. */
  lemma PassedStep(s: HashSet, h: nat, val: i32, k: nat, free: nat)
    requires Shaped(s) && h < s.capacity && free < s.capacity && !Occupied(s.mdata[free])
    requires k < s.capacity && Passed(s, h, val, k)
    requires Occupied(s.mdata[Ring.Slot(h, k, s.capacity)])
    requires s.arr[Ring.Slot(h, k, s.capacity)] != val
    ensures k + 1 < s.capacity && Passed(s, h, val, k + 1)
    ensures Ring.Slot(h, k + 1, s.capacity) == (Ring.Slot(h, k, s.capacity) + 1) % s.capacity
  {
    ProbeContinues(s, h, k + 1, free);
    assert Ring.Slot(h, k + 1, s.capacity) == Ring.Next(Ring.Slot(h, k, s.capacity), s.capacity);
  }

  /** The probe loop shared by `findNode` and `insertNode`: from the home slot of `val`,
      step to the next slot (wrapping) while the slot is occupied, stopping early at a slot
      whose partial hash and then value match.  Ends at `val`'s slot, or at the first empty
      slot of the probe after passing `k` occupied slots that do not hold `val`.  The
      source loops forever on a full table, hence the requirement of a free slot. */
  method Probe(s: HashSet, hash: Hash, val: i32) returns (found: bool, idx: nat, ghost k: nat)
    requires Shaped(s) && MetaAgrees(s, hash) && Occupancy(s.mdata) < s.capacity
    ensures idx < s.capacity
    ensures found ==> Occupied(s.mdata[idx]) && s.arr[idx] == val
    ensures !found ==> k < s.capacity && idx == Ring.Slot(Home(s, hash(val)), k, s.capacity)
                       && !Occupied(s.mdata[idx])
    ensures !found ==> forall o | 0 <= o < k ::
                         Occupied(s.mdata[Ring.Slot(Home(s, hash(val)), o, s.capacity)])
                         && s.arr[Ring.Slot(Home(s, hash(val)), o, s.capacity)] != val
  {
    ghost var free := FreeSlot(s.mdata);
    var hv := hash(val);
    var h := Home(s, hv);
    idx := h;
    k := 0;
    while Occupied(s.mdata[idx])
      invariant k < s.capacity && idx == Ring.Slot(h, k, s.capacity)
      invariant Passed(s, h, val, k)
      decreases s.capacity - k
    {
      if s.mdata[idx] % 0x80 == Partial(hv) {
        if s.arr[idx] == val {
          return true, idx, k;
        }
      } else {
        PartialMismatch(s, hash, val, idx);
      }
      PassedStep(s, h, val, k, free);
      idx := (idx + 1) % s.capacity;
      k := k + 1;
    }
    return false, idx, k;
  }

  /** `findNode`: true exactly when `val` is a member. */
  method Find(s: HashSet, hash: Hash, val: i32) returns (found: bool)
    requires Valid(s, hash) && s.size < s.capacity
    ensures found <==> Member(s, val)
  {
    var idx;
    ghost var k;
    found, idx, k := Probe(s, hash, val);
    if !found {
      NotFound(s, hash, val, k);
    }
  }

  /** `insertNode`: a value already present is refused and the set left as it was;
      otherwise the first empty slot of the probe takes the value and its metadata and
      `size` grows by one.  `at` is that slot. */
  method Insert(s: HashSet, hash: Hash, val: i32) returns (ok: bool, s': HashSet, ghost at: nat)
    requires Valid(s, hash) && s.size < s.capacity
    ensures Valid(s', hash)
    ensures ok <==> !Member(s, val)
    ensures !ok ==> s' == s
    ensures ok ==> s'.size == s.size + 1 && s'.capacity == s.capacity
    ensures ok ==> at < s.capacity && !Occupied(s.mdata[at])
                   && s'.mdata == s.mdata[at := Meta(hash(val))] && s'.arr == s.arr[at := val]
    ensures ok ==> var h := Home(s, hash(val));
                   forall o | 0 <= o < Dist(h, at, s.capacity) ::
                     Occupied(s.mdata[Ring.Slot(h, o, s.capacity)])
    ensures forall v :: Member(s', v) <==> Member(s, v) || v == val
  {
    var found, idx;
    ghost var k;
    found, idx, k := Probe(s, hash, val);
    if found {
      return false, s, idx;
    }
    NotFound(s, hash, val, k);
    OccupancyFill(s.mdata, idx, Meta(hash(val)));
    s' := s.(mdata := s.mdata[idx := Meta(hash(val))], arr := s.arr[idx := val],
             size := s.size + 1);
    InsertKeepsValid(s, hash, val, idx, k, s');
    return true, s', idx;
  }

  /** Occupying the first free slot of `val`'s probe keeps the invariant and adds exactly
      `val` to the members. */
  lemma InsertKeepsValid(s: HashSet, hash: Hash, val: i32, j: nat, k: nat, s': HashSet)
    requires Valid(s, hash) && s.size < s.capacity && !Member(s, val)
    requires k < s.capacity && j == Ring.Slot(Home(s, hash(val)), k, s.capacity)
    requires !Occupied(s.mdata[j])
    requires forall o | 0 <= o < k ::
               Occupied(s.mdata[Ring.Slot(Home(s, hash(val)), o, s.capacity)])
    requires Occupancy(s.mdata[j := Meta(hash(val))]) == Occupancy(s.mdata) + 1
    requires s' == s.(mdata := s.mdata[j := Meta(hash(val))], arr := s.arr[j := val],
                      size := s.size + 1)
    ensures Valid(s', hash)
    ensures Dist(Home(s, hash(val)), j, s.capacity) == k
    ensures forall v :: Member(s', v) <==> Member(s, v) || v == val
  {
    var h := Home(s, hash(val));
    assert Dist(h, j, s.capacity) == k;
    forall i | 0 <= i < s'.capacity && Occupied(s'.mdata[i])
      ensures PathOccupied(s', hash, i)
    {
      if i != j {
        assert PathOccupied(s, hash, i);
      }
    }
    forall v | Member(s, v)
      ensures Member(s', v)
    {
      var i :| 0 <= i < |s.mdata| && Occupied(s.mdata[i]) && s.arr[i] == v;
      assert s'.arr[i] == v;
    }
    assert s'.arr[j] == val;
  }
}

/** The singly linked list at the top of both hash-set files, as the sequence of the
    values from `head` onwards. */
module LinkedList {
  import opened Fmt

  /** `list` without its first element equal to `x`. */
  function Without(l: seq<i32>, x: i32): seq<i32> {
    if |l| == 0 then []
    else if l[0] == x then l[1..]
    else [l[0]] + Without(l[1..], x)
  }

  /** `add`: walk from `head` to the last node and link a new node after it (or make it the
      head of an empty list). */
  method Add(l: seq<i32>, x: i32) returns (r: seq<i32>)
    ensures r == l + [x]
  {
    if |l| == 0 {
      return [x];
    }
    var current := 0;
    while current + 1 < |l|
      invariant current < |l|
    {
      current := current + 1;
    }
    assert l[..current + 1] == l;
    r := l[..current + 1] + [x];
  }

  /** `delete`: walk until the first node holding `x` and unlink it; nothing changes when no
      node holds it. */
  method Delete(l: seq<i32>, x: i32) returns (r: seq<i32>)
    ensures r == Without(l, x)
  {
    var current := 0;
    while current < |l| && l[current] != x
      invariant current <= |l|
      invariant x !in l[..current]
      invariant Without(l, x) == l[..current] + Without(l[current..], x)
    {
      WithoutStep(l, x, current);
      current := current + 1;
    }
    if current == |l| {
      assert l[..current] == l;
      return l;
    }
    assert l[current..][1..] == l[current + 1..];
    r := l[..current] + l[current + 1..];
  }

  lemma WithoutStep(l: seq<i32>, x: i32, i: nat)
    requires i < |l| && l[i] != x
    ensures l[..i] + Without(l[i..], x) == l[..i + 1] + Without(l[i + 1..], x)
  {
    assert l[i..][1..] == l[i + 1..];
    assert l[..i + 1] == l[..i] + [l[i]];
  }

  /** Removing the first `x` drops one occurrence of `x` and keeps the other values in
      order: the result is the list with exactly the first match cut out. */
  lemma {:induction false} WithoutFirst(l: seq<i32>, x: i32, i: nat)
    requires i < |l| && l[i] == x && x !in l[..i]
    ensures Without(l, x) == l[..i] + l[i + 1..]
    ensures multiset(Without(l, x)) == multiset(l) - multiset{x}
    decreases i
  {
    if i > 0 {
      assert l[1..][..i - 1] == l[..i][1..];
      WithoutFirst(l[1..], x, i - 1);
      assert l[..i] == [l[0]] + l[1..][..i - 1];
      assert l[1..][i..] == l[i + 1..];
      assert l == [l[0]] + l[1..];
    } else {
      assert l == [l[0]] + l[1..];
    }
  }

  /** Deleting a value the list does not hold changes nothing. */
  lemma {:induction false} WithoutAbsent(l: seq<i32>, x: i32)
    requires x !in l
    ensures Without(l, x) == l
  {
    if |l| > 0 {
      assert x !in l[1..] by {
        assert forall k | 0 <= k < |l| - 1 :: l[1..][k] == l[k + 1];
      }
      WithoutAbsent(l[1..], x);
      assert l == [l[0]] + l[1..];
    }
  }

  /** An added value is deleted again first only if it is the first of its kind: deleting
      the value just added to a list that did not hold it gives the list back. */
  lemma AddThenDelete(l: seq<i32>, x: i32)
    requires x !in l
    ensures Without(l + [x], x) == l
  {
    WithoutFirst(l + [x], x, |l|);
    assert (l + [x])[..|l|] == l;
    assert (l + [x])[|l| + 1..] == [];
  }
}

=== FILE: mem_log.dfy ===
/** The memory-system lines of the testbench log: coherence-bus cycles (`tb_log_bus_cycle`,
    with the data words captured by `tb_log_bus_data`) and data-cache requests and responses
    (`tb_log_dcache_req`, `tb_log_dcache_resp`).  Every line starts with the cycle count
    printed by `%ld`; a line is only written when a log file is open, which the caller
    decides (see `Tracer.Sinks`). */
module MemLog {
  import opened Wrappers
  import opened Fmt

  // ---------------------------------------------------------------------------------------
  // Bus commands

  const CMD_BUSRD: u32 := 0
  const CMD_BUSRDX: u32 := 1
  const CMD_BUSUPGR: u32 := 2
  const CMD_FILL: u32 := 4
  const CMD_FLUSH: u32 := 5

  predicate IsCmd(cmd: u32) {
    cmd == CMD_BUSRD || cmd == CMD_BUSRDX || cmd == CMD_BUSUPGR || cmd == CMD_FILL
    || cmd == CMD_FLUSH
  }

  /** The name a bus command is logged under; "???" for any other code. */
  function CmdName(cmd: u32): string {
    match cmd
    case 0 => "BusRd"
    case 1 => "BusRdX"
    case 2 => "BusUpgr"
    case 4 => "Fill"
    case 5 => "Flush"
    case _ => "???"
  }

  /** The command a logged name stands for. */
  function CmdCode(name: string): Option<u32> {
    if name == "BusRd" then Some(CMD_BUSRD)
    else if name == "BusRdX" then Some(CMD_BUSRDX)
    else if name == "BusUpgr" then Some(CMD_BUSUPGR)
    else if name == "Fill" then Some(CMD_FILL)
    else if name == "Flush" then Some(CMD_FLUSH)
    else None
  }

  /** A known command is logged under a name that reads back as that command; every other
      code shares the name "???", which reads back as no command.  Names are single fields. */
  lemma CmdNameIdentifiesCommand(cmd: u32)
    ensures CmdCode(CmdName(cmd)) == if IsCmd(cmd) then Some(cmd) else None
    ensures |CmdName(cmd)| > 0 && NoSpace(CmdName(cmd))
  {
  }

  /** Fills and flushes move a cache line, and only they log its data words. */
  predicate CarriesData(cmd: u32) {
    cmd == CMD_FILL || cmd == CMD_FLUSH
  }

  // ---------------------------------------------------------------------------------------
  // Bus cycle lines

  /** `(tag >> 3) & 3`: the requester's group. */
  function TagHi(tag: u32): nat {
    (tag / 8) % 4
  }

  /** `tag & 7`: the requester within its group. */
  function TagLo(tag: u32): nat {
    tag % 8
  }

  /** `%d:%d` of the two tag parts. */
  function TagField(tag: u32): string {
    DecDigits(TagHi(tag)) + ":" + DecDigits(TagLo(tag))
  }

  /** `addr << 6` on a uint32: the byte address of the 64-byte line. */
  function LineAddr(addr: u32): u32 {
    Wrap32(addr as int * 64)
  }

  /** The bus data register file: eight 64-bit words. */
  type BusData = d: seq<u64> | |d| == 8 witness [0, 0, 0, 0, 0, 0, 0, 0]

  /** `tb_log_bus_data`: store the two 32-bit halves of data word `index`, only while a log
      file is open; the other words are kept. */
  function StoreBusData(words: BusData, logging: bool, index: nat, lo: u32, hi: u32)
    : (r: BusData)
    requires index < 8
    ensures logging ==> r[index] % TWO32 == lo && r[index] / TWO32 == hi
    ensures forall i | 0 <= i < 8 && (i != index || !logging) :: r[i] == words[i]
  {
    if logging then words[index := lo + hi * TWO32] else words
  }

  /** The fields `%08x` shows for the data words: a uint64 passed where an `unsigned` is
      expected, whose low 32 bits are printed. */
  function DataTokens(words: seq<u64>): (ts: seq<string>)
    ensures |ts| == |words|
    ensures forall i | 0 <= i < |words| :: ts[i] == Hex8(words[i] % TWO32)
  {
    if |words| == 0 then [] else [Hex8(words[0] % TWO32)] + DataTokens(words[1..])
  }

  function DataFields(words: seq<u64>): string {
    if |words| == 0 then "" else " " + Hex8(words[0] % TWO32) + DataFields(words[1..])
  }

  /** `tb_log_bus_cycle`: `<time> bus <hi>:<lo> <command> <line address>`, the eight data
      words for fills and flushes, then ` NACK` and ` Hit` when those bits are set. */
  function BusLine(simtime: u64, nack: bool, hit: bool, cmd: u32, tag: u32, addr: u32,
                   words: BusData): string
  {
    DecSigned(Signed64(simtime)) + " bus " + TagField(tag) + " " + CmdName(cmd) + " "
    + Hex8(LineAddr(addr)) + DataText(cmd, words) + FlagText(nack, hit)
  }

  /** The data words of a fill or a flush; nothing for the other commands. */
  function DataText(cmd: u32, words: BusData): string {
    if CarriesData(cmd) then DataFields(words) else ""
  }

  /** ` NACK` and ` Hit`, each when its bit is set. */
  function FlagText(nack: bool, hit: bool): string {
    (if nack then " NACK" else "") + (if hit then " Hit" else "")
  }

  /** What a bus line reports. */
  datatype BusView = BusView(time: int, tag: nat, cmd: Option<u32>, lineAddr: nat,
                             data: seq<nat>, nack: bool, hit: bool)

  /** Reads a `<group>:<index>` tag field back into the 5-bit tag. */
  function ReadTag(t: string): Option<nat> {
    if |t| == 3 && t[1] == ':' && IsDigit(t[0]) && IsDigit(t[2]) && t[0] <= '3'
    then Some((t[0] as int - '0' as int) * 8 + (t[2] as int - '0' as int))
    else None
  }

  function ReadData(ws: seq<string>): Option<seq<nat>> {
    if |ws| == 0 then Some([])
    else
      var v :- ParseHex(ws[0]);
      var vs :- ReadData(ws[1..]);
      Some([v] + vs)
  }

  /** Reads the fields of a bus line: the data words are present exactly when the command
      name is a fill or a flush. */
  function ReadBus(ws: seq<string>): Option<BusView> {
    if |ws| < 5 || ws[1] != "bus" then None
    else
      var time :- ParseDec(ws[0]);
      var tag :- ReadTag(ws[2]);
      var cmd := CmdCode(ws[3]);
      var a :- ParseHex(ws[4]);
      var n := if cmd == Some(CMD_FILL) || cmd == Some(CMD_FLUSH) then 8 else 0;
      if |ws| < 5 + n then None
      else
        var data :- ReadData(ws[5..5 + n]);
        var flags := ws[5 + n..];
        if flags == [] then Some(BusView(time, tag, cmd, a, data, false, false))
        else if flags == ["NACK"] then Some(BusView(time, tag, cmd, a, data, true, false))
        else if flags == ["Hit"] then Some(BusView(time, tag, cmd, a, data, false, true))
        else if flags == ["NACK", "Hit"] then Some(BusView(time, tag, cmd, a, data, true, true))
        else None
  }

  function Low32s(words: seq<u64>): (r: seq<nat>)
    ensures |r| == |words| && forall i | 0 <= i < |words| :: r[i] == words[i] % TWO32
  {
    if |words| == 0 then [] else [words[0] % TWO32] + Low32s(words[1..])
  }

  /** A bus line reads back as its time, the tag's low five bits, the command (none for an
      unknown code), the 64-byte-aligned line address, the low halves of the data words
      when the command moves data, and the two flags. */
  lemma BusLineRoundTrip(simtime: u64, nack: bool, hit: bool, cmd: u32, tag: u32, addr: u32,
                         words: BusData)
    ensures ReadBus(Words(BusLine(simtime, nack, hit, cmd, tag, addr, words)))
            == Some(BusView(Signed64(simtime), tag % 32,
                            if IsCmd(cmd) then Some(cmd) else None,
                            LineAddr(addr),
                            if CarriesData(cmd) then Low32s(words) else [],
                            nack, hit))
  {
    BusLineWords(simtime, nack, hit, cmd, tag, addr, words);
    BusFieldFacts(simtime, tag, cmd, addr);
    if CarriesData(cmd) {
      ReadDataTokens(words);
    }
    ReadFlags(nack, hit);
    ReadBusOf(DecSigned(Signed64(simtime)), TagField(tag), CmdName(cmd), Hex8(LineAddr(addr)),
              DataPart(cmd, words), Flags(nack, hit),
              Signed64(simtime), tag % 32, LineAddr(addr),
              if CarriesData(cmd) then Low32s(words) else [], nack, hit);
  }

  /** Reading a field list shaped like a bus line. */
  lemma ReadBusOf(t: string, g: string, c: string, a: string, data: seq<string>,
                  flags: seq<string>, time: int, tag: nat, la: nat, dv: seq<nat>,
                  nack: bool, hit: bool)
    requires ParseDec(t) == Some(time) && ReadTag(g) == Some(tag) && ParseHex(a) == Some(la)
    requires |data| == if CmdCode(c) == Some(CMD_FILL) || CmdCode(c) == Some(CMD_FLUSH)
                       then 8 else 0
    requires ReadData(data) == Some(dv)
    requires flags == [] <==> !nack && !hit
    requires flags == ["NACK"] <==> nack && !hit
    requires flags == ["Hit"] <==> !nack && hit
    requires flags == ["NACK", "Hit"] <==> nack && hit
    ensures ReadBus([t] + (["bus", g, c, a] + data + flags))
            == Some(BusView(time, tag, CmdCode(c), la, dv, nack, hit))
  {
    var ws := [t] + (["bus", g, c, a] + data + flags);
    ReadBusSplit(t, ["bus", g, c, a], data, flags);
    assert ws[1] == "bus" && ws[2] == g && ws[3] == c && ws[4] == a;
  }

  /** The four fixed fields after the time. */
  function BusHead(tag: u32, cmd: u32, addr: u32): seq<string> {
    ["bus", TagField(tag), CmdName(cmd), Hex8(LineAddr(addr))]
  }

  function DataPart(cmd: u32, words: BusData): seq<string> {
    if CarriesData(cmd) then DataTokens(words) else []
  }

  function Flags(nack: bool, hit: bool): seq<string> {
    (if nack then ["NACK"] else []) + (if hit then ["Hit"] else [])
  }

  lemma BusFieldFacts(simtime: u64, tag: u32, cmd: u32, addr: u32)
    ensures |DecSigned(Signed64(simtime))| > 0 && NoSpace(DecSigned(Signed64(simtime)))
    ensures ParseDec(DecSigned(Signed64(simtime))) == Some(Signed64(simtime))
    ensures IsTokens(BusHead(tag, cmd, addr))
    ensures ReadTag(TagField(tag)) == Some(tag % 32)
    ensures CmdCode(CmdName(cmd)) == if IsCmd(cmd) then Some(cmd) else None
    ensures ParseHex(Hex8(LineAddr(addr))) == Some(LineAddr(addr))
  {
    DecSignedRoundTrip(Signed64(simtime));
    TagFieldReads(tag);
    CmdNameIdentifiesCommand(cmd);
    Hex8Exact(LineAddr(addr));
    BusHeadTokens(tag, cmd, addr);
  }

  lemma BusHeadTokens(tag: u32, cmd: u32, addr: u32)
    ensures IsTokens(BusHead(tag, cmd, addr))
  {
    TagFieldReads(tag);
    CmdNameIdentifiesCommand(cmd);
    Hex8Exact(LineAddr(addr));
    BusToken();
    Tokens4("bus", TagField(tag), CmdName(cmd), Hex8(LineAddr(addr)));
  }

  lemma BusToken()
    ensures |"bus"| > 0 && NoSpace("bus")
  {
  }

  lemma ReadFlags(nack: bool, hit: bool)
    ensures Flags(nack, hit) == [] <==> !nack && !hit
    ensures Flags(nack, hit) == ["NACK"] <==> nack && !hit
    ensures Flags(nack, hit) == ["Hit"] <==> !nack && hit
    ensures Flags(nack, hit) == ["NACK", "Hit"] <==> nack && hit
  {
    assert "NACK" != "Hit" by {
      assert |"NACK"| != |"Hit"|;
    }
    if !nack && hit {
      assert Flags(nack, hit) == ["Hit"];
      assert ["Hit"][0] != ["NACK"][0];
    }
    if nack && !hit {
      assert Flags(nack, hit) == ["NACK"];
    }
    if nack && hit {
      assert Flags(nack, hit) == ["NACK", "Hit"];
    }
  }

  /** Cutting the field list of a bus line into its parts. */
  lemma ReadBusSplit(t: string, head: seq<string>, data: seq<string>, flags: seq<string>)
    requires |head| == 4
    ensures var ws := [t] + (head + data + flags);
            |ws| >= 5 + |data| && ws[0] == t && ws[1..5] == head
            && ws[5..5 + |data|] == data && ws[5 + |data|..] == flags
  {
  }

  lemma TagSplit(tag: u32)
    ensures TagHi(tag) < 4 && TagLo(tag) < 8 && TagHi(tag) * 8 + TagLo(tag) == tag % 32
  {
  }

  /** The tag field shows the tag's two parts, which put together give its low five bits. */
  lemma TagFieldReads(tag: u32)
    ensures |TagField(tag)| > 0 && NoSpace(TagField(tag))
    ensures ReadTag(TagField(tag)) == Some(tag % 32)
  {
    TagSplit(tag);
    var h := DigitChar(TagHi(tag));
    var l := DigitChar(TagLo(tag));
    assert TagField(tag) == [h, ':', l];
  }

  /** The logged line address is 64-byte aligned: the low 26 bits of `addr`, times 64. */
  lemma LineAddrAligned(addr: u32)
    ensures LineAddr(addr) % 64 == 0
    ensures LineAddr(addr) == (addr % 0x400_0000) * 64
  {
    var q := addr / 0x400_0000;
    var r := addr % 0x400_0000;
    assert addr as int * 64 == q * TWO32 + r * 64;
    ModShift(r * 64, 0 - q);
  }

  lemma {:induction false} ReadDataTokens(words: seq<u64>)
    ensures ReadData(DataTokens(words)) == Some(Low32s(words))
    decreases |words|
  {
    if |words| > 0 {
      Hex8Exact(words[0] % TWO32);
      assert DataTokens(words)[1..] == DataTokens(words[1..]);
      ReadDataTokens(words[1..]);
    }
  }

  lemma {:induction false} DataFieldsSpaced(words: seq<u64>)
    ensures IsTokens(DataTokens(words)) && DataFields(words) == Spaced(DataTokens(words))
    decreases |words|
  {
    if |words| > 0 {
      var h := Hex8(words[0] % TWO32);
      var rest := DataTokens(words[1..]);
      Hex8Exact(words[0] % TWO32);
      DataFieldsSpaced(words[1..]);
      assert DataTokens(words) == [h] + rest;
      assert DataFields(words) == " " + h + DataFields(words[1..]);
      SpacedCons(h, rest);
      IsTokensCons(h, rest);
    }
  }

  lemma DataPartSpaced(cmd: u32, words: BusData)
    ensures IsTokens(DataPart(cmd, words))
    ensures DataText(cmd, words) == Spaced(DataPart(cmd, words))
  {
    DataFieldsSpaced(words);
  }

  lemma FlagsSpaced(nack: bool, hit: bool)
    ensures IsTokens(Flags(nack, hit))
    ensures FlagText(nack, hit) == Spaced(Flags(nack, hit))
  {
    assert NoSpace("NACK") && NoSpace("Hit");
    Spaced1("NACK");
    Spaced1("Hit");
    Spaced2("NACK", "Hit");
    assert Spaced([]) == "";
    assert ["NACK"] + ["Hit"] == ["NACK", "Hit"];
  }

  /** A line made of a leading token, the four head fields and two space-separated runs. */
  lemma BusWords(t: string, g: string, c: string, a: string, d: string, f: string,
                 data: seq<string>, flags: seq<string>)
    requires |t| > 0 && NoSpace(t) && IsTokens(["bus", g, c, a])
    requires IsTokens(data) && IsTokens(flags) && d == Spaced(data) && f == Spaced(flags)
    ensures Words(t + " bus " + g + " " + c + " " + a + d + f)
            == [t] + (["bus", g, c, a] + data + flags)
  {
    var head := ["bus", g, c, a];
    BusShape(t, g, c, a, d, f);
    SpacedAppend(head, data);
    SpacedAppend(head + data, flags);
    IsTokensAppend(head, data);
    IsTokensAppend(head + data, flags);
    WordsLead(t, head + data + flags);
  }

  lemma BusShape(t: string, g: string, c: string, a: string, d: string, f: string)
    ensures t + " bus " + g + " " + c + " " + a + d + f
            == t + (Spaced(["bus", g, c, a]) + d + f)
  {
    SpacedCons("bus", [g, c, a]);
    Spaced3(g, c, a);
    assert ["bus", g, c, a] == ["bus"] + [g, c, a];
  }

  lemma BusLineWords(simtime: u64, nack: bool, hit: bool, cmd: u32, tag: u32, addr: u32,
                     words: BusData)
    ensures Words(BusLine(simtime, nack, hit, cmd, tag, addr, words))
            == [DecSigned(Signed64(simtime))]
               + (BusHead(tag, cmd, addr) + DataPart(cmd, words) + Flags(nack, hit))
  {
    BusFieldFacts(simtime, tag, cmd, addr);
    DataPartSpaced(cmd, words);
    FlagsSpaced(nack, hit);
    BusWords(DecSigned(Signed64(simtime)), TagField(tag), CmdName(cmd), Hex8(LineAddr(addr)),
             DataText(cmd, words), FlagText(nack, hit),
             DataPart(cmd, words), Flags(nack, hit));
  }

  // ---------------------------------------------------------------------------------------
  // Data-cache requests and responses

  /** The mnemonic a data-cache operation is logged under.  Bit 0 of the code is the store
      flag, bits 2..1 the size (byte, half, word, compare-bytes) and bit 3 the unsigned flag. */
  function Mnemonic(op: u32): string {
    match op
    case 0 => "lb"
    case 2 => "lh"
    case 4 => "lw"
    case 8 => "lbu"
    case 10 => "lhu"
    case 1 => "sb"
    case 3 => "sh"
    case 5 => "sw"
    case 6 => "lbcmp"
    case 14 => "lbcmp"
    case _ => "???"
  }

  /** The fields of an operation code. */
  datatype Access = Access(store: bool, size: nat, unsigned: bool)

  function OpAccess(op: u32): Access {
    Access(op % 2 == 1, (op / 2) % 4, (op / 8) % 2 == 1)
  }

  /** The RISC-V name of an access: `l`/`s`, the width letter, `u` for an unsigned load;
      the compare-bytes load ignores the unsigned flag.  Stores are never unsigned and there
      is no unsigned word load or compare-bytes store. */
  function AccessName(a: Access): Option<string> {
    if a.size == 3 then (if a.store then None else Some("lbcmp"))
    else
      var w := if a.size == 0 then "b" else if a.size == 1 then "h" else "w";
      if a.store then (if a.unsigned then None else Some("s" + w))
      else if a.unsigned && a.size == 2 then None
      else Some("l" + w + (if a.unsigned then "u" else ""))
  }

  /** The mnemonic table agrees with the RISC-V naming of the code's fields, and every code
      outside it (including every code of five or more bits) prints "???". */
  lemma MnemonicNamesAccess(op: u32)
    ensures Mnemonic(op) == if op < 16 && AccessName(OpAccess(op)).Some?
                            then AccessName(OpAccess(op)).value else "???"
    ensures |Mnemonic(op)| > 0 && NoSpace(Mnemonic(op))
  {
    if op < 8 {
      MnemonicLow(op);
    } else if op < 16 {
      MnemonicHigh(op);
    }
  }

  lemma MnemonicLow(op: u32)
    requires op < 8
    ensures Mnemonic(op) == if AccessName(OpAccess(op)).Some?
                            then AccessName(OpAccess(op)).value else "???"
    ensures |Mnemonic(op)| > 0 && NoSpace(Mnemonic(op))
  {
  }

  lemma MnemonicHigh(op: u32)
    requires 8 <= op < 16
    ensures Mnemonic(op) == if AccessName(OpAccess(op)).Some?
                            then AccessName(OpAccess(op)).value else "???"
    ensures |Mnemonic(op)| > 0 && NoSpace(Mnemonic(op))
  {
  }

  predicate IsLbcmp(op: u32) {
    op == 6 || op == 14
  }

  /** `tb_log_dcache_req`: `<time> <mnemonic> <addr>`, then the store data for a store, or
      (for a load) the compare byte in a 2-wide `%x` field for lbcmp and the LSQ id. */
  function ReqLine(simtime: u64, lsqid: u32, op: u32, addr: u32, wdata: u32): string {
    DecSigned(Signed64(simtime)) + " " + Mnemonic(op) + " " + Hex8(addr)
    + ReqTailText(lsqid, op, wdata)
  }

  function ReqTailText(lsqid: u32, op: u32, wdata: u32): string {
    if op % 2 == 1 then " " + Hex8(wdata)
    else CompareText(op, wdata) + " " + DecSigned(Signed32(lsqid))
  }

  /** `%2x` of the compare byte, for lbcmp only. */
  function CompareText(op: u32, wdata: u32): string {
    if IsLbcmp(op) then " " + PadLeft(HexDigits(wdata % 256), 2, ' ') else ""
  }

  /** The fields after the address of a request line. */
  function ReqTail(lsqid: u32, op: u32, wdata: u32): seq<string> {
    if op % 2 == 1 then [Hex8(wdata)]
    else (if IsLbcmp(op) then [HexDigits(wdata % 256)] else []) + [DecSigned(Signed32(lsqid))]
  }

  /** `tb_log_dcache_resp`: `<time> resp <lsqid>`, then ` error` or the read data. */
  function RespLine(simtime: u64, lsqid: u32, error: bool, rdata: u32): string {
    DecSigned(Signed64(simtime)) + " resp " + DecSigned(Signed32(lsqid)) + RespText(error, rdata)
  }

  function RespText(error: bool, rdata: u32): string {
    if error then " error" else " " + Hex8(rdata)
  }

  /** The last field of a response line. */
  function RespField(error: bool, rdata: u32): string {
    if error then "error" else Hex8(rdata)
  }

  /** A request line splits into its time, mnemonic, address and tail fields; the padding
      of a one-digit compare byte only adds a separator. */
  lemma ReqLineWords(simtime: u64, lsqid: u32, op: u32, addr: u32, wdata: u32)
    ensures Words(ReqLine(simtime, lsqid, op, addr, wdata))
            == [DecSigned(Signed64(simtime)), Mnemonic(op), Hex8(addr)]
               + ReqTail(lsqid, op, wdata)
  {
    DecSignedRoundTrip(Signed64(simtime));
    MnemonicNamesAccess(op);
    Hex8Exact(addr);
    ReqTailWords(lsqid, op, wdata);
    ReqWords(DecSigned(Signed64(simtime)), Mnemonic(op), Hex8(addr),
             ReqTailText(lsqid, op, wdata), ReqTail(lsqid, op, wdata));
  }

  lemma ReqWords(t: string, m: string, h: string, x: string, tail: seq<string>)
    requires |t| > 0 && NoSpace(t) && |m| > 0 && NoSpace(m) && |h| > 0 && NoSpace(h)
    requires |x| > 0 && x[0] == ' ' && Words(x) == tail
    ensures Words(t + " " + m + " " + h + x) == [t, m, h] + tail
  {
    Spaced2(m, h);
    ReqShape(t, m, h, x);
    WordsLeadRest(t, [m, h], x);
    assert [t] + [m, h] == [t, m, h];
  }

  lemma ReqShape(t: string, m: string, h: string, x: string)
    ensures t + " " + m + " " + h + x == t + (" " + m + " " + h) + x
  {
    assert t + " " + m + " " + h == t + (" " + m + " " + h);
  }

  lemma ReqTailWords(lsqid: u32, op: u32, wdata: u32)
    ensures |ReqTailText(lsqid, op, wdata)| > 0 && ReqTailText(lsqid, op, wdata)[0] == ' '
    ensures Words(ReqTailText(lsqid, op, wdata)) == ReqTail(lsqid, op, wdata)
  {
    var l := DecSigned(Signed32(lsqid));
    DecSignedRoundTrip(Signed32(lsqid));
    if op % 2 == 1 {
      Hex8Exact(wdata);
      OneWord(Hex8(wdata));
    } else if IsLbcmp(op) {
      var d := HexDigits(wdata % 256);
      PaddedPair(d, l);
      assert ReqTailText(lsqid, op, wdata) == " " + PadLeft(d, 2, ' ') + " " + l;
    } else {
      OneWord(l);
      assert ReqTailText(lsqid, op, wdata) == "" + " " + l;
    }
  }

  /** The fields after the address: the data of a store, else the compare byte of an
      lbcmp and the LSQ id. */
  lemma ReqTailShape(lsqid: u32, op: u32, wdata: u32)
    ensures op % 2 == 1 ==> ReqTail(lsqid, op, wdata) == [Hex8(wdata)]
    ensures op % 2 == 0 && IsLbcmp(op)
            ==> ReqTail(lsqid, op, wdata) == [HexDigits(wdata % 256), DecSigned(Signed32(lsqid))]
    ensures op % 2 == 0 && !IsLbcmp(op)
            ==> ReqTail(lsqid, op, wdata) == [DecSigned(Signed32(lsqid))]
  {
    var l := DecSigned(Signed32(lsqid));
    assert [HexDigits(wdata % 256)] + [l] == [HexDigits(wdata % 256), l];
    assert [] + [l] == [l];
  }

  lemma OneWord(w: string)
    requires |w| > 0 && NoSpace(w)
    ensures Words(" " + w) == [w]
  {
    Spaced1(w);
    WordsSpaced([w], "");
    assert Spaced([w]) + "" == " " + w;
    assert [w] + Words("") == [w];
  }

  /** `" %2x %d"`: a one-digit first field gets an extra leading blank, which the split
      drops. */
  lemma PaddedPair(d: string, l: string)
    requires |d| > 0 && NoSpace(d) && |l| > 0 && NoSpace(l)
    ensures Words(" " + PadLeft(d, 2, ' ') + " " + l) == [d, l]
  {
    if |d| < 2 {
      assert PadLeft(d, 2, ' ') == " " + d by {
        assert Repeat(' ', 1) == " ";
      }
      ShortPair(d, l);
    } else {
      assert PadLeft(d, 2, ' ') == d;
      WidePair(d, l);
    }
  }

  lemma WidePair(d: string, l: string)
    requires |d| > 0 && NoSpace(d) && |l| > 0 && NoSpace(l)
    ensures Words(" " + d + " " + l) == [d, l]
  {
    Spaced2(d, l);
    WordsSpaced([d, l], "");
    assert Spaced([d, l]) + "" == Spaced([d, l]);
    assert [d, l] + Words("") == [d, l];
  }

  lemma ShortPair(d: string, l: string)
    requires |d| > 0 && NoSpace(d) && |l| > 0 && NoSpace(l)
    ensures Words(" " + (" " + d) + " " + l) == [d, l]
  {
    WidePair(d, l);
    assert " " + (" " + d) + " " + l == " " + (" " + d + " " + l);
    assert AllSpace(" ");
    WordsSkipSpace(" ", " " + d + " " + l);
  }

  lemma RespLineWords(simtime: u64, lsqid: u32, error: bool, rdata: u32)
    ensures Words(RespLine(simtime, lsqid, error, rdata))
            == [DecSigned(Signed64(simtime)), "resp", DecSigned(Signed32(lsqid)),
                RespField(error, rdata)]
  {
    var t, l, v := DecSigned(Signed64(simtime)), DecSigned(Signed32(lsqid)), RespField(error, rdata);
    DecSignedRoundTrip(Signed64(simtime));
    DecSignedRoundTrip(Signed32(lsqid));
    RespFieldToken(error, rdata);
    assert RespLine(simtime, lsqid, error, rdata) == t + " resp " + l + (" " + v);
    RespWords(t, l, v);
  }

  /** The last field is a token, and the text ahead of it is one space. */
  lemma RespFieldToken(error: bool, rdata: u32)
    ensures |RespField(error, rdata)| > 0 && NoSpace(RespField(error, rdata))
    ensures RespText(error, rdata) == " " + RespField(error, rdata)
  {
    if error {
      assert NoSpace("error");
      assert " error" == " " + "error";
    } else {
      Hex8Exact(rdata);
    }
  }

  lemma RespWords(t: string, l: string, v: string)
    requires |t| > 0 && NoSpace(t) && |l| > 0 && NoSpace(l) && |v| > 0 && NoSpace(v)
    ensures Words(t + " resp " + l + (" " + v)) == [t, "resp", l, v]
  {
    assert NoSpace("resp");
    RespShape(t, l, v);
    WordsLead(t, ["resp", l, v]);
    assert [t] + ["resp", l, v] == [t, "resp", l, v];
  }

  lemma RespShape(t: string, l: string, v: string)
    ensures t + " resp " + l + (" " + v) == t + Spaced(["resp", l, v])
  {
    Spaced3("resp", l, v);
  }
}

=== FILE: replace_func.dfy ===
/** `tests/replace_func.py`: splices a hand-written `findNode` into compiler-generated
    assembly.  The source file is copied line by line; its `findNode:` label line is replaced
    by the whole function file, and the compiled body is dropped up to the line holding the
    `.-findNode` size directive, which is kept.  Files are the sequences of lines
    `readline()`/`readlines()` return, newlines included. */
module ReplaceFunc {
  import Fmt

  const START: string := "findNode:"
  const END: string := ".-findNode"

  predicate StartsWith(l: string, p: string) {
    |p| <= |l| && l[..|p|] == p
  }

  /** Python's `p in l`. */
  predicate Contains(l: string, p: string)
    decreases |l|
  {
    StartsWith(l, p) || (|l| > 0 && Contains(l[1..], p))
  }

  /** A line that opens the replaced function. */
  predicate Opens(l: string) {
    StartsWith(l, START)
  }

  /** A line that closes it. */
  predicate Closes(l: string) {
    Contains(l, END)
  }

  /** The loop of `main` from a state: `replacing` is the `replace` flag, `read` tells
      whether the function file has already been read to its end (a second `readlines()`
      returns nothing).  Yields the lines written to the output. */
  function Splice(src: seq<string>, func: seq<string>, replacing: bool, read: bool)
    : seq<string>
    decreases |src|
  {
    if |src| == 0 then []
    else
      var l := src[0];
      var inserted := if Opens(l) && !read then func else [];
      var replacing' := if Closes(l) then false else Opens(l) || replacing;
      inserted + (if replacing' then [] else [l])
      + Splice(src[1..], func, replacing', read || Opens(l))
  }

  /** `main(a1, a2, a3)`: the output file's lines. */
  function Replace(src: seq<string>, func: seq<string>): seq<string> {
    Splice(src, func, false, false)
  }

  /** Lines before the first `findNode:` label are copied unchanged. */
  lemma {:induction false} CopiesUntilLabel(pre: seq<string>, rest: seq<string>,
                                            func: seq<string>, read: bool)
    requires forall i | 0 <= i < |pre| :: !Opens(pre[i])
    ensures Splice(pre + rest, func, false, read) == pre + Splice(rest, func, false, read)
    decreases |pre|
  {
    if |pre| > 0 {
      assert (pre + rest)[0] == pre[0];
      assert (pre + rest)[1..] == pre[1..] + rest;
      CopiesUntilLabel(pre[1..], rest, func, read);
    } else {
      assert pre + rest == rest;
    }
  }

  /** While replacing, lines without the `.-findNode` marker are dropped, and a further
      label inserts nothing once the function file has been read. */
  lemma {:induction false} DropsUntilMarker(mid: seq<string>, rest: seq<string>,
                                            func: seq<string>)
    requires forall i | 0 <= i < |mid| :: !Closes(mid[i])
    ensures Splice(mid + rest, func, true, true) == Splice(rest, func, true, true)
    decreases |mid|
  {
    if |mid| > 0 {
      assert (mid + rest)[0] == mid[0];
      assert (mid + rest)[1..] == mid[1..] + rest;
      DropsUntilMarker(mid[1..], rest, func);
    } else {
      assert mid + rest == rest;
    }
  }

  /** The label line is replaced by the function file, and replacing begins (unless the
      label line carries the marker as well). */
  lemma LabelInsertsFunction(l: string, rest: seq<string>, func: seq<string>)
    requires Opens(l) && !Closes(l)
    ensures Splice([l] + rest, func, false, false) == func + Splice(rest, func, true, true)
  {
    assert ([l] + rest)[0] == l && ([l] + rest)[1..] == rest;
  }

  /** A second label, with the function file already read, inserts nothing. */
  lemma SecondLabelInsertsNothing(l: string, rest: seq<string>, func: seq<string>,
                                  replacing: bool)
    requires Opens(l) && !Closes(l)
    ensures Splice([l] + rest, func, replacing, true) == Splice(rest, func, true, true)
  {
    assert ([l] + rest)[0] == l && ([l] + rest)[1..] == rest;
  }

  /** The marker line ends the replacement and is itself kept. */
  lemma MarkerKept(l: string, rest: seq<string>, func: seq<string>, replacing: bool,
                   read: bool)
    requires Closes(l) && (read || !Opens(l))
    ensures Splice([l] + rest, func, replacing, read) == [l] + Splice(rest, func, false, read)
  {
    assert ([l] + rest)[0] == l && ([l] + rest)[1..] == rest;
  }

  /** A file with one labelled function: everything before the label, then the function
      file, then the marker line and everything after it. */
  lemma ReplacesOneFunction(pre: seq<string>, opening: string, body: seq<string>,
                            marker: string, post: seq<string>, func: seq<string>)
    requires forall i | 0 <= i < |pre| :: !Opens(pre[i])
    requires Opens(opening) && !Closes(opening)
    requires forall i | 0 <= i < |body| :: !Closes(body[i])
    requires Closes(marker)
    requires forall i | 0 <= i < |post| :: !Opens(post[i])
    ensures Replace(pre + [opening] + body + [marker] + post, func)
            == pre + func + [marker] + post
  {
    var tail := [marker] + post;
    var afterLabel := body + tail;
    Nest5(pre, [opening], body, [marker], post);
    CopiesUntilLabel(pre, [opening] + afterLabel, func, false);
    LabelInsertsFunction(opening, afterLabel, func);
    DropsUntilMarker(body, tail, func);
    MarkerKept(marker, post, func, true, true);
    CopiesToEnd(post, func);
    Fmt.AppendAssoc(pre, func, tail);
  }

  lemma Nest5<T>(a: seq<T>, b: seq<T>, c: seq<T>, d: seq<T>, e: seq<T>)
    ensures a + b + c + d + e == a + (b + (c + (d + e)))
  {
  }

  /** After the marker, the rest of a file without labels is copied. */
  lemma CopiesToEnd(post: seq<string>, func: seq<string>)
    requires forall i | 0 <= i < |post| :: !Opens(post[i])
    ensures Splice(post, func, false, true) == post
  {
    CopiesUntilLabel(post, [], func, true);
    assert post + [] == post;
    assert Splice([], func, false, true) == [];
  }
}

=== FILE: ring.dfy ===
/** The circular queues of the test programs: `fifo_t` in `tests/fifo.c`, `Queue` in
    `tests/graph.cpp` and the BFS queues of the C graph programs.  A buffer of `cap` slots
    with a read index `head` and a write index `tail`; one slot always stays free, so
    `head == tail` means empty and at most `cap - 1` elements are held. */
module Ring {
  import opened Wrappers

  datatype Ring<T> = Ring(buf: seq<T>, head: nat, tail: nat)

  predicate Valid<T>(r: Ring<T>) {
    |r.buf| > 0 && r.head < |r.buf| && r.tail < |r.buf|
  }

  /** The index after `i`, wrapping to 0 at the end of the buffer. */
  function Next(i: nat, cap: nat): (j: nat)
    requires i < cap
    ensures j < cap && j == (i + 1) % cap
  {
    ModOnce(i + 1, cap);
    if i + 1 == cap then 0 else i + 1
  }

  /** Buffer slot of the `i`-th element counted from `h`. */
  function Slot(h: nat, i: nat, cap: nat): (s: nat)
    requires h < cap && i < cap
    ensures s < cap && s == (h + i) % cap
  {
    ModOnce(h + i, cap);
    if h + i < cap then h + i else h + i - cap
  }

  /** Reducing a number below `2 * cap` subtracts `cap` at most once. */
  lemma ModOnce(x: nat, cap: nat)
    requires 0 < cap && x < 2 * cap
    ensures x % cap == if x < cap then x else x - cap
  {
    var q := if x < cap then 0 else 1;
    var k := x / cap - q;
    assert k * cap == (x - q * cap) - x % cap;
  }

  /** The number of elements held. */
  function Count<T>(r: Ring<T>): (n: nat)
    requires Valid(r)
    ensures n < |r.buf|
  {
    if r.head <= r.tail then r.tail - r.head else r.tail + |r.buf| - r.head
  }

  /** The elements held, oldest first. */
  function Contents<T>(r: Ring<T>): (s: seq<T>)
    requires Valid(r)
    ensures |s| == Count(r)
  {
    seq(Count(r), i requires 0 <= i < Count(r) => r.buf[Slot(r.head, i, |r.buf|)])
  }

  /** An empty queue over a buffer (`create_queue`, or the `memset` of `fifo_t`). */
  function Empty<T>(buf: seq<T>): (r: Ring<T>)
    requires |buf| > 0
    ensures Valid(r) && Contents(r) == []
  {
    Ring(buf, 0, 0)
  }

  /** `flush`: both indices back to 0, the queue empty. */
  function Flush<T>(r: Ring<T>): (r': Ring<T>)
    requires Valid(r)
    ensures Valid(r') && Contents(r') == [] && r'.buf == r.buf
  {
    r.(head := 0, tail := 0)
  }

  /** The next write would make the indices meet. */
  predicate Full<T>(r: Ring<T>)
    requires Valid(r)
  {
    Next(r.tail, |r.buf|) == r.head
  }

  /** The unchecked `enqueue` of the C programs: store at `tail`, advance `tail`. */
  function Push<T>(r: Ring<T>, x: T): (r': Ring<T>)
    requires Valid(r)
    ensures Valid(r') && |r'.buf| == |r.buf|
  {
    Ring(r.buf[r.tail := x], r.head, Next(r.tail, |r.buf|))
  }

  /** The checked `enqueue`/`fifo_push`: refuse when full, else push. */
  function TryPush<T>(r: Ring<T>, x: T): (r': Option<Ring<T>>)
    requires Valid(r)
    ensures r'.None? <==> Count(r) == |r.buf| - 1
  {
    FullIffCount(r);
    if Full(r) then None else Some(Push(r, x))
  }

  datatype Popped<T> = Popped(item: T, rest: Ring<T>)

  /** `dequeue`/`fifo_pop`: nothing when the indices meet, else the element at `head`. */
  function Pop<T>(r: Ring<T>): (p: Option<Popped<T>>)
    requires Valid(r)
    ensures p.None? <==> Contents(r) == []
    ensures p.Some? ==> Valid(p.value.rest) && p.value.rest.buf == r.buf
  {
    if r.head == r.tail then None
    else Some(Popped(r.buf[r.head], r.(head := Next(r.head, |r.buf|))))
  }

  /** A queue is full exactly when it holds `cap - 1` elements. */
  lemma FullIffCount<T>(r: Ring<T>)
    requires Valid(r)
    ensures Full(r) <==> Count(r) == |r.buf| - 1
  {
  }

  /** Below capacity, a push appends to the contents. */
  lemma PushAppends<T>(r: Ring<T>, x: T)
    requires Valid(r) && Count(r) < |r.buf| - 1
    ensures Count(Push(r, x)) == Count(r) + 1
    ensures Contents(Push(r, x)) == Contents(r) + [x]
  {
    var r' := Push(r, x);
    var n := Count(r);
    forall i | 0 <= i < n
      ensures Contents(r')[i] == Contents(r)[i]
    {
      SlotBeforeTail(r, i);
    }
    assert Slot(r.head, n, |r.buf|) == r.tail;
  }

  /** The slots of the held elements are not the write slot. */
  lemma SlotBeforeTail<T>(r: Ring<T>, i: nat)
    requires Valid(r) && i < Count(r)
    ensures Slot(r.head, i, |r.buf|) != r.tail
  {
  }

  /** A push into a full queue makes the indices meet: everything held is lost. */
  lemma PushWhenFullEmpties<T>(r: Ring<T>, x: T)
    requires Valid(r) && Count(r) == |r.buf| - 1
    ensures Contents(Push(r, x)) == []
  {
  }

  /** The checked push agrees with the unchecked one whenever there is room. */
  lemma TryPushAppends<T>(r: Ring<T>, x: T)
    requires Valid(r)
    ensures TryPush(r, x).Some? ==> Contents(TryPush(r, x).value) == Contents(r) + [x]
  {
    if Count(r) < |r.buf| - 1 {
      PushAppends(r, x);
    }
  }

  /** A pop yields the oldest element and leaves the rest in order. */
  lemma PopFront<T>(r: Ring<T>)
    requires Valid(r) && Contents(r) != []
    ensures Pop(r).Some?
    ensures Pop(r).value.item == Contents(r)[0]
    ensures Contents(Pop(r).value.rest) == Contents(r)[1..]
  {
    var r' := Pop(r).value.rest;
    assert Count(r') == Count(r) - 1;
    forall i | 0 <= i < Count(r')
      ensures Contents(r')[i] == Contents(r)[i + 1]
    {
      assert Slot(r'.head, i, |r.buf|) == Slot(r.head, i + 1, |r.buf|);
    }
  }
}

=== FILE: stdlib.dfy ===
/** `tests/stdlib.c`: the newlib system-call stubs of the bare-metal test programs.  Console
    input and output go through the UART CSRs; the blocking polls are not modelled, so the
    bytes received are a parameter and the bytes sent are returned. */
module Stdlib {
  import opened Fmt

  /** 96 MiB of heap above the start of the data segment. */
  const HEAP_MAX: nat := 96 * 1024 * 1024

  /** `&_sdata + HEAP_MAX`, the highest break `_sbrk` hands out. */
  function HeapLimit(sdata: u32): u32 {
    Wrap32(sdata as int + HEAP_MAX)
  }

  /** `_sbrk(increment)` from the break `curbrk`: the new break, which is also the value
      returned.  The pointer sum wraps at 2^32; a sum below the old break is taken as an
      overflow and sends the break to the top of memory, and any break above the limit is
      clamped to it. */
  function Sbrk(curbrk: u32, sdata: u32, increment: i32): (brk: u32)
    ensures brk <= HeapLimit(sdata)
  {
    var sum := Wrap32(curbrk as int + increment);
    var next := if sum < curbrk then TWO32 - 1 else sum;
    if next > HeapLimit(sdata) then HeapLimit(sdata) else next
  }

  /** Within the limit the break grows by the increment and the new break is returned. */
  lemma SbrkGrows(curbrk: u32, sdata: u32, increment: i32)
    requires increment >= 0 && curbrk as int + increment <= HeapLimit(sdata)
    ensures Sbrk(curbrk, sdata, increment) == curbrk as int + increment
  {
  }

  /** A request past the limit gets the limit. */
  lemma SbrkClamps(curbrk: u32, sdata: u32, increment: i32)
    requires increment >= 0 && HeapLimit(sdata) < curbrk as int + increment
    ensures Sbrk(curbrk, sdata, increment) == HeapLimit(sdata)
  {
  }

  /** A wrapped sum sends the break to the limit. */
  lemma SbrkOverflowClamps(curbrk: u32, sdata: u32, increment: i32)
    requires Wrap32(curbrk as int + increment) < curbrk
    ensures Sbrk(curbrk, sdata, increment) == HeapLimit(sdata)
  {
  }

  /** So does every negative increment, as long as the limit lies in the lower half of the
      address space: the heap never shrinks. */
  lemma SbrkNegativeClamps(curbrk: u32, sdata: u32, increment: i32)
    requires increment < 0 && HeapLimit(sdata) < 0x8000_0000
    ensures Sbrk(curbrk, sdata, increment) == HeapLimit(sdata)
  {
    if curbrk as int + increment < 0 {
      assert Wrap32(curbrk as int + increment) == curbrk as int + increment + TWO32;
    } else {
      assert Wrap32(curbrk as int + increment) == curbrk as int + increment;
    }
  }

  /** Two growing calls within the limit move the break as far as one call with the sum. */
  lemma SbrkAccumulates(curbrk: u32, sdata: u32, a: i32, b: i32)
    requires a >= 0 && b >= 0 && a + b < 0x8000_0000
    requires curbrk as int + a + b <= HeapLimit(sdata)
    ensures Sbrk(Sbrk(curbrk, sdata, a), sdata, b) == Sbrk(curbrk, sdata, a + b)
  {
    SbrkGrows(curbrk, sdata, a);
    SbrkGrows(curbrk + a, sdata, b);
    SbrkGrows(curbrk, sdata, a + b);
  }

  /** What a read or write call returns, and the bytes it moved. */
  datatype Io = Io(ret: i32, bytes: seq<u8>)

  /** `_read`: only standard input is served; `count` bytes arrive from the receive FIFO
      (`rx`, in arrival order) and `count` comes back as an `ssize_t`. */
  function Read(fd: i32, count: u32, rx: seq<u8>): Io
    requires fd == 0 ==> count <= |rx|
  {
    if fd != 0 then Io(-1, []) else Io(Signed32(count), rx[..count])
  }

  /** `_write`: only standard output and standard error are served; every byte goes to the
      transmit FIFO in order. */
  function Write(fd: i32, buf: seq<u8>): Io
    requires |buf| < TWO32
  {
    if fd != 1 && fd != 2 then Io(-1, []) else Io(Signed32(|buf|), buf)
  }

  function Close(fd: i32): i32 {
    -1
  }

  function Lseek(fd: i32, offset: i32, whence: i32): i32 {
    -1
  }

  function Fstat(fd: i32): i32 {
    -1
  }

  /** `_read` as the source runs it: one byte per iteration, taken from the front of the
      receive FIFO `rx` and stored at `dst[i]`.  Returns the call's value, the buffer after
      the call, and what is left in the FIFO. */
  method ReadCall(fd: i32, count: u32, rx: seq<u8>, dst: seq<u8>)
    returns (ret: i32, dst': seq<u8>, rx': seq<u8>)
    requires fd == 0 ==> count <= |rx| && count <= |dst|
    ensures |dst'| == |dst|
    ensures fd != 0 ==> ret == -1 && dst' == dst && rx' == rx
    ensures fd == 0 ==> dst'[..count] == rx[..count] && dst'[count..] == dst[count..]
                        && rx' == rx[count..]
    ensures fd == 0 && count < 0x8000_0000 ==> ret == count
    ensures Read(fd, count, rx) == Io(ret, if fd == 0 then dst'[..count] else [])
  {
    if fd != 0 {
      return -1, dst, rx;
    }
    dst', rx' := dst, rx;
    var i: nat := 0;
    while i < count
      invariant i <= count && |dst'| == |dst|
      invariant dst'[..i] == rx[..i] && dst'[i..] == dst[i..]
      invariant rx' == rx[i..]
    {
      dst' := dst'[i := rx'[0]];
      rx' := rx'[1..];
      i := i + 1;
    }
    ret := Signed32(count);
  }

  /** `_write` as the source runs it: byte `buf[i]` goes to the transmit FIFO on iteration
      `i`.  `tx` is what the FIFO has already received. */
  method WriteCall(fd: i32, buf: seq<u8>, count: u32, tx: seq<u8>) returns (ret: i32, tx': seq<u8>)
    requires count <= |buf|
    ensures fd != 1 && fd != 2 ==> ret == -1 && tx' == tx
    ensures (fd == 1 || fd == 2) ==> tx' == tx + buf[..count]
    ensures (fd == 1 || fd == 2) && count < 0x8000_0000 ==> ret == count
    ensures Write(fd, buf[..count]) == Io(ret, tx'[|tx|..])
  {
    if fd != 1 && fd != 2 {
      return -1, tx;
    }
    tx' := tx;
    var i: nat := 0;
    while i < count
      invariant i <= count && tx' == tx + buf[..i]
    {
      assert buf[..i + 1] == buf[..i] + [buf[i]];
      tx' := tx' + [buf[i]];
      i := i + 1;
    }
    ret := Signed32(count);
    assert tx'[|tx|..] == buf[..count];
  }
}

=== FILE: trace_line.dfy ===
/** The Spike-format commit-log line the testbench writes for every retired instruction
    (behavioral/top.cc, `tb_trace_rob_retire`), what the line says, and a reader for it.

    A line is `core   0: 3 0x<pc> (0x<insn>)` followed either by ` error <cause>` or by the
    register write-back, the memory accesses and the CSR write of the instruction.  `Meaning`
    states what a line reports; `Parse` reads a line back; `LineRoundTrip` proves that reading
    any rendered line recovers its meaning, so the format loses nothing the trace promises. */
module TraceLine {
  import opened Fmt
  import opened Wrappers
  import Csr

  /** `rob_trace_t`: what the testbench knows about one in-flight instruction. */
  datatype RobEntry = RobEntry(
    insn: u32,
    imm: u32,
    usesMem: bool,
    memop: u8,
    membase: u32,
    memdata: u32,
    writesCsr: bool)

  /** Word address (`>> 2`) of the HTIF tohost location 0x30000000. */
  const TOHOST_WORD: nat := 0x3000_0000 / 4

  /** `membase + imm` in uint32 arithmetic. */
  function EffAddr(e: RobEntry): u32 {
    Wrap32(e.membase + e.imm)
  }

  /** Bit 3 of the memory op marks a store. */
  predicate IsStore(e: RobEntry) {
    Bit(e.memop, 3)
  }

  /** The finish condition of a retirement: an error-free store whose effective address lies in
      the tohost word.  The stored value plays no part. */
  predicate Terminates(e: RobEntry, error: bool) {
    !error && e.usesMem && IsStore(e) && EffAddr(e) / 4 == TOHOST_WORD
  }

  /** The finish condition in byte terms: any store touching bytes 0x30000000..0x30000003. */
  lemma TerminatesOnTohostWord(e: RobEntry, error: bool)
    ensures Terminates(e, error)
            <==> !error && e.usesMem && IsStore(e) && 0x3000_0000 <= EffAddr(e) < 0x3000_0004
  {
  }

  // ---------------------------------------------------------------------------------------
  // Rendering, in the order of the `fprintf` calls

  /** The store payload: a byte with `%01x` (unpadded, up to two digits), a halfword with
      `%04x`, anything else with `%08x`. */
  function StorePayload(e: RobEntry): string {
    match e.memop % 4
    case 0 => " 0x" + HexPad(e.memdata % 0x100, 1)
    case 1 => " 0x" + HexPad(e.memdata % 0x1_0000, 4)
    case _ => " 0x" + Hex8(e.memdata)
  }

  /** ` mem 0x%08x` */
  function MemField(a: u32): string {
    " mem 0x" + Hex8(a)
  }

  /** The three further addresses a compare-byte load reports, 8 bytes apart. */
  function CompareTail(a: u32): seq<u32> {
    [Wrap32(a as int + 8), Wrap32(a as int + 16), Wrap32(a as int + 24)]
  }

  /** ` mem 0x%08x` for each address in turn. */
  function MemFields(addrs: seq<u32>): string {
    if |addrs| == 0 then "" else MemField(addrs[0]) + MemFields(addrs[1..])
  }

  function MemPart(e: RobEntry): string {
    if !e.usesMem then ""
    else
      var a := EffAddr(e);
      MemField(a)
      + (if IsStore(e) then StorePayload(e)
         else if e.memop % 4 == 3 then MemFields(CompareTail(a))
         else "")
  }

  /** ` x%2d 0x%08x` unless bit 5 of rd says there is no write-back. */
  function RegPart(rd: u32, result: u32): string {
    if !Bit(rd, 5) then " x" + PadLeft(DecDigits(rd % 32), 2, ' ') + " 0x" + Hex8(result)
    else ""
  }

  /** ` c%d_%s 0x%08x`; the name lookup takes the address as a `uint16_t`. */
  function CsrPart(e: RobEntry): string {
    if e.writesCsr then
      " c" + DecSigned(Signed32(e.membase)) + "_" + Csr.Name(e.membase % 0x1_0000)
      + " 0x" + Hex8(e.memdata)
    else ""
  }

  /** `core   0: 3 0x%08x (0x%08x)`: the byte address of the instruction and its encoding. */
  function Header(e: RobEntry, addr: u32): string {
    "core   0: 3 0x" + Hex8(Wrap32(addr * 4)) + " (0x" + Hex8(e.insn) + ")"
  }

  /** Everything after the header: the trap cause, or the write-back, accesses and CSR write. */
  function Fields(e: RobEntry, error: bool, ecause: u32, rd: u32, result: u32): string {
    if error then " error " + DecSigned(Signed32(ecause))
    else RegPart(rd, result) + MemPart(e) + CsrPart(e)
  }

  /** One trace line (without its newline) for a retirement of record `e` at word address
      `addr`. */
  function Line(e: RobEntry, addr: u32, error: bool, ecause: u32, rd: u32, result: u32)
    : string
  {
    Header(e, addr) + Fields(e, error, ecause, rd, result)
  }

  // ---------------------------------------------------------------------------------------
  // What a line reports

  datatype MemAccess = MemAccess(addr: nat, data: Option<nat>)
  datatype RegWrite = RegWrite(reg: int, value: nat)
  datatype CsrView = CsrView(num: int, name: string, value: nat)
  datatype Body =
    | Trap(cause: int)
    | Commit(wb: Option<RegWrite>, mem: seq<MemAccess>, csr: Option<CsrView>)
  datatype View = View(pc: nat, insn: nat, body: Body)

  /** The value a store writes, cut to its width. */
  function StoreData(e: RobEntry): nat {
    match e.memop % 4
    case 0 => e.memdata % 0x100
    case 1 => e.memdata % 0x1_0000
    case _ => e.memdata
  }

  /** The accesses of a memory instruction: a store with its data, a compare-byte load
      (op & 3 == 3) as four accesses 8 bytes apart, any other load as one access. */
  function Accesses(e: RobEntry): seq<MemAccess> {
    if !e.usesMem then []
    else
      var a := EffAddr(e);
      if IsStore(e) then [MemAccess(a, Some(StoreData(e)))]
      else Loads([a] + LoadTail(e))
  }

  /** Further addresses a load reports after its effective address. */
  function LoadTail(e: RobEntry): seq<u32> {
    if e.memop % 4 == 3 then CompareTail(EffAddr(e)) else []
  }

  /** A read of each address, in order. */
  function Loads(addrs: seq<u32>): (r: seq<MemAccess>)
    ensures |r| == |addrs|
    ensures forall i | 0 <= i < |r| :: r[i] == MemAccess(addrs[i], None)
  {
    if |addrs| == 0 then [] else [MemAccess(addrs[0], None)] + Loads(addrs[1..])
  }

  function Meaning(e: RobEntry, addr: u32, error: bool, ecause: u32, rd: u32, result: u32)
    : View
  {
    View(Wrap32(addr * 4), e.insn,
      if error then Trap(Signed32(ecause))
      else Commit(
        if !Bit(rd, 5) then Some(RegWrite(rd % 32, result)) else None,
        Accesses(e),
        if e.writesCsr
        then Some(CsrView(Signed32(e.membase), Csr.Name(e.membase % 0x1_0000), e.memdata))
        else None))
  }

  // ---------------------------------------------------------------------------------------
  // Reading a line back

  /** The field starts with `0x`. */
  predicate HexPrefixed(t: string) {
    |t| >= 2 && t[0] == '0' && t[1] == 'x'
  }

  /** `0x<hex>` */
  function Hex0x(t: string): Option<nat> {
    if |t| > 2 && HexPrefixed(t) then ParseHex(t[2..]) else None
  }

  /** `(0x<hex>)` */
  function ParenHex(t: string): Option<nat> {
    if |t| > 4 && t[..3] == "(0x" && t[|t| - 1] == ')' then ParseHex(t[3..|t| - 1]) else None
  }

  /** Index of the first `c` in `s`, or |s|. */
  function FirstIndex(s: string, c: char): (k: nat)
    ensures k <= |s| && (k < |s| ==> s[k] == c)
    ensures forall i | 0 <= i < k :: s[i] != c
  {
    if |s| == 0 || s[0] == c then 0 else 1 + FirstIndex(s[1..], c)
  }

  function ParseReg(ws: seq<string>): Option<(Option<RegWrite>, seq<string>)> {
    if |ws| >= 3 && ws[0] == "x" then
      var r :- ParseDec(ws[1]);
      var v :- Hex0x(ws[2]);
      Some((Some(RegWrite(r, v)), ws[3..]))
    else if |ws| >= 2 && |ws[0]| > 1 && ws[0][0] == 'x' then
      var r :- ParseDec(ws[0][1..]);
      var v :- Hex0x(ws[1]);
      Some((Some(RegWrite(r, v)), ws[2..]))
    else Some((None, ws))
  }

  function ParseMems(ws: seq<string>): Option<(seq<MemAccess>, seq<string>)>
    decreases |ws|
  {
    if |ws| >= 2 && ws[0] == "mem" then
      var a :- Hex0x(ws[1]);
      if |ws| >= 3 && HexPrefixed(ws[2]) then
        var d :- Hex0x(ws[2]);
        var (more, rest) :- ParseMems(ws[3..]);
        Some(([MemAccess(a, Some(d))] + more, rest))
      else
        var (more, rest) :- ParseMems(ws[2..]);
        Some(([MemAccess(a, None)] + more, rest))
    else Some(([], ws))
  }

  function ParseCsr(ws: seq<string>): Option<Option<CsrView>> {
    if |ws| == 0 then Some(None)
    else if |ws| == 2 && |ws[0]| > 1 && ws[0][0] == 'c' then
      var t := ws[0][1..];
      var k := FirstIndex(t, '_');
      if k < |t| then
        var num :- ParseDec(t[..k]);
        var v :- Hex0x(ws[1]);
        Some(Some(CsrView(num, t[k + 1..], v)))
      else None
    else None
  }

  function ParseBody(ws: seq<string>): Option<Body> {
    if |ws| == 2 && ws[0] == "error" then
      var c :- ParseDec(ws[1]);
      Some(Trap(c))
    else
      var (wb, r1) :- ParseReg(ws);
      var (mem, r2) :- ParseMems(r1);
      var csr :- ParseCsr(r2);
      Some(Commit(wb, mem, csr))
  }

  function ParseWords(ws: seq<string>): Option<View> {
    if |ws| >= 5 && ws[0] == "core" && ws[1] == "0:" && ws[2] == "3" then
      var pc :- Hex0x(ws[3]);
      var insn :- ParenHex(ws[4]);
      var body :- ParseBody(ws[5..]);
      Some(View(pc, insn, body))
    else None
  }

  /** Read a trace line: split it into fields the way `str.split()` does, then decode them. */
  function Parse(line: string): Option<View> {
    ParseWords(Words(line))
  }

  // ---------------------------------------------------------------------------------------
  // The fields of a rendered line

  function HexTok(v: u32): string {
    "0x" + Hex8(v)
  }

  function MemTok(a: u32): seq<string> {
    ["mem", HexTok(a)]
  }

  function RegTokens(rd: u32, result: u32): seq<string> {
    if Bit(rd, 5) then []
    else if rd % 32 < 10 then ["x", DecDigits(rd % 32), HexTok(result)]
    else ["x" + DecDigits(rd % 32), HexTok(result)]
  }

  function PayloadToken(e: RobEntry): string {
    match e.memop % 4
    case 0 => "0x" + HexPad(e.memdata % 0x100, 1)
    case 1 => "0x" + HexPad(e.memdata % 0x1_0000, 4)
    case _ => HexTok(e.memdata)
  }

  function MemToks(addrs: seq<u32>): seq<string> {
    if |addrs| == 0 then [] else MemTok(addrs[0]) + MemToks(addrs[1..])
  }

  function MemTokens(e: RobEntry): seq<string> {
    if !e.usesMem then []
    else if IsStore(e) then MemTok(EffAddr(e)) + [PayloadToken(e)]
    else MemToks([EffAddr(e)] + LoadTail(e))
  }

  function CsrToken(e: RobEntry): string {
    "c" + DecSigned(Signed32(e.membase)) + "_" + Csr.Name(e.membase % 0x1_0000)
  }

  function CsrTokens(e: RobEntry): seq<string> {
    if e.writesCsr then [CsrToken(e), HexTok(e.memdata)] else []
  }

  function FieldTokens(e: RobEntry, error: bool, ecause: u32, rd: u32, result: u32)
    : seq<string>
  {
    if error then ["error", DecSigned(Signed32(ecause))]
    else RegTokens(rd, result) + MemTokens(e) + CsrTokens(e)
  }

  function InsnTok(e: RobEntry): string {
    "(0x" + Hex8(e.insn) + ")"
  }

  function HeaderTokens(e: RobEntry, addr: u32): seq<string> {
    ["0:", "3", HexTok(Wrap32(addr * 4)), InsnTok(e)]
  }

  /** A `0x`-prefixed rendering of a hex string reads back as that string's value. */
  lemma ZeroX(h: string, x: nat)
    requires |h| >= 1 && NoSpace(h) && ParseHex(h) == Some(x)
    ensures |"0x" + h| > 2 && NoSpace("0x" + h) && HexPrefixed("0x" + h)
    ensures Hex0x("0x" + h) == Some(x)
  {
    assert NoSpace("0x");
    NoSpaceConcat("0x", h);
    assert ("0x" + h)[2..] == h;
  }

  lemma HexTokFacts(v: u32)
    ensures |HexTok(v)| > 2 && NoSpace(HexTok(v)) && HexPrefixed(HexTok(v))
    ensures Hex0x(HexTok(v)) == Some(v)
  {
    Hex8Exact(v);
    ZeroX(Hex8(v), v);
  }

  lemma PayloadFacts(e: RobEntry)
    ensures |PayloadToken(e)| > 2 && NoSpace(PayloadToken(e)) && HexPrefixed(PayloadToken(e))
    ensures Hex0x(PayloadToken(e)) == Some(StoreData(e))
    ensures StorePayload(e) == " " + PayloadToken(e)
  {
    var h := HexPad(StoreData(e), PayloadWidth(e));
    HexPadRoundTrip(StoreData(e), PayloadWidth(e));
    ZeroX(h, StoreData(e));
    PayloadSplit(e);
    SpaceZeroX(h);
  }

  /** Digits of the store data in the trace: 1, 4 or 8 by access size. */
  function PayloadWidth(e: RobEntry): nat {
    if e.memop % 4 == 0 then 1 else if e.memop % 4 == 1 then 4 else 8
  }

  lemma PayloadSplit(e: RobEntry)
    ensures PayloadToken(e) == "0x" + HexPad(StoreData(e), PayloadWidth(e))
    ensures StorePayload(e) == " 0x" + HexPad(StoreData(e), PayloadWidth(e))
  {
  }

  lemma SpaceZeroX(h: string)
    ensures " 0x" + h == " " + ("0x" + h)
  {
  }

  lemma MemFieldSpaced(a: u32)
    ensures IsTokens(MemTok(a)) && MemField(a) == Spaced(MemTok(a))
  {
    HexTokFacts(a);
    assert NoSpace("mem");
    Spaced2("mem", HexTok(a));
    MemShape(Hex8(a));
  }

  lemma MemShape(h: string)
    ensures " mem 0x" + h == " " + "mem" + " " + ("0x" + h)
  {
  }

  lemma RegShortShape(d: string, h: string)
    ensures " x" + (" " + d) + " 0x" + h == " " + "x" + " " + d + " " + ("0x" + h)
  {
  }

  lemma RegLongShape(d: string, h: string)
    ensures " x" + d + " 0x" + h == " " + ("x" + d) + " " + ("0x" + h)
  {
  }

  lemma CsrShape(d: string, n: string, h: string)
    ensures " c" + d + "_" + n + " 0x" + h == " " + ("c" + d + "_" + n) + " " + ("0x" + h)
  {
  }

  lemma ErrorShape(c: string)
    ensures " error " + c == " " + "error" + " " + c
  {
  }

  lemma HeaderShape(p: string, i: string)
    ensures "core   0: 3 0x" + p + " (0x" + i + ")"
            == "core" + "  " + (" " + "0:" + " " + "3" + " " + ("0x" + p) + " " + ("(0x" + i + ")"))
  {
  }

  lemma RegPartSpaced(rd: u32, result: u32)
    ensures IsTokens(RegTokens(rd, result))
    ensures RegPart(rd, result) == Spaced(RegTokens(rd, result))
  {
    if !Bit(rd, 5) {
      var d := DecDigits(rd % 32);
      var h := HexTok(result);
      HexTokFacts(result);
      assert NoSpace("x");
      if rd % 32 < 10 {
        assert |d| == 1;
        assert PadLeft(d, 2, ' ') == " " + d by {
          assert Repeat(' ', 1) == " ";
        }
        Spaced3("x", d, h);
        RegShortShape(d, Hex8(result));
      } else {
        assert |d| >= 2;
        assert PadLeft(d, 2, ' ') == d;
        NoSpaceConcat("x", d);
        Spaced2("x" + d, h);
        RegLongShape(d, Hex8(result));
      }
    }
  }

  lemma {:induction false} MemFieldsSpaced(addrs: seq<u32>)
    ensures IsTokens(MemToks(addrs)) && MemFields(addrs) == Spaced(MemToks(addrs))
    decreases |addrs|
  {
    if |addrs| > 0 {
      MemFieldSpaced(addrs[0]);
      MemFieldsSpaced(addrs[1..]);
      SpacedAppend(MemTok(addrs[0]), MemToks(addrs[1..]));
      IsTokensAppend(MemTok(addrs[0]), MemToks(addrs[1..]));
    }
  }

  lemma MemPartSpaced(e: RobEntry)
    ensures IsTokens(MemTokens(e))
    ensures MemPart(e) == Spaced(MemTokens(e))
  {
    if e.usesMem {
      var a := EffAddr(e);
      MemFieldSpaced(a);
      if IsStore(e) {
        var t := PayloadToken(e);
        PayloadFacts(e);
        Spaced1(t);
        SpacedAppend(MemTok(a), [t]);
        IsTokensAppend(MemTok(a), [t]);
      } else {
        var addrs := [a] + LoadTail(e);
        assert addrs[0] == a && addrs[1..] == LoadTail(e);
        MemFieldsSpaced(addrs);
        assert MemFields(addrs) == MemField(a) + MemFields(LoadTail(e));
        assert MemFields([]) == "";
      }
    }
  }

  lemma CsrPartSpaced(e: RobEntry)
    ensures IsTokens(CsrTokens(e))
    ensures CsrPart(e) == Spaced(CsrTokens(e))
  {
    if e.writesCsr {
      var h := HexTok(e.memdata);
      HexTokFacts(e.memdata);
      DecSignedRoundTrip(Signed32(e.membase));
      Csr.NameIdentifiesRegister(e.membase % 0x1_0000);
      var d := DecSigned(Signed32(e.membase));
      var n := Csr.Name(e.membase % 0x1_0000);
      assert NoSpace("c") && NoSpace("_");
      NoSpaceConcat("c", d);
      NoSpaceConcat("c" + d, "_");
      NoSpaceConcat("c" + d + "_", n);
      Spaced2(CsrToken(e), h);
      CsrShape(d, n, Hex8(e.memdata));
    }
  }

  lemma FieldsSpaced(e: RobEntry, error: bool, ecause: u32, rd: u32, result: u32)
    ensures IsTokens(FieldTokens(e, error, ecause, rd, result))
    ensures Fields(e, error, ecause, rd, result) == Spaced(FieldTokens(e, error, ecause, rd, result))
  {
    if error {
      var c := DecSigned(Signed32(ecause));
      DecSignedRoundTrip(Signed32(ecause));
      assert NoSpace("error");
      Spaced2("error", c);
      ErrorShape(c);
    } else {
      var rs, ms, cs := RegTokens(rd, result), MemTokens(e), CsrTokens(e);
      RegPartSpaced(rd, result);
      MemPartSpaced(e);
      CsrPartSpaced(e);
      SpacedAppend(rs, ms);
      SpacedAppend(rs + ms, cs);
      IsTokensAppend(rs, ms);
      IsTokensAppend(rs + ms, cs);
    }
  }

  lemma HeaderSpaced(e: RobEntry, addr: u32)
    ensures IsTokens(HeaderTokens(e, addr))
    ensures Header(e, addr) == "core" + "  " + Spaced(HeaderTokens(e, addr))
  {
    var p := HexTok(Wrap32(addr * 4));
    var i := InsnTok(e);
    HexTokFacts(Wrap32(addr * 4));
    InsnTokFacts(e.insn);
    HeaderLiterals();
    Tokens4("0:", "3", p, i);
    Spaced4("0:", "3", p, i);
    HeaderShape(Hex8(Wrap32(addr * 4)), Hex8(e.insn));
  }

  lemma HeaderLiterals()
    ensures |"0:"| > 0 && NoSpace("0:") && |"3"| > 0 && NoSpace("3")
  {
  }

  lemma InsnTokFacts(insn: u32)
    ensures |"(0x" + Hex8(insn) + ")"| > 0 && NoSpace("(0x" + Hex8(insn) + ")")
  {
    var h := Hex8(insn);
    Hex8Exact(insn);
    ParenLiterals();
    NoSpaceConcat("(0x", h);
    NoSpaceConcat("(0x" + h, ")");
  }

  lemma ParenLiterals()
    ensures NoSpace("(0x") && NoSpace(")") && |")"| == 1
  {
  }

  /** Splitting a rendered line yields "core" followed by the header and the other fields. */
  lemma LineWords(e: RobEntry, addr: u32, error: bool, ecause: u32, rd: u32, result: u32)
    ensures Words(Line(e, addr, error, ecause, rd, result))
            == ["core"] + (HeaderTokens(e, addr) + FieldTokens(e, error, ecause, rd, result))
  {
    var hs := HeaderTokens(e, addr);
    var fs := FieldTokens(e, error, ecause, rd, result);
    HeaderSpaced(e, addr);
    FieldsSpaced(e, error, ecause, rd, result);
    SpacedAppend(hs, fs);
    IsTokensAppend(hs, fs);
    LineShape(Spaced(hs), Spaced(fs));
    WordsOfLine(hs + fs);
  }

  lemma LineShape(a: string, b: string)
    ensures "core" + "  " + a + b == "core" + "  " + (a + b)
  {
  }

  lemma WordsOfLine(ts: seq<string>)
    requires IsTokens(ts)
    ensures Words("core" + "  " + Spaced(ts)) == ["core"] + ts
  {
    var sp := Spaced(ts);
    var rest := "  " + sp;
    assert "core" + "  " + sp == "" + "core" + rest;
    assert NoSpace("core") && AllSpace("") && AllSpace("  ");
    WordsField("", "core", rest);
    WordsSkipSpace("  ", sp);
    WordsSpaced(ts, "");
    assert sp + "" == sp;
    assert Words("") == [];
    assert ts + [] == ts;
  }

  /** The next field does not start a store-data field. */
  predicate NotData(ws: seq<string>) {
    |ws| == 0 || !HexPrefixed(ws[0])
  }

  /** Only a CSR field (or nothing) follows. */
  predicate CsrNext(ws: seq<string>) {
    |ws| == 0 || (|ws[0]| > 0 && ws[0][0] == 'c')
  }

  lemma ParseMemsNone(rest: seq<string>)
    requires CsrNext(rest)
    ensures ParseMems(rest) == Some(([], rest))
  {
    if |rest| >= 2 {
      assert rest[0] != "mem" by {
        assert rest[0][0] == 'c';
      }
    }
  }

  lemma ParseMemNoData(a: u32, rest: seq<string>, ms: seq<MemAccess>, r: seq<string>)
    requires NotData(rest) && ParseMems(rest) == Some((ms, r))
    ensures ParseMems(MemTok(a) + rest) == Some(([MemAccess(a, None)] + ms, r))
  {
    var ws := MemTok(a) + rest;
    HexTokFacts(a);
    assert ws[2..] == rest;
    if |ws| >= 3 {
      assert ws[2] == rest[0];
    }
  }

  lemma ParseMemData(a: u32, t: string, d: nat, rest: seq<string>, ms: seq<MemAccess>,
                     r: seq<string>)
    requires HexPrefixed(t) && Hex0x(t) == Some(d)
    requires ParseMems(rest) == Some((ms, r))
    ensures ParseMems(MemTok(a) + [t] + rest) == Some(([MemAccess(a, Some(d))] + ms, r))
  {
    var ws := MemTok(a) + [t] + rest;
    HexTokFacts(a);
    assert ws[2] == t;
    assert ws[3..] == rest;
  }

  lemma ParseMemsTokens(e: RobEntry, rest: seq<string>)
    requires CsrNext(rest)
    ensures ParseMems(MemTokens(e) + rest) == Some((Accesses(e), rest))
  {
    ParseMemsNone(rest);
    if !e.usesMem {
      assert MemTokens(e) + rest == rest;
    } else if IsStore(e) {
      ParseStoreTokens(e, rest);
    } else {
      ParseLoads([EffAddr(e)] + LoadTail(e), rest);
    }
  }

  lemma ParseStoreTokens(e: RobEntry, rest: seq<string>)
    requires e.usesMem && IsStore(e) && ParseMems(rest) == Some(([], rest))
    ensures ParseMems(MemTokens(e) + rest) == Some((Accesses(e), rest))
  {
    var a, t, d := EffAddr(e), PayloadToken(e), StoreData(e);
    PayloadFacts(e);
    ParseMemData(a, t, d, rest, [], rest);
    assert [MemAccess(a, Some(d))] + [] == Accesses(e);
    assert MemTokens(e) + rest == MemTok(a) + [t] + rest;
  }

  /** A run of load fields followed by at most a CSR write reads back as those loads. */
  lemma {:induction false} ParseLoads(addrs: seq<u32>, rest: seq<string>)
    requires CsrNext(rest)
    ensures ParseMems(MemToks(addrs) + rest) == Some((Loads(addrs), rest))
    decreases |addrs|
  {
    if |addrs| == 0 {
      ParseMemsNone(rest);
      assert MemToks(addrs) + rest == rest;
    } else {
      ParseLoads(addrs[1..], rest);
      ParseLoadStep(addrs, rest);
    }
  }

  lemma ParseLoadStep(addrs: seq<u32>, rest: seq<string>)
    requires |addrs| > 0 && CsrNext(rest)
    requires ParseMems(MemToks(addrs[1..]) + rest) == Some((Loads(addrs[1..]), rest))
    ensures ParseMems(MemToks(addrs) + rest) == Some((Loads(addrs), rest))
  {
    var tail := MemToks(addrs[1..]) + rest;
    MemToksNotData(addrs[1..], rest);
    ParseMemNoData(addrs[0], tail, Loads(addrs[1..]), rest);
    MemToksCons(addrs, rest);
    LoadsCons(addrs);
  }

  lemma MemToksCons(addrs: seq<u32>, rest: seq<string>)
    requires |addrs| > 0
    ensures MemToks(addrs) + rest == MemTok(addrs[0]) + (MemToks(addrs[1..]) + rest)
  {
    var m, t := MemTok(addrs[0]), MemToks(addrs[1..]);
    assert MemToks(addrs) == m + t;
    Fmt.AppendAssoc(m, t, rest);
  }

  lemma LoadsCons(addrs: seq<u32>)
    requires |addrs| > 0
    ensures Loads(addrs) == [MemAccess(addrs[0], None)] + Loads(addrs[1..])
  {
  }

  lemma MemToksNotData(addrs: seq<u32>, rest: seq<string>)
    requires CsrNext(rest)
    ensures NotData(MemToks(addrs) + rest)
  {
    if |addrs| > 0 {
      assert (MemToks(addrs) + rest)[0] == "mem";
    } else {
      assert MemToks(addrs) + rest == rest;
    }
  }

  lemma ParseRegTokens(rd: u32, result: u32, rest: seq<string>)
    requires |rest| == 0 || rest[0] == "mem" || (|rest[0]| > 0 && rest[0][0] == 'c')
    ensures ParseReg(RegTokens(rd, result) + rest)
            == Some((if !Bit(rd, 5) then Some(RegWrite(rd % 32, result)) else None, rest))
  {
    if !Bit(rd, 5) {
      var d, h := DecDigits(rd % 32), HexTok(result);
      HexTokFacts(result);
      DecSignedRoundTrip(rd % 32);
      if rd % 32 < 10 {
        ParseRegSeparate(d, h, rd % 32, result, rest);
        assert RegTokens(rd, result) + rest == ["x", d, h] + rest;
      } else {
        ParseRegJoined(d, h, rd % 32, result, rest);
        assert RegTokens(rd, result) + rest == ["x" + d, h] + rest;
      }
    } else {
      ParseRegNone(rest);
      assert RegTokens(rd, result) + rest == rest;
    }
  }

  /** `x 5 0x…`: a register below 10 is padded to two columns, so its number is a field of
      its own. */
  lemma ParseRegSeparate(d: string, h: string, r: int, v: nat, rest: seq<string>)
    requires ParseDec(d) == Some(r) && Hex0x(h) == Some(v)
    ensures ParseReg(["x", d, h] + rest) == Some((Some(RegWrite(r, v)), rest))
  {
    var ws := ["x", d, h] + rest;
    assert ws[0] == "x" && ws[1] == d && ws[2] == h;
    assert ws[3..] == rest;
  }

  /** `x12 0x…` */
  lemma ParseRegJoined(d: string, h: string, r: int, v: nat, rest: seq<string>)
    requires |d| > 0 && ParseDec(d) == Some(r) && Hex0x(h) == Some(v)
    ensures ParseReg(["x" + d, h] + rest) == Some((Some(RegWrite(r, v)), rest))
  {
    var ws := ["x" + d, h] + rest;
    assert ws[0] == "x" + d && ws[1] == h;
    assert ws[0] != "x" by {
      assert |ws[0]| > 1;
    }
    assert ws[0][1..] == d;
    assert ws[2..] == rest;
  }

  lemma ParseRegNone(rest: seq<string>)
    requires |rest| == 0 || rest[0] == "mem" || (|rest[0]| > 0 && rest[0][0] == 'c')
    ensures ParseReg(rest) == Some((None, rest))
  {
    if |rest| > 0 {
      assert rest[0] != "x" && (|rest[0]| <= 1 || rest[0][0] != 'x') by {
        if rest[0] == "mem" {
          assert rest[0][0] == 'm';
        }
      }
    }
  }

  lemma ParseCsrTokens(e: RobEntry)
    ensures ParseCsr(CsrTokens(e))
            == Some(if e.writesCsr
                    then Some(CsrView(Signed32(e.membase), Csr.Name(e.membase % 0x1_0000),
                                      e.memdata))
                    else None)
  {
    if e.writesCsr {
      var d := DecSigned(Signed32(e.membase));
      DecSignedRoundTrip(Signed32(e.membase));
      DecSignedNoUnderscore(Signed32(e.membase));
      HexTokFacts(e.memdata);
      ParseCsrJoined(d, Csr.Name(e.membase % 0x1_0000), HexTok(e.memdata),
                     Signed32(e.membase), e.memdata);
    }
  }

  /** `c<number>_<name> 0x<value>` */
  lemma ParseCsrJoined(d: string, n: string, h: string, num: int, v: nat)
    requires forall i | 0 <= i < |d| :: d[i] != '_'
    requires ParseDec(d) == Some(num) && Hex0x(h) == Some(v)
    ensures ParseCsr(["c" + d + "_" + n, h]) == Some(Some(CsrView(num, n, v)))
  {
    var tok := "c" + d + "_" + n;
    var t := tok[1..];
    assert t == d + "_" + n;
    FirstIndexOfJoin(d, n);
    assert t[..|d|] == d;
    assert t[|d| + 1..] == n;
  }

  /** A rendered number holds digits and perhaps a minus sign, never an underscore. */
  lemma DecSignedNoUnderscore(v: int)
    ensures forall i | 0 <= i < |DecSigned(v)| :: DecSigned(v)[i] != '_'
  {
    var d := DecSigned(v);
    forall i | 0 <= i < |d| ensures d[i] != '_' {
      if v < 0 && i == 0 {
        assert d[0] == '-';
      } else if v < 0 {
        assert d[i] == DecDigits(-v)[i - 1];
      } else {
        assert IsDigit(d[i]);
      }
    }
  }

  lemma FirstIndexOfJoin(d: string, n: string)
    requires forall i | 0 <= i < |d| :: d[i] != '_'
    ensures FirstIndex(d + "_" + n, '_') == |d|
  {
    assert (d + "_" + n)[|d|] == '_';
    assert forall i | 0 <= i < |d| :: (d + "_" + n)[i] == d[i];
  }

  /** The fields after the header decode to what they report. */
  lemma ParseFields(e: RobEntry, error: bool, ecause: u32, rd: u32, result: u32)
    ensures ParseBody(FieldTokens(e, error, ecause, rd, result))
            == Some(Meaning(e, addr := 0, error := error, ecause := ecause, rd := rd,
                            result := result).body)
  {
    if error {
      DecSignedRoundTrip(Signed32(ecause));
      ParseTrapOf(DecSigned(Signed32(ecause)), Signed32(ecause));
    } else {
      var rs, ms, cs := RegTokens(rd, result), MemTokens(e), CsrTokens(e);
      AppendAssoc(rs, ms, cs);
      ParseCsrTokens(e);
      CsrTokensNext(e);
      ParseMemsTokens(e, cs);
      MemsLead(e, cs);
      ParseRegTokens(rd, result, ms + cs);
      FieldsNotTrap(rd, result, ms + cs);
      ParseCommitOf(rs + (ms + cs));
    }
  }

  lemma ParseTrapOf(c: string, code: int)
    requires ParseDec(c) == Some(code)
    ensures ParseBody(["error", c]) == Some(Trap(code))
  {
  }

  /** A field list that does not look like a trap decodes field group by field group. */
  lemma ParseCommitOf(fs: seq<string>)
    requires |fs| != 2 || fs[0] != "error"
    requires ParseReg(fs).Some? && ParseMems(ParseReg(fs).value.1).Some?
    requires ParseCsr(ParseMems(ParseReg(fs).value.1).value.1).Some?
    ensures ParseBody(fs)
            == Some(Commit(ParseReg(fs).value.0, ParseMems(ParseReg(fs).value.1).value.0,
                           ParseCsr(ParseMems(ParseReg(fs).value.1).value.1).value))
  {
  }

  lemma CsrTokensNext(e: RobEntry)
    ensures CsrNext(CsrTokens(e))
  {
    if e.writesCsr {
      assert CsrToken(e)[0] == 'c';
    }
  }

  /** After the write-back come an access field, a CSR field, or nothing. */
  lemma MemsLead(e: RobEntry, cs: seq<string>)
    requires CsrNext(cs)
    ensures var w := MemTokens(e) + cs;
            |w| == 0 || w[0] == "mem" || (|w[0]| > 0 && w[0][0] == 'c')
  {
    var ms := MemTokens(e);
    if |ms| > 0 {
      assert ms[0] == "mem";
      assert (ms + cs)[0] == ms[0];
    } else {
      assert ms + cs == cs;
    }
  }

  /** A line that commits never starts its fields with `error`. */
  lemma FieldsNotTrap(rd: u32, result: u32, rest: seq<string>)
    requires |rest| == 0 || rest[0] == "mem" || (|rest[0]| > 0 && rest[0][0] == 'c')
    ensures var fs := RegTokens(rd, result) + rest;
            |fs| != 2 || fs[0] != "error"
  {
    var rs := RegTokens(rd, result);
    ErrorLiteral();
    if |rs| > 0 {
      assert (rs + rest)[0] == rs[0] && rs[0][0] == 'x';
    } else {
      assert rs + rest == rest;
      if |rest| > 0 && rest[0] == "mem" {
        assert rest[0][0] == 'm';
      }
    }
  }

  lemma ErrorLiteral()
    ensures |"error"| == 5 && "error"[0] == 'e'
  {
  }

  lemma ParenOf(h: string, x: nat)
    requires |h| >= 1 && ParseHex(h) == Some(x)
    ensures ParenHex("(0x" + h + ")") == Some(x)
  {
    var t := "(0x" + h + ")";
    assert t[..3] == "(0x" && t[|t| - 1] == ')';
    assert t[3..|t| - 1] == h;
  }

  /** The header fields decode to the program counter and instruction word. */
  lemma ParseHeader(p: u32, i: u32, fs: seq<string>, body: Body)
    requires ParseBody(fs) == Some(body)
    ensures ParseWords(["core"] + (["0:", "3", HexTok(p), "(0x" + Hex8(i) + ")"] + fs))
            == Some(View(p, i, body))
  {
    HexTokFacts(p);
    Hex8Exact(i);
    ParenOf(Hex8(i), i);
    ParseHeaderOf(HexTok(p), "(0x" + Hex8(i) + ")", fs, p, i, body);
  }

  lemma ParseHeaderOf(pt: string, it: string, fs: seq<string>, p: nat, i: nat, body: Body)
    requires Hex0x(pt) == Some(p) && ParenHex(it) == Some(i) && ParseBody(fs) == Some(body)
    ensures ParseWords(["core"] + (["0:", "3", pt, it] + fs)) == Some(View(p, i, body))
  {
    HeaderSplit("core", "0:", "3", pt, it, fs);
  }

  lemma HeaderSplit<T>(a: T, b: T, c: T, d: T, e: T, fs: seq<T>)
    ensures var ws := [a] + ([b, c, d, e] + fs);
            |ws| >= 5 && ws[0] == a && ws[1] == b && ws[2] == c && ws[3] == d && ws[4] == e
            && ws[5..] == fs
  {
    var ws := [a] + ([b, c, d, e] + fs);
    assert ws[5..] == fs;
  }

  /** Reading any rendered trace line back recovers exactly what it reports: the program
      counter, the instruction word, and either the trap cause or the write-back, every memory
      access (with store data) and the CSR write. */
  lemma LineRoundTrip(e: RobEntry, addr: u32, error: bool, ecause: u32, rd: u32, result: u32)
    ensures Parse(Line(e, addr, error, ecause, rd, result))
            == Some(Meaning(e, addr, error, ecause, rd, result))
  {
    var fs := FieldTokens(e, error, ecause, rd, result);
    var body := Meaning(e, 0, error, ecause, rd, result).body;
    LineWords(e, addr, error, ecause, rd, result);
    ParseFields(e, error, ecause, rd, result);
    ParseHeader(Wrap32(addr * 4), e.insn, fs, body);
    assert Meaning(e, addr, error, ecause, rd, result) == View(Wrap32(addr * 4), e.insn, body);
  }
}

=== FILE: tracer.dfy ===
/** The retirement-trace engine of the behavioural testbench (behavioral/top.cc).

    The pipeline reports, through DPI calls, the life of every in-flight instruction: decode,
    load/store-queue dispatch, late base-address and store-data updates, CSR writes and
    retirement.  The engine keeps two ID-indexed tables -- one record per reorder-buffer (ROB)
    slot and, per load/store-queue (LSQ) slot, the ROB id that owns it -- merges the partial
    information into one record, and on retirement updates the statistics, renders a
    Spike-format trace line and decides whether the program has finished.

    The source's static tables and counters become one immutable `State`; every DPI handler is a
    function from the old state to the new one.  All counters are C `unsigned` and wrap. */
module Tracer {
  import opened Fmt
  import opened Wrappers
  import TraceLine

  const ROB_SIZE: nat := 128
  const LQ_SIZE: nat := 16
  const SQ_SIZE: nat := 16
  const LSQ_SIZE: nat := LQ_SIZE + SQ_SIZE

  /** Word address of the ROM window and its size in words. */
  const ROM_BASE: nat := 0x1000_0000 / 4
  const ROM_SIZE: nat := (16 * 1024 * 1024) / 4

  type RobEntry = TraceLine.RobEntry

  /** The testbench counters (`stats` in the source). */
  datatype Stats = Stats(
    instret: u32,
    branches: u32,
    mispreds: u32,
    robInflight: u32,
    robHist: seq<u32>,
    lqHist: seq<u32>,
    sqHist: seq<u32>)

  /** `rob_trace`, `lsq_trace`, `stats` and the simulator's finish flag. */
  datatype State = State(rob: seq<RobEntry>, lsq: seq<u8>, stats: Stats, finished: bool)

  /** Table shapes, and every LSQ entry names a ROB slot (it was stored by a dispatch of a
      valid ROB id, or is the initial zero). */
  ghost predicate Valid(s: State) {
    && |s.rob| == ROB_SIZE
    && |s.lsq| == LSQ_SIZE
    && |s.stats.robHist| == ROB_SIZE + 1
    && |s.stats.lqHist| == LQ_SIZE + 1
    && |s.stats.sqHist| == SQ_SIZE + 1
    && (forall i | 0 <= i < LSQ_SIZE :: s.lsq[i] < ROB_SIZE)
  }

  const ZeroEntry: RobEntry := TraceLine.RobEntry(0, 0, false, 0, 0, 0, false)

  /** The zero-initialised static state at simulator start. */
  function Init(): (s: State)
    ensures Valid(s)
    ensures s.stats.robInflight == 0 && s.stats.instret == 0 && !s.finished
    ensures s.stats.branches == 0 && s.stats.mispreds == 0
    ensures forall i | 0 <= i < ROB_SIZE :: s.rob[i] == ZeroEntry
    ensures forall k | 0 <= k < LSQ_SIZE :: s.lsq[k] == 0
    ensures forall b | 0 <= b <= ROB_SIZE :: s.stats.robHist[b] == 0
    ensures forall b | 0 <= b <= LQ_SIZE :: s.stats.lqHist[b] == 0
    ensures forall b | 0 <= b <= SQ_SIZE :: s.stats.sqHist[b] == 0
  {
    State(
      seq(ROB_SIZE, _ => ZeroEntry),
      seq(LSQ_SIZE, _ => 0),
      Stats(0, 0, 0, 0, seq(ROB_SIZE + 1, _ => 0), seq(LQ_SIZE + 1, _ => 0),
            seq(SQ_SIZE + 1, _ => 0)),
      false)
  }

  /** Add one to a histogram bucket, as `hist[i]++` on an unsigned array. */
  function Bump(h: seq<u32>, i: nat): (h': seq<u32>)
    requires i < |h|
    ensures |h'| == |h| && h'[i] == Inc32(h[i])
    ensures forall j | 0 <= j < |h| && j != i :: h'[j] == h[j]
  {
    h[i := Inc32(h[i])]
  }

  // ---------------------------------------------------------------------------------------
  // Event handlers

  /** `tb_trace_decode`: start a fresh record in slot `robid`. */
  function Decode(s: State, robid: u32, insn: u32, imm: u32): (s': State)
    requires Valid(s) && robid < ROB_SIZE
    ensures Valid(s')
    ensures s'.rob[robid].insn == insn && s'.rob[robid].imm == imm
    ensures !s'.rob[robid].usesMem && !s'.rob[robid].writesCsr
    ensures s'.rob[robid].memop == s.rob[robid].memop
    ensures s'.rob[robid].membase == s.rob[robid].membase
    ensures s'.rob[robid].memdata == s.rob[robid].memdata
    ensures forall j | 0 <= j < ROB_SIZE && j != robid :: s'.rob[j] == s.rob[j]
    ensures s'.lsq == s.lsq && s'.finished == s.finished
    ensures s'.stats == s.stats.(robInflight := Inc32(s.stats.robInflight))
  {
    var e := s.rob[robid].(insn := insn, imm := imm, usesMem := false, writesCsr := false);
    s.(rob := s.rob[robid := e],
       stats := s.stats.(robInflight := Inc32(s.stats.robInflight)))
  }

  /** `tb_trace_lsq_dispatch`: remember which ROB slot owns LSQ slot `lsqid` and record the
      memory operation on that slot.  `op` is stored in a `uint8_t`. */
  function LsqDispatch(s: State, robid: u32, lsqid: u32, op: u32, base: u32, wdata: u32)
    : (s': State)
    requires Valid(s) && robid < ROB_SIZE && lsqid < LSQ_SIZE
    ensures Valid(s')
    ensures s'.lsq[lsqid] == robid
    ensures forall k | 0 <= k < LSQ_SIZE && k != lsqid :: s'.lsq[k] == s.lsq[k]
    ensures s'.rob[robid].usesMem && s'.rob[robid].memop == op % 0x100
    ensures s'.rob[robid].membase == base && s'.rob[robid].memdata == wdata
    ensures s'.rob[robid].insn == s.rob[robid].insn && s'.rob[robid].imm == s.rob[robid].imm
    ensures s'.rob[robid].writesCsr == s.rob[robid].writesCsr
    ensures forall j | 0 <= j < ROB_SIZE && j != robid :: s'.rob[j] == s.rob[j]
    ensures s'.stats == s.stats && s'.finished == s.finished
  {
    var e := s.rob[robid].(usesMem := true, memop := op % 0x100, membase := base,
                           memdata := wdata);
    s.(lsq := s.lsq[lsqid := robid], rob := s.rob[robid := e])
  }

  /** `tb_trace_lsq_base`: a late base address for the operation in LSQ slot `lsqid`; it lands
      on whichever ROB slot the last dispatch of `lsqid` named (slot 0 if there was none,
      since the table starts zeroed). */
  function LsqBase(s: State, lsqid: u32, base: u32): (s': State)
    requires Valid(s) && lsqid < LSQ_SIZE
    ensures Valid(s')
    ensures s'.rob[s.lsq[lsqid]] == s.rob[s.lsq[lsqid]].(membase := base)
    ensures forall j | 0 <= j < ROB_SIZE && j != s.lsq[lsqid] :: s'.rob[j] == s.rob[j]
    ensures s'.lsq == s.lsq && s'.stats == s.stats && s'.finished == s.finished
  {
    var r := s.lsq[lsqid];
    s.(rob := s.rob[r := s.rob[r].(membase := base)])
  }

  /** `tb_trace_lsq_wdata`: late store data for the operation in LSQ slot `lsqid`. */
  function LsqWdata(s: State, lsqid: u32, wdata: u32): (s': State)
    requires Valid(s) && lsqid < LSQ_SIZE
    ensures Valid(s')
    ensures s'.rob[s.lsq[lsqid]] == s.rob[s.lsq[lsqid]].(memdata := wdata)
    ensures forall j | 0 <= j < ROB_SIZE && j != s.lsq[lsqid] :: s'.rob[j] == s.rob[j]
    ensures s'.lsq == s.lsq && s'.stats == s.stats && s'.finished == s.finished
  {
    var r := s.lsq[lsqid];
    s.(rob := s.rob[r := s.rob[r].(memdata := wdata)])
  }

  /** Because the tables start zeroed, a late base or data update through an LSQ slot that
      was never dispatched lands in ROB record 0 and leaves every other record alone. */
  lemma UndispatchedUpdateHitsRecordZero(lsqid: u32, v: u32)
    requires lsqid < LSQ_SIZE
    ensures LsqBase(Init(), lsqid, v).rob == Init().rob[0 := ZeroEntry.(membase := v)]
    ensures LsqWdata(Init(), lsqid, v).rob == Init().rob[0 := ZeroEntry.(memdata := v)]
  {
    var s := Init();
    assert s.lsq[lsqid] == 0;
    assert LsqBase(s, lsqid, v).rob[0] == ZeroEntry.(membase := v);
    assert LsqWdata(s, lsqid, v).rob[0] == ZeroEntry.(memdata := v);
  }

  /** `tb_trace_csr_write`: the CSR address and value reuse the base/data fields. */
  function CsrWrite(s: State, robid: u32, addr: u32, data: u32): (s': State)
    requires Valid(s) && robid < ROB_SIZE
    ensures Valid(s')
    ensures s'.rob[robid] == s.rob[robid].(writesCsr := true, membase := addr, memdata := data)
    ensures forall j | 0 <= j < ROB_SIZE && j != robid :: s'.rob[j] == s.rob[j]
    ensures s'.lsq == s.lsq && s'.stats == s.stats && s'.finished == s.finished
  {
    s.(rob := s.rob[robid := s.rob[robid].(writesCsr := true, membase := addr, memdata := data)])
  }

  /** Which output files were configured; an absent file disables its output. */
  datatype Sinks = Sinks(tracing: bool, logging: bool)

  datatype RetireOut = RetireOut(state: State, trace: Option<string>, log: Option<string>)

  /** `tb_log_rob_flush`: the pipeline flushed; nothing is in flight any more. */
  function RobFlush(s: State, sinks: Sinks, simtime: u64): (out: RetireOut)
    requires Valid(s)
    ensures Valid(out.state)
    ensures out.state == s.(stats := s.stats.(robInflight := 0))
    ensures out.trace == None
    ensures out.log.Some? <==> sinks.logging
  {
    RetireOut(s.(stats := s.stats.(robInflight := 0)), None,
              if sinks.logging then Some(FlushLogLine(simtime)) else None)
  }

  /** The log line of a flush: `<time> flush`. */
  function FlushLogLine(simtime: u64): string {
    DecSigned(Signed64(simtime)) + " flush"
  }

  /** The log line of a retirement: `<time> ret <pc> [x<rd>=<value>]`. */
  function RetireLogLine(simtime: u64, addr: u32, rd: u32, result: u32): string {
    DecSigned(Signed64(simtime)) + " ret" + RetireRest(addr, rd, result)
  }

  /** The retirement line after its keyword: the byte address, and the register write
      unless the destination is absent (bit 5 of `rd`). */
  function RetireRest(addr: u32, rd: u32, result: u32): string {
    " " + Hex8(Wrap32(addr * 4))
      + (if !Bit(rd, 5) then " x" + DecDigits(rd % 32) + "=" + Hex8(result) else "")
  }

  /** The counter updates of a retirement: every retirement counts, a branch (bit 6 of
      `retop`) counts as a branch, and as a misprediction only when `mispred` is set too. */
  function RetireStats(st: Stats, retop: u32, mispred: bool): (st': Stats)
    ensures st'.instret == Inc32(st.instret)
    ensures st'.branches == if Bit(retop, 6) then Inc32(st.branches) else st.branches
    ensures st'.mispreds == if Bit(retop, 6) && mispred then Inc32(st.mispreds) else st.mispreds
    ensures st'.robInflight == Dec32(st.robInflight)
    ensures st'.robHist == st.robHist && st'.lqHist == st.lqHist && st'.sqHist == st.sqHist
  {
    var branch := Bit(retop, 6);
    st.(instret := Inc32(st.instret),
        branches := if branch then Inc32(st.branches) else st.branches,
        mispreds := if branch && mispred then Inc32(st.mispreds) else st.mispreds,
        robInflight := Dec32(st.robInflight))
  }

  /** `tb_trace_rob_retire`: count the retirement, render the trace and log lines from the
      merged record, and raise the finish flag on a store to the tohost word. */
  function Retire(s: State, sinks: Sinks, simtime: u64, robid: u32, retop: u32, addr: u32,
                  error: bool, mispred: bool, ecause: u32, rd: u32, result: u32)
    : (out: RetireOut)
    requires Valid(s) && robid < ROB_SIZE
    ensures Valid(out.state)
    ensures out.state.rob == s.rob && out.state.lsq == s.lsq
    ensures out.state.stats == RetireStats(s.stats, retop, mispred)
    ensures out.state.finished <==> (s.finished || TraceLine.Terminates(s.rob[robid], error))
    ensures out.trace == if sinks.tracing
                         then Some(TraceLine.Line(s.rob[robid], addr, error, ecause, rd, result))
                         else None
    ensures out.log == if sinks.logging then Some(RetireLogLine(simtime, addr, rd, result))
                       else None
  {
    var e := s.rob[robid];
    var trace := if sinks.tracing
                 then Some(TraceLine.Line(e, addr, error, ecause, rd, result)) else None;
    var log := if sinks.logging then Some(RetireLogLine(simtime, addr, rd, result)) else None;
    var fin := s.finished || TraceLine.Terminates(e, error);
    RetireOut(s.(stats := RetireStats(s.stats, retop, mispred), finished := fin), trace, log)
  }

  /** The trace line of a retirement reports exactly the merged record: reading it back gives
      the pc, the instruction, and the trap or the write-back, accesses and CSR write. */
  lemma RetireTraceReportsRecord(s: State, simtime: u64, robid: u32, retop: u32, addr: u32,
                                 error: bool, mispred: bool, ecause: u32, rd: u32, result: u32)
    requires Valid(s) && robid < ROB_SIZE
    ensures var out := Retire(s, Sinks(true, false), simtime, robid, retop, addr, error,
                              mispred, ecause, rd, result);
            out.trace.Some?
            && TraceLine.Parse(out.trace.value)
               == Some(TraceLine.Meaning(s.rob[robid], addr, error, ecause, rd, result))
  {
    TraceLine.LineRoundTrip(s.rob[robid], addr, error, ecause, rd, result);
  }

  // ---------------------------------------------------------------------------------------
  // Occupancy statistics

  /** Number of set bits among the low `n` bits of x: the reference for the counting loops. */
  function Popcount(x: nat, n: nat): (c: nat)
    ensures c <= n
  {
    if n == 0 then 0 else Popcount(x, n - 1) + (if Bit(x, n - 1) then 1 else 0)
  }

  /** `tb_log_lsq_inflight`: count the valid load- and store-queue entries (low 16 bits of
      each mask) and bump exactly one bucket of each histogram. */
  method LsqInflight(s: State, lqValid: u32, sqValid: u32) returns (s': State, lq: nat, sq: nat)
    requires Valid(s)
    ensures Valid(s')
    ensures lq == Popcount(lqValid, LQ_SIZE) && lq <= LQ_SIZE
    ensures sq == Popcount(sqValid, SQ_SIZE) && sq <= SQ_SIZE
    ensures s'.stats.lqHist == Bump(s.stats.lqHist, lq)
    ensures s'.stats.sqHist == Bump(s.stats.sqHist, sq)
    ensures s' == s.(stats := s.stats.(lqHist := s'.stats.lqHist, sqHist := s'.stats.sqHist))
  {
    var cnt := 0;
    var i := 0;
    while i < LQ_SIZE
      invariant 0 <= i <= LQ_SIZE
      invariant cnt == Popcount(lqValid, i)
    {
      if (lqValid / Pow2(i)) % 2 == 1 {
        cnt := cnt + 1;
      }
      i := i + 1;
    }
    lq := cnt;
    var lqHist := Bump(s.stats.lqHist, lq);

    cnt := 0;
    i := 0;
    while i < SQ_SIZE
      invariant 0 <= i <= SQ_SIZE
      invariant cnt == Popcount(sqValid, i)
    {
      if (sqValid / Pow2(i)) % 2 == 1 {
        cnt := cnt + 1;
      }
      i := i + 1;
    }
    sq := cnt;
    var sqHist := Bump(s.stats.sqHist, sq);
    s' := s.(stats := s.stats.(lqHist := lqHist, sqHist := sqHist));
  }

  /** The per-cycle sample in `tick`: outside reset, bump the bucket of the current ROB
      occupancy.  The source indexes the array unchecked, so the occupancy must be in range. */
  function SampleRobOccupancy(s: State, rst: bool): (s': State)
    requires Valid(s) && (!rst ==> s.stats.robInflight <= ROB_SIZE)
    ensures Valid(s')
    ensures rst ==> s' == s
    ensures !rst ==> s' == s.(stats := s.stats.(
                       robHist := Bump(s.stats.robHist, s.stats.robInflight)))
  {
    if rst then s
    else s.(stats := s.stats.(robHist := Bump(s.stats.robHist, s.stats.robInflight)))
  }

  /** `tb_mem_read`: the instruction ROM answers word addresses inside its 16 MiB window and
      reads as zero everywhere else. */
  function MemRead(rom: seq<u32>, addr: u32): (r: u32)
    requires |rom| == ROM_SIZE
    ensures ROM_BASE <= addr < ROM_BASE + ROM_SIZE ==> r == rom[addr - ROM_BASE]
    ensures !(ROM_BASE <= addr < ROM_BASE + ROM_SIZE) ==> r == 0
  {
    if ROM_BASE <= addr < ROM_BASE + ROM_SIZE then rom[addr - ROM_BASE] else 0
  }

  /** The ROM window in byte terms: a word address is answered from the ROM exactly when its
      byte address lies in [0x10000000, 0x11000000). */
  lemma RomWindowBytes(rom: seq<u32>, addr: u32)
    requires |rom| == ROM_SIZE
    ensures 0x1000_0000 <= addr * 4 < 0x1100_0000 <==> ROM_BASE <= addr < ROM_BASE + ROM_SIZE
    ensures !(0x1000_0000 <= addr * 4 < 0x1100_0000) ==> MemRead(rom, addr) == 0
  {
  }

  // ---------------------------------------------------------------------------------------
  // Event streams

  /** One DPI call of the pipeline, with its arguments. */
  datatype Event =
    | DecodeEv(robid: u32, insn: u32, imm: u32)
    | DispatchEv(robid: u32, lsqid: u32, op: u32, base: u32, wdata: u32)
    | BaseEv(lsqid: u32, base: u32)
    | WdataEv(lsqid: u32, wdata: u32)
    | CsrEv(robid: u32, addr: u32, data: u32)
    | RetireEv(robid: u32, retop: u32, addr: u32, error: bool, mispred: bool, ecause: u32,
               rd: u32, result: u32)
    | FlushEv

  /** The ids an event carries index the tables. */
  predicate InRange(ev: Event) {
    match ev
    case DecodeEv(r, _, _) => r < ROB_SIZE
    case DispatchEv(r, l, _, _, _) => r < ROB_SIZE && l < LSQ_SIZE
    case BaseEv(l, _) => l < LSQ_SIZE
    case WdataEv(l, _) => l < LSQ_SIZE
    case CsrEv(r, _, _) => r < ROB_SIZE
    case RetireEv(r, _, _, _, _, _, _, _) => r < ROB_SIZE
    case FlushEv => true
  }

  predicate AllInRange(evs: seq<Event>) {
    forall i | 0 <= i < |evs| :: InRange(evs[i])
  }

  /** The table and counter effect of one event (output lines are not part of the state). */
  function Step(s: State, ev: Event): (s': State)
    requires Valid(s) && InRange(ev)
    ensures Valid(s')
  {
    match ev
    case DecodeEv(r, insn, imm) => Decode(s, r, insn, imm)
    case DispatchEv(r, l, op, base, wdata) => LsqDispatch(s, r, l, op, base, wdata)
    case BaseEv(l, base) => LsqBase(s, l, base)
    case WdataEv(l, wdata) => LsqWdata(s, l, wdata)
    case CsrEv(r, a, d) => CsrWrite(s, r, a, d)
    case RetireEv(r, retop, a, err, mis, ec, rd, res) =>
      Retire(s, Sinks(false, false), 0, r, retop, a, err, mis, ec, rd, res).state
    case FlushEv => RobFlush(s, Sinks(false, false), 0).state
  }

  /** The state after a stream of events, applied in order. */
  function Run(s: State, evs: seq<Event>): (s': State)
    requires Valid(s) && AllInRange(evs)
    ensures Valid(s')
    decreases |evs|
  {
    if |evs| == 0 then s else Step(Run(s, evs[..|evs| - 1]), evs[|evs| - 1])
  }

  /** The events after the last flush (all of them when there was none). */
  function SinceFlush(evs: seq<Event>): seq<Event> {
    if |evs| == 0 then []
    else if evs[|evs| - 1].FlushEv? then []
    else SinceFlush(evs[..|evs| - 1]) + [evs[|evs| - 1]]
  }

  predicate HasFlush(evs: seq<Event>) {
    exists i | 0 <= i < |evs| :: evs[i].FlushEv?
  }

  function CountDecodes(evs: seq<Event>): nat {
    if |evs| == 0 then 0
    else CountDecodes(evs[..|evs| - 1]) + (if evs[|evs| - 1].DecodeEv? then 1 else 0)
  }

  function CountRetires(evs: seq<Event>): nat {
    if |evs| == 0 then 0
    else CountRetires(evs[..|evs| - 1]) + (if evs[|evs| - 1].RetireEv? then 1 else 0)
  }

  /** How one event moves the in-flight counter. */
  lemma StepInflight(s: State, ev: Event)
    requires Valid(s) && InRange(ev)
    ensures Step(s, ev).stats.robInflight
            == if ev.DecodeEv? then Inc32(s.stats.robInflight)
               else if ev.RetireEv? then Dec32(s.stats.robInflight)
               else if ev.FlushEv? then 0
               else s.stats.robInflight
  {
  }

  /** The counter value the events predict. */
  function ExpectedInflight(s: State, evs: seq<Event>): u32 {
    Wrap32((if HasFlush(evs) then 0 else s.stats.robInflight)
           + CountDecodes(SinceFlush(evs)) - CountRetires(SinceFlush(evs)))
  }

  /** The in-flight counter is the number of decodes minus the number of retirements since
      the last flush (counted from its starting value when there was no flush), in uint32
      arithmetic. */
  lemma {:induction false} InflightCount(s: State, evs: seq<Event>)
    requires Valid(s) && AllInRange(evs)
    ensures Run(s, evs).stats.robInflight == ExpectedInflight(s, evs)
    decreases |evs|
  {
    if |evs| > 0 {
      var init, ev := evs[..|evs| - 1], evs[|evs| - 1];
      assert AllInRange(init);
      assert init + [ev] == evs;
      InflightCount(s, init);
      StepInflight(Run(s, init), ev);
      ExpectedStep(s, init, ev);
    }
  }

  lemma ExpectedStep(s: State, init: seq<Event>, ev: Event)
    ensures ExpectedInflight(s, init + [ev])
            == if ev.DecodeEv? then Inc32(ExpectedInflight(s, init))
               else if ev.RetireEv? then Dec32(ExpectedInflight(s, init))
               else if ev.FlushEv? then 0
               else ExpectedInflight(s, init)
  {
    var evs := init + [ev];
    assert evs[..|evs| - 1] == init && evs[|evs| - 1] == ev;
    var since := SinceFlush(init);
    var b := if HasFlush(init) then 0 else s.stats.robInflight;
    var x := b + CountDecodes(since) - CountRetires(since);
    HasFlushLast(init, ev);
    if !ev.FlushEv? {
      var since' := since + [ev];
      assert SinceFlush(evs) == since';
      assert since'[..|since'| - 1] == since;
      if ev.DecodeEv? {
        Wrap32Add(x, 1);
      } else if ev.RetireEv? {
        Wrap32Add(x, -1);
      }
    }
  }

  lemma HasFlushLast(init: seq<Event>, ev: Event)
    ensures HasFlush(init + [ev]) <==> HasFlush(init) || ev.FlushEv?
  {
    var evs := init + [ev];
    if HasFlush(init) {
      var i :| 0 <= i < |init| && init[i].FlushEv?;
      assert evs[i] == init[i];
    }
    if ev.FlushEv? {
      assert evs[|init|] == ev;
    }
    if HasFlush(evs) {
      var i :| 0 <= i < |evs| && evs[i].FlushEv?;
      if i < |init| {
        assert init[i] == evs[i];
      }
    }
  }

  /** The ROB slot that LSQ slot `l` names after the events: the one of the last dispatch into
      `l`, or the slot it named before when no dispatch used it. */
  function Owner(s: State, evs: seq<Event>, l: nat): nat
    requires Valid(s) && l < LSQ_SIZE
  {
    if |evs| == 0 then s.lsq[l]
    else
      match evs[|evs| - 1]
      case DispatchEv(r, l', _, _, _) => if l' == l then r % 0x100 else Owner(s, evs[..|evs| - 1], l)
      case _ => Owner(s, evs[..|evs| - 1], l)
  }

  /** The LSQ table always names the owner of the last dispatch, so a late base address or
      store data lands on the record of the instruction that last used the slot. */
  lemma {:induction false} LsqNamesLastDispatch(s: State, evs: seq<Event>, l: nat)
    requires Valid(s) && AllInRange(evs) && l < LSQ_SIZE
    ensures Run(s, evs).lsq[l] == Owner(s, evs, l)
    decreases |evs|
  {
    if |evs| > 0 {
      var init := evs[..|evs| - 1];
      assert AllInRange(init);
      LsqNamesLastDispatch(s, init, l);
    }
  }

  /** A late base address and late store data for the slot just dispatched update only that
      record's address base and data; every other record and field is unchanged. */
  lemma LateUpdatesMerge(s: State, robid: u32, lsqid: u32, op: u32, base: u32, wdata: u32,
                         base': u32, wdata': u32)
    requires Valid(s) && robid < ROB_SIZE && lsqid < LSQ_SIZE
    ensures var s1 := LsqDispatch(s, robid, lsqid, op, base, wdata);
            var s2 := LsqWdata(LsqBase(s1, lsqid, base'), lsqid, wdata');
            && s2.rob[robid] == s1.rob[robid].(membase := base', memdata := wdata')
            && (forall j | 0 <= j < ROB_SIZE && j != robid :: s2.rob[j] == s.rob[j])
            && s2.lsq == s1.lsq && s2.stats == s.stats
  {
  }
}

=== FILE: uart.dfy ===
/** `plugins/uart.cpp`: Spike's memory-mapped UART plugin.  Offset 0 reads the status flags,
    offset 4 the (always empty) receive FIFO, and offset 8 takes a byte to transmit.  The
    transmitted byte is returned instead of written to standard output. */
module Uart {
  import opened Wrappers
  import opened Fmt

  const STATUS: u64 := 0
  const RX: u64 := 4
  const TX: u64 := 8

  /** The widest access `load` serves. */
  const MAX_LEN: nat := 4

  /** `getStatus`'s flag byte: bit 0 receive FIFO empty, bit 1 receive FIFO full, bit 2
      transmit FIFO empty, bit 3 transmit FIFO full. */
  function StatusBits(rxempty: bool, rxfull: bool, txempty: bool, txfull: bool): u8 {
    (if rxempty then 1 else 0) + (if rxfull then 2 else 0)
    + (if txempty then 4 else 0) + (if txfull then 8 else 0)
  }

  /** The four flags can be read back from the status byte. */
  lemma StatusBitsDecode(rxempty: bool, rxfull: bool, txempty: bool, txfull: bool)
    ensures var s := StatusBits(rxempty, rxfull, txempty, txfull);
            s < 16 && Bit(s, 0) == rxempty && Bit(s, 1) == rxfull
            && Bit(s, 2) == txempty && Bit(s, 3) == txfull
  {
    assert Pow2(0) == 1 && Pow2(1) == 2 && Pow2(2) == 4 && Pow2(3) == 8;
  }

  /** The plugin never has input and can always send. */
  function Status(): u8 {
    StatusBits(true, false, true, false)
  }

  lemma StatusIsFive()
    ensures Status() == 5
    ensures Bit(Status(), 0) && !Bit(Status(), 1) && Bit(Status(), 2) && !Bit(Status(), 3)
  {
    StatusBitsDecode(true, false, true, false);
  }

  /** The 32-bit register value at a readable offset. */
  function Register(addr: u64): u32
    requires addr == STATUS || addr == RX
  {
    if addr == STATUS then Status() else 0
  }

  function Pow256(n: nat): (r: nat)
    ensures r >= 1
  {
    if n == 0 then 1 else 256 * Pow256(n - 1)
  }

  /** The `n` low bytes of `v`, least significant first. */
  function LeBytes(v: nat, n: nat): (bs: seq<u8>)
    ensures |bs| == n
  {
    if n == 0 then [] else [v % 256] + LeBytes(v / 256, n - 1)
  }

  /** The number a little-endian byte sequence denotes. */
  function LeValue(bs: seq<u8>): nat {
    if |bs| == 0 then 0 else bs[0] + 256 * LeValue(bs[1..])
  }

  /** `load`: refuse accesses wider than four bytes and unknown offsets; otherwise fill
      `len` bytes from the register, low byte first, shifting it down a byte at a time. */
  method Load(addr: u64, len: u64) returns (r: Option<seq<u8>>)
    ensures r.None? <==> len > MAX_LEN || (addr != STATUS && addr != RX)
    ensures r.Some? ==> r.value == LeBytes(Register(addr), len)
    ensures r.Some? ==> forall i | 0 <= i < len ::
                          r.value[i] == (Register(addr) / Pow256(i)) % 256
  {
    if len > MAX_LEN as u64 {
      return None;
    }
    var value: nat;
    if addr == STATUS {
      value := Status();
    } else if addr == RX {
      value := 0;
    } else {
      return None;
    }
    var bytes: seq<u8> := [];
    var left: nat := len;
    while left > 0
      invariant left <= len
      invariant |bytes| + left == len
      invariant bytes + LeBytes(value, left) == LeBytes(Register(addr), len)
    {
      assert LeBytes(value, left) == [value % 256] + LeBytes(value / 256, left - 1);
      bytes := bytes + [value % 256];
      value := value / 256;
      left := left - 1;
    }
    assert bytes == LeBytes(Register(addr), len);
    LeBytesDigits(Register(addr), len);
    return Some(bytes);
  }

  /** Byte `i` of `LeBytes(v, n)` is `(v >> 8i) & 0xff`. */
  lemma {:induction false} LeBytesDigits(v: nat, n: nat)
    ensures forall i | 0 <= i < n :: LeBytes(v, n)[i] == (v / Pow256(i)) % 256
    decreases n
  {
    if n > 0 {
      LeBytesDigits(v / 256, n - 1);
      forall i | 0 <= i < n
        ensures LeBytes(v, n)[i] == (v / Pow256(i)) % 256
      {
        if i > 0 {
          assert LeBytes(v, n)[i] == LeBytes(v / 256, n - 1)[i - 1];
          DivDiv(v, 256, Pow256(i - 1));
        }
      }
    }
  }

  /** Reading the bytes back gives the register's low `n` bytes: the whole register for a
      four-byte load. */
  lemma {:induction false} LeRoundTrip(v: nat, n: nat)
    ensures LeValue(LeBytes(v, n)) == v % Pow256(n)
    decreases n
  {
    if n > 0 {
      var bs := LeBytes(v, n);
      assert bs[1..] == LeBytes(v / 256, n - 1);
      LeRoundTrip(v / 256, n - 1);
      var p := Pow256(n - 1);
      var hi := (v / 256) % p;
      var q := (v / 256) / p;
      assert v / 256 == q * p + hi;
      assert v == q * (256 * p) + (v % 256 + 256 * hi);
      assert v % 256 + 256 * hi < 256 * p by {
        assert hi <= p - 1;
      }
      DivModUnique(v, 256 * p, q, v % 256 + 256 * hi);
    }
  }

  lemma WordLoadRoundTrip(v: u32)
    ensures LeValue(LeBytes(v, 4)) == v
  {
    LeRoundTrip(v, 4);
    assert Pow256(4) == TWO32;
  }

  /** `store`: only the transmit offset is writable, and only the first byte of the access
      is sent (the access length is not consulted).  Yields the byte sent. */
  function Store(addr: u64, bytes: seq<u8>): (sent: Option<u8>)
    requires |bytes| > 0
    ensures sent.Some? <==> addr == TX
  {
    if addr == TX then Some(bytes[0]) else None
  }

  /** Bytes after the first never reach the terminal. */
  lemma StoreSendsFirstByte(addr: u64, bytes: seq<u8>)
    requires |bytes| > 0
    ensures Store(addr, bytes) == Store(addr, bytes[..1])
    ensures Store(addr, bytes).Some? ==> Store(addr, bytes).value == bytes[0]
  {
  }
}

=== FILE: wrappers.dfy ===
/** Failure-compatible wrappers used across the model: `Option` for values that may be absent
    (a C null pointer, a Python `None`) and `Result` for operations whose source raises or
    reports an error. */
module Wrappers {

  datatype Option<+T> = None | Some(value: T) {

    predicate IsFailure() {
      None?
    }

    function PropagateFailure<U>(): Option<U>
      requires None?
    {
      None
    }

    function Extract(): T
      requires Some?
    {
      value
    }

    /** The wrapped value, or `default` when absent. */
    function GetOr(default: T): T {
      match this
      case Some(v) => v
      case None => default
    }
  }

  datatype Result<+R, +E> = Success(value: R) | Failure(error: E) {

    predicate IsFailure() {
      Failure?
    }

    function PropagateFailure<U>(): Result<U, E>
      requires Failure?
    {
      Failure(error)
    }

    function Extract(): R
      requires Success?
    {
      value
    }
  }
}
